=== FILE: README.md ===
# Voxly summarisation core in Dafny

Voxly turns an uploaded meeting recording into a structured summary. The
summary has four parts: decisions, key points, next steps and action items.

This project models the deterministic core of that flow as pure Dafny
functions over immutable data, and proves properties of them. The core
consists of:

- **The LLM layer** (`lib/llm/`):
  - the prompt builder and its five templates;
  - the two adapters, OpenAI and Gemini, each with:
    - a model-candidate list;
    - a rate-limit classifier;
    - model-level fallback;
    - JSON-output coercion;
    - prompt construction;
    - input guards;
  - the agent, which chooses a provider order and fails over between
    providers.
- **The job pipeline** (`inngest/functions.ts`). It loads a job, marks it
  processing, signs the file URL, transcribes, summarises and writes the
  result. Any failure inside the `try` marks the job "error" and is
  rethrown.
- **The synchronous processing route** (`app/api/transcriptions/process/route.ts`).
  It does the same as the pipeline with HTTP answers, and it does not catch
  service failures.
- **The training-data and upload routes.** These cover template-name
  resolution, storage keys, and the records they create.
- **The dashboard's pure helpers** (`app/dashboard/TranscriptionClient.tsx`):
  truncation, summary coercion, assistant suggestions, and the choice of the
  latest finished summary.

All outside calls are function parameters (oracles) that return a
`Result`. These are:

- the LLM SDK completions;
- `JSON.parse` and `JSON.stringify`;
- URL signing and Deepgram transcription;
- S3 upload and file reads;
- the summariser as seen by the pipeline.

Environment variables, the clock and freshly generated database ids are
plain parameters.

A failover loop returns an `Attempt`. It holds the list of candidates
actually tried, in order, and the final result. That list is what makes
these properties statable:

- the first success stops the loop;
- a failure that is not rate-limited stops it;
- the last error wins;
- the attempt-count bounds.

Modules follow the source files:

| module | models |
|---|---|
| `Wrappers` | `Option` / `Result` |
| `Strings` | JS `trim`, case mapping and `split`/`join` on ASCII |
| `Seqs` | the map-then-filter shape of `.map(...).filter(Boolean)` |
| `Json` | a small `JsonValue` with JS truthiness |
| `Errors` | the fields an error may carry |
| `PromptBuilder` | `promptBuilder.js` |
| `Normalizer` | `normalize`, `normalizeSummary`, `normalizeChatMessages` and `parseJsonLoose`, which are identical in both adapters |
| `Fallback` | both loops |
| `Replies` | the reply handling inside the adapters' `withModelFallback` callbacks, the same in both |
| `OpenAi`, `Gemini` | the two adapters |
| `Parity` | where the adapters agree and differ |
| `Agent` | `agent.js` |
| `Jobs` | the job store and `extractTranscript` |
| `Pipeline` | `processMeetingAudio` |
| `ProcessRoute` | the process route |
| `TrainingData` | the training-data route |
| `Uploads` | the upload route |
| `Dashboard` | the dashboard helpers |

## Behaviour worth knowing

These points of the code are easy to miss, and the model keeps each:

- **The loose JSON parse can fail.** The retry parse of the `{...}` span is
  not guarded (`lib/llm/openai.js:118`, `lib/llm/gemini.js:123`), so a
  reply whose whole text and brace span both fail to parse throws.
  `Normalizer.ParseJsonLoose` therefore returns a `Result` that fails with
  `JsonSyntax`.
- **A job can stay at "processing".** The pipeline catches every failure
  after the job is loaded and marks it "error" (`inngest/functions.ts:115-120`),
  so a run ends at "done" or "error", provided the mark-error write
  succeeds (`Pipeline.NeverLeftProcessing`). That write swallows its own
  failure (`inngest/functions.ts:37-46`), and the model does not fail it.
  The synchronous route does not catch a signing, transcription or
  summarisation failure, so the job stays at processing
  (`ProcessRoute.FailureLeavesProcessing`).
- **Provider order.** Preferring "openai" still tries Gemini first
  (`lib/llm/agent.js:15-21`, `Agent.OpenAiPreferenceKeepsDefaultOrder`).
- **Chat guards differ between adapters.** The OpenAI chat guard checks the
  message list after two system messages have been prepended, so it never
  fires (`lib/llm/openai.js:184-187`, `OpenAi.ChatGuardNeverFires`). The
  Gemini guard checks the cleaned history and does fire
  (`lib/llm/gemini.js:181-184`, `Parity.ChatGuardsDiffer`).

## Model

| member | source | states |
|---|---|---|
| PromptBuilder.NormalizeTemplate | lib/llm/promptBuilder.js:2-41 | The result is always one of the five template keys. It is the argument itself exactly when the argument is a key, and "default" otherwise, including when no template is given. |
| PromptBuilder.NormalizeTemplateIdempotent | lib/llm/promptBuilder.js:37-41 | Normalising a normalised name changes nothing. |
| PromptBuilder.TemplateContextOfNormalized | lib/llm/promptBuilder.js:71-73 | After normalisation, the context lookup returns that template's own section, so the `|| templates.default` fallback is never taken. |
| PromptBuilder.BuildPromptNormalizes | lib/llm/promptBuilder.js:43-44 | The prompt for any template equals the prompt for its normalised name. |
| PromptBuilder.UnknownTemplateIsDefault | lib/llm/promptBuilder.js:43-44 | Any name that is not a template key yields the same prompt as "default". |
| PromptBuilder.OmittedTemplateIsDefault | lib/llm/promptBuilder.js:43 | Omitting the template argument gives the prompt for "default". |
| PromptBuilder.PromptLayout | lib/llm/promptBuilder.js:45-60 | For a transcript with text, `BuildPrompt` gives the role, the template's context, the core rules, the schema, the checklist, the two-pass rules and "Transcript:\n", in order, followed by the transcript with only its trailing white space trimmed. |
| PromptBuilder.PromptLayoutBlank | lib/llm/promptBuilder.js:45-60 | For a blank transcript, the prompt ends with the "Transcript:" heading. The trailing newline and the transcript are trimmed away. |
| Normalizer.Normalize | lib/llm/openai.js:53-60 | Each of the four fields is exactly the parsed object's value under that key when that value is an array, and empty otherwise. Input that is not an object gives the empty summary. |
| Normalizer.NormalizeSummaryToJson | lib/llm/openai.js:53-60 | Normalising a summary's own JSON gives back that summary, so no array content is lost. |
| Normalizer.NormalizeIdempotent | lib/llm/openai.js:53-67 | Normalising the JSON of a normalised summary changes nothing. |
| Normalizer.NormalizeSummaryIsNormalize | lib/llm/openai.js:62-67 | A present summary is normalised. An absent one becomes the empty summary. |
| Normalizer.CleanEntry | lib/llm/openai.js:72-78 | An entry is kept iff it is an object whose content is a string that does not trim to empty. A kept entry's content is that string trimmed, and its role is assistant exactly when the role field is the string "assistant". |
| Normalizer.NormalizeChatMessages | lib/llm/openai.js:69-80 | Input that is not an array gives no messages. For an array, the output is exactly the entries that `CleanEntry` keeps, in their original order: the k-th message is the cleaned form of the k-th kept entry, and no kept entry is missing. |
| Normalizer.CleanAllAppend | lib/llm/openai.js:69-80 | Cleaning distributes over concatenation, so order is preserved and each entry is judged on its own. |
| Normalizer.CleanAllKeepsValid | lib/llm/openai.js:69-80 | When every entry is kept, the output has the input's length and holds each entry's cleaned form at the same index. |
| Normalizer.CleanAllOfHistory | lib/llm/openai.js:69-80 | Cleaning the JSON of a cleaned history gives back that history. |
| Normalizer.NormalizeChatMessagesIdempotent | lib/llm/openai.js:69-80 | Cleaning a cleaned history changes nothing. |
| Normalizer.EntryOfStrings | lib/llm/openai.js:72-78 | An entry with string role and content is dropped iff its content trims to empty. Otherwise it keeps the trimmed content, and the role is assistant only for exactly "assistant". |
| Normalizer.ExampleUnknownRole | lib/llm/openai.js:72-78 | An entry whose role is not "assistant" is kept as a user message. |
| Normalizer.ExampleEmptyContent | lib/llm/openai.js:72-78 | An entry with empty content is dropped. |
| Normalizer.ExampleAssistant | lib/llm/openai.js:72-78 | An assistant entry keeps its role and its content is trimmed. |
| Normalizer.CleanAllOfThree | lib/llm/openai.js:69-80 | When the middle of three entries is dropped, the history holds the other two in their original order. |
| Normalizer.ChatExample | lib/llm/openai.js:69-80 | A worked history: an unknown role becomes user, an entry with empty content is dropped, an assistant entry's content is trimmed, and the two kept messages stay in order. |
| Normalizer.BraceSpan | lib/llm/openai.js:116 | A span exists iff some "}" follows some "{". The span runs from the first "{" to the last "}". |
| Normalizer.ParseJsonLoose | lib/llm/openai.js:111-122 | Empty input gives `{}`. Text that parses is returned as parsed. Otherwise a brace span that parses is returned as parsed, and no span gives `{}`. The only failure is a syntax error, when the whole text and the span both fail to parse. |
| Normalizer.ParseJsonLooseOfWrapped | lib/llm/openai.js:111-122 | A JSON object wrapped in text with no "{" before it and no "}" after it, a fenced block say, is recovered: when the whole text does not parse, the result is the object's parsed value. |
| Fallback.WithModelFallback | lib/llm/openai.js:28-51 | The models tried are a prefix of the list. The result is the last tried model's outcome, and every earlier model failed with a rate-limited error. A failure either is not rate-limited or comes after every model was tried. An empty list fails with an undefined error. |
| Fallback.FirstSuccessStops | lib/llm/openai.js:28-33 | If the first k models are rate-limited and model k succeeds, the loop tries exactly k+1 models and returns that success. |
| Fallback.NonRateLimitedStops | lib/llm/openai.js:46-49 | The first failure that is not rate-limited stops the loop, and that error is the result. |
| Fallback.AllRateLimited | lib/llm/openai.js:46-50 | When every model is rate-limited, all are tried and the last model's error is the result. |
| Fallback.RunWithProviders | lib/llm/agent.js:23-33 | The providers tried are a prefix of the order. Every earlier provider failed, whatever the error. A failure means every provider was tried and the last error is the result. An empty order fails with an undefined error. |
| Fallback.ProvidersAreModelFallbackWithoutClassification | lib/llm/agent.js:23-33 | The provider loop is the model loop with every error treated as retryable. |
| Fallback.ModelAndProviderLevelsDiffer | lib/llm/agent.js:29-31 | For the same first failure that is not rate-limited, the model loop stops while the provider loop moves on to the second candidate. |
| OpenAi.ModelList | lib/llm/openai.js:5-8 | The configured models are exactly the pieces of the comma split that do not trim to empty, each trimmed, in their original order. None is empty or holds a comma. |
| OpenAi.ModelCandidates | lib/llm/openai.js:22-26 | An explicit model gives exactly that model. Otherwise the candidates are the configured list when it is non-empty, and "gpt-4o-mini" alone when it is empty. The list is never empty. |
| OpenAi.CandidatesFromEnvironment | lib/llm/openai.js:22-26 | Candidates are never empty. An explicit model gives exactly that model. Otherwise the candidates are the configured list, or "gpt-4o-mini" when nothing is configured. |
| OpenAi.RateLimitedIff | lib/llm/openai.js:35-38 | `IsRateLimited` holds of an error iff the first present of status, statusCode and response.status is 429, or the first truthy of code and error.code is "rate_limit_exceeded" or "429". |
| OpenAi.StatusTakesPrecedence | lib/llm/openai.js:35 | A present status hides statusCode. An empty code falls through to the nested code. |
| OpenAi.EditPromptProperties | lib/llm/openai.js:82-109 | The edit prompt contains the user's request verbatim at a fixed place, and depends on the summary only through its normalised form. |
| OpenAi.WithSystem | lib/llm/openai.js:161-177 | The instructions come first and the summary context second. Each later message keeps its content, and is an assistant message exactly when the cleaned message was. |
| OpenAi.BuildChatMessages | lib/llm/openai.js:161-177 | The message list is two system messages followed by the cleaned history, in order, with the roles mapped. |
| Replies.JsonReply | lib/llm/openai.js:151-157 | A backend failure is passed on unchanged. Otherwise the reply text, or "{}" when it is missing or empty, is loosely parsed: a parsed value gives its normalised summary, and a failed parse gives a JSON syntax error. |
| Replies.JsonReplyOfSummary | lib/llm/openai.js:151-157 | A reply whose text parses as a summary's JSON gives back that summary. A missing or empty reply gives the empty summary when "{}" parses as the empty object. |
| Replies.JsonFallback | lib/llm/openai.js:141-158 | The models tried are a non-empty prefix of the list, and an empty list fails with an undefined error. The result is the JSON reply of the last model tried, and every earlier one failed rate-limited. A failure is not rate-limited or comes after every model. |
| OpenAi.Summarize | lib/llm/openai.js:124-159 | A blank transcript is rejected, then a missing key, both before any model is called. Otherwise the models tried are a non-empty prefix of the candidates, each called in JSON mode with the system message and the prompt for the transcript and normalised template. The result is the JSON reply of the last model tried, and every earlier one failed rate-limited. |
| OpenAi.Edit | lib/llm/openai.js:210-245 | A blank prompt is rejected, then a missing key, both before any model is called. Otherwise the models tried are a non-empty prefix of the candidates, each called in JSON mode with the edit system message and the edit prompt. The result is the JSON reply of the last model tried, and every earlier one failed rate-limited. |
| Replies.TextReply | lib/llm/openai.js:201-206 | A backend failure is passed on unchanged. Otherwise the result is the reply text trimmed, or "" when there is none. |
| Replies.TextReplyOfTrimmed | lib/llm/openai.js:201-206 | Trimming the reply text first changes nothing, and a missing or empty reply answers "". |
| Replies.TextFallback | lib/llm/gemini.js:190-203 | The models tried are a non-empty prefix of the list, and an empty list fails with an undefined error. The result is the text reply of the last model tried, and every earlier one failed rate-limited. A failure is not rate-limited or comes after every model. An answer is trimmed. |
| OpenAi.Chat | lib/llm/openai.js:179-208 | A missing key is rejected before any call. Otherwise the models tried are a non-empty prefix of the candidates, each called with the two system messages followed by the cleaned history. The result is the trimmed text reply of the last model tried, and every earlier one failed rate-limited. |
| OpenAi.ChatGuardNeverFires | lib/llm/openai.js:184-187 | With a key, even an empty history reaches the backend, because two system messages are always prepended. |
| OpenAi.SummarizeExplicitModel | lib/llm/openai.js:124-159 | Past the guards, an explicit model is the only model tried by summarisation. |
| OpenAi.EditExplicitModel | lib/llm/openai.js:210-245 | Past the guards, an explicit model is the only model tried by an edit. |
| OpenAi.ChatExplicitModel | lib/llm/openai.js:179-208 | With a key, an explicit model is the only model tried by chat. |
| Gemini.NormalizeModelIsTrim | lib/llm/gemini.js:23-28 | `NormalizeModel` gives none for a falsy model and the trimmed text of any other model; the "gemini-2.5-flash" branch changes nothing. |
| Gemini.ModelList | lib/llm/gemini.js:5-8 | The configured models are exactly the pieces of the comma split that do not normalise to empty, each trimmed, in their original order. None is empty. |
| Gemini.ModelCandidates | lib/llm/gemini.js:30-34 | Candidates are never empty. An explicit model gives exactly its trimmed text. Otherwise the candidates are the configured list when it is non-empty, and "gemini-2.5-flash" alone when it is empty. |
| Gemini.CandidatesFromEnvironment | lib/llm/gemini.js:5-34 | With the configured list read from the variable: an explicit model gives its trimmed text alone; otherwise the configured list, or "gemini-2.5-flash" when it is empty, and no candidate is empty. Passing the trimmed explicit model instead gives the same list. |
| Gemini.BlankExplicitModel | lib/llm/gemini.js:31 | An explicit model of only spaces yields the empty model name as the sole candidate. |
| Gemini.RateLimitedIgnoresOtherFields | lib/llm/gemini.js:43-45 | `IsRateLimited` holds of an error iff status is 429 or code is "RESOURCE_EXHAUSTED". statusCode, response.status and the nested code are never consulted. |
| Gemini.EditPromptProperties | lib/llm/gemini.js:88-114 | The edit prompt contains the user's request verbatim, and depends on the summary only through its normalised form. |
| Gemini.HistoryLines | lib/llm/gemini.js:160-162 | There is one line per cleaned message, in order, each the upper-cased role, ": " and the content. |
| Gemini.HistoryLineInjective | lib/llm/gemini.js:160-162 | Two messages give the same history line iff they are the same message: the upper-cased label tells the roles apart and the content follows it unchanged. |
| Gemini.ChatPromptProperties | lib/llm/gemini.js:158-174 | In `BuildChatPrompt`, the history lines joined by newlines sit at a fixed place after the rendered normalised summary. The summary is seen only in normalised form. |
| Gemini.ChatPromptOfCleaned | lib/llm/gemini.js:181-188 | Building the prompt from the already-cleaned history gives the same prompt as building it from the raw messages. |
| Gemini.Summarize | lib/llm/gemini.js:129-156 | A blank transcript is rejected, then a missing key (neither Google nor Gemini key present), both before any model call. Otherwise the models tried are a non-empty prefix of the candidates, each called in JSON mode with the prompt for the transcript and normalised template. The result is the JSON reply of the last model tried, and every earlier one failed rate-limited. |
| Gemini.Edit | lib/llm/gemini.js:206-233 | A blank prompt is rejected, then a missing key. Otherwise the models tried are a non-empty prefix of the candidates, each called in JSON mode with the edit prompt. The result is the JSON reply of the last model tried, and every earlier one failed rate-limited. |
| Gemini.Chat | lib/llm/gemini.js:176-204 | An empty cleaned history is rejected before the key check, and a missing key next. Otherwise the models tried are a non-empty prefix of the candidates, each called in text mode with the chat prompt. The result is the trimmed text reply of the last model tried, and every earlier one failed rate-limited. |
| Gemini.SummarizeExplicitModel | lib/llm/gemini.js:129-156 | Past the guards, an explicit model, trimmed, is the only model tried by summarisation. |
| Gemini.EditExplicitModel | lib/llm/gemini.js:206-233 | Past the guards, an explicit model, trimmed, is the only model tried by an edit. |
| Gemini.ChatExplicitModel | lib/llm/gemini.js:176-204 | With a non-empty cleaned history and a key, an explicit model, trimmed, is the only model tried by chat. |
| Parity.NormalizeAllIsTrimAll | lib/llm/gemini.js:5-8 | Gemini's normalise-and-drop of configured names equals OpenAI's trim-and-drop. |
| Parity.ModelListsAgree | lib/llm/gemini.js:5-8 | Both adapters read the same configured model list from the same variable text. |
| Parity.ExplicitModelHandlingDiffers | lib/llm/gemini.js:30-31 | For an explicit model with leading space, OpenAI uses it as given and Gemini uses its trimmed, different, text. |
| Parity.ClassifiersDiffer | lib/llm/gemini.js:43-45 | A 429 statusCode is rate-limited only for OpenAI. "RESOURCE_EXHAUSTED" is rate-limited only for Gemini. A 429 status counts for both. |
| Parity.ChatGuardsDiffer | lib/llm/gemini.js:181-184 | On an empty history, Gemini rejects with no model tried, while OpenAI (with a key) calls a model. |
| Agent.DefaultProvider | lib/llm/agent.js:13 | The default is the lower-cased environment value when one is set, and "openai" otherwise. It is never empty. |
| Agent.ProviderKey | lib/llm/agent.js:42-44 | The key is the lower-cased explicit provider when one is given, and the default provider otherwise. It is always lower case. |
| Agent.ProviderOrder | lib/llm/agent.js:15-21 | The order has one or two entries, each "gemini" or "openai". OpenAI is included iff the preference is not "gemini-only", and Gemini iff it is not "openai-only". Two entries are always Gemini then OpenAI. |
| Agent.OpenAiPreferenceKeepsDefaultOrder | lib/llm/agent.js:18-20 | Preferring "openai" gives the same order as any other unpinned preference: Gemini, then OpenAI. |
| Agent.PinIsCaseInsensitive | lib/llm/agent.js:42-44 | A provider that lower-cases to "openai-only" pins the order to OpenAI alone. |
| Agent.OrderFor | lib/llm/agent.js:42-44 | The order is never empty, and every entry is "gemini" or "openai". With no provider and no environment value it is Gemini, then OpenAI. |
| Agent.SummarizeOn | lib/llm/agent.js:45-51 | For a known provider, a blank transcript fails with the adapters' shared input error. |
| Agent.SummarizeTranscript | lib/llm/agent.js:38-52 | Providers are tried as a prefix of the order, and only "gemini" or "openai" is ever dispatched, so the unsupported-provider branch is never reached. Earlier providers failed. A failure means all were tried, and the result is the last provider's. |
| Agent.BlankTranscriptRejected | lib/llm/agent.js:38-52 | A blank transcript fails every provider with the input error, so both are tried and the input error is thrown. |
| Agent.MissingGeminiKeyFallsThrough | lib/llm/agent.js:23-33 | Without a Gemini key, the default order falls through to OpenAI's outcome. |
| Agent.EditOn | lib/llm/agent.js:66-72 | For a known provider, a blank prompt fails with the adapters' shared input error. |
| Agent.ApplyAssistantEdit | lib/llm/agent.js:57-73 | This is provider failover over the edit operation. A blank prompt fails on every provider with the input error. |
| Agent.ChatOn | lib/llm/agent.js:87-93 | A successful reply from either provider is trimmed. |
| Agent.ApplyAssistantChat | lib/llm/agent.js:78-94 | This is provider failover over the chat operation. A successful reply is trimmed. |
| Agent.EmptyChatReachesOpenAi | lib/llm/agent.js:78-94 | An empty chat is rejected by Gemini and then handed to OpenAI, whose outcome is the result. |
| Jobs.SetStatusObservable | inngest/functions.ts:37-46 | On a stored job, two status writes give the same store iff they write the same status, and writing the current status changes nothing. |
| Jobs.SetStatus | inngest/functions.ts:37-46 | Only the named job's status changes. No job is added or removed, and a missing id changes nothing. |
| Jobs.SetStatusLastWins | inngest/functions.ts:72-77 | Two status writes to the same job leave only the second. |
| Jobs.WriteResult | inngest/functions.ts:100-112 | The success write sets the transcript, the summary and "done" on that job only. |
| Jobs.WriteResultTwice | inngest/functions.ts:100-112 | Writing the same result twice leaves the store as one write does. |
| Jobs.EffectiveTemplate | inngest/functions.ts:70 | The template is the event's if truthy, else the stored one if truthy, else "default". It is never empty. |
| Jobs.ExtractTranscript | inngest/functions.ts:17-21 | The text is trimmed. It is empty whenever any level down to the first alternative's transcript is missing, and non-empty only when that transcript is present and not blank. |
| Jobs.ExtractOfAlternative | inngest/functions.ts:17-21 | For every reply whose first channel's first alternative carries a transcript, the result is that transcript trimmed. |
| Jobs.ExtractResultOf | inngest/functions.ts:17-21 | Extracting from a result whose first alternative holds a text gives that text trimmed. |
| Jobs.ExtractIgnoresLaterAlternatives | inngest/functions.ts:19 | Only the first channel's first alternative matters. |
| Pipeline.ProcessMeetingAudio | inngest/functions.ts:48-122 | A missing id or key fails with no step and no write. A job that is not found is loaded, marked (a no-op) and the error is rethrown. Otherwise the run is the post-load stage with the effective template. |
| Pipeline.AfterLoad | inngest/functions.ts:72-120 | The run loads, marks processing and signs for an hour. It stops with mark-error exactly when signing fails. Otherwise transcription follows on the processing store. |
| Pipeline.Transcribing | inngest/functions.ts:87-98 | The summary stage runs, on the transcript, exactly when a non-empty transcript came back. Otherwise the job is marked "error" and the service's error or the empty-transcript error is thrown. |
| Pipeline.Summarizing | inngest/functions.ts:96-120 | The summary step comes first. A success writes the result. A failure marks the job "error" and rethrows. |
| Pipeline.StepOrder | inngest/functions.ts:58-120 | Steps follow the fixed order load, mark-processing, sign, transcribe, summarise, update-db. A success runs all six. A failure ends with mark-error after an in-order prefix. |
| Pipeline.ServiceArguments | inngest/functions.ts:79-98 | Signing uses the event's key and bucket with a 3600-second lifetime. The summariser receives non-empty trimmed text and the effective template. |
| Pipeline.Outcome | inngest/functions.ts:100-120 | Any failure after the guard leaves exactly the job's status at "error". A success returns the id after six steps and writes the summariser's result. |
| Pipeline.SigningFailureRethrown | inngest/functions.ts:115-120 | A signing failure is the error rethrown, after four steps. |
| Pipeline.EmptyTranscriptStopsBeforeSummary | inngest/functions.ts:90-94 | An empty transcript fails before any summary step, and the job ends at "error". |
| Pipeline.EmptyTranscriptSteps | inngest/functions.ts:87-98 | When transcription answers but the extracted transcript is empty, the run is load, mark-processing, sign, transcribe and mark-error, it fails with the empty-transcript error, and the job is left at "error". |
| Pipeline.NeverLeftProcessing | inngest/functions.ts:58-120 | After a run on a stored job, its status is "done" on success and "error" on failure, never "processing", provided the mark-error write succeeds. |
| Pipeline.RerunAfterSuccess | inngest/functions.ts:58-114 | Re-running a successful event against the same services leaves the store and the trace as they were. |
| ProcessRoute.SessionUser | app/api/transcriptions/process/route.ts:28-38 | A user is found iff an email is present and its lower-cased form is registered. |
| ProcessRoute.Summarizing | app/api/transcriptions/process/route.ts:89-110 | The summariser is called once. A failure leaves the job at processing. A success writes "done" with the transcript and summary. |
| ProcessRoute.Transcribing | app/api/transcriptions/process/route.ts:75-91 | A failed call leaves the job at processing and propagates. An empty transcript marks the job "error" and answers 502 without summarising. Otherwise the transcript is summarised. |
| ProcessRoute.AfterChecks | app/api/transcriptions/process/route.ts:66-110 | Signing is the first call, with the environment bucket and the 900-second default lifetime. The outcome is a processed reply, the 502 reply, or a failure that leaves the job at processing. |
| ProcessRoute.ProcessingOutcomes | app/api/transcriptions/process/route.ts:66-110 | Success writes "done", the 502 reply writes "error", and a thrown failure leaves "processing". |
| ProcessRoute.Post | app/api/transcriptions/process/route.ts:27-111 | The 401, 400 and 404 answers write nothing and call nothing. 404 is answered iff the id is missing or belongs to another user. For the caller's own job, a missing file key is answered 400 "Missing file key"; otherwise the job is processed with its file key and the request's template override or the job's template. Any service call concerns that job. |
| ProcessRoute.FailureLeavesProcessing | app/api/transcriptions/process/route.ts:66-91 | When a service throws, the job is left at "processing". |
| TrainingData.NormalizeTemplateParam | app/api/transcriptions/training-data/route.ts:27-32 | The result is a template key with a training file. A missing value gives "default". A trimmed lower-case alias maps to its template. Any other name is normalised. |
| TrainingData.NormalizeTemplateParamOfName | app/api/transcriptions/training-data/route.ts:27-32 | A template key resolves to itself. |
| TrainingData.AliasesResolve | app/api/transcriptions/training-data/route.ts:13-17 | Each of the three aliases resolves to its template. |
| TrainingData.NormalizeTemplateParamIdempotent | app/api/transcriptions/training-data/route.ts:27-32 | Resolving a resolved name changes nothing. |
| TrainingData.TrainingFilesCoverTemplates | app/api/transcriptions/training-data/route.ts:19-25 | Every template key has a training file, and the files are distinct, so the default-file fallback is never used. |
| TrainingData.Get | app/api/transcriptions/training-data/route.ts:34-80 | An unknown user gets 401. The file read is the resolved template's. A failed read or summary is rethrown with nothing written. When both succeed, the record is created iff the fresh id is unused. A created record is the only write, and it holds the sample transcript, the summariser's result for the resolved template, and the fresh id. |
| TrainingData.StoredTemplateIsRawParam | app/api/transcriptions/training-data/route.ts:59-72 | The stored template is the raw query value when it is non-empty, and the resolved name otherwise. The record is "done". |
| Uploads.SanitizeFilename | app/api/uploads/route.ts:9-11 | The output has the input's UTF-16 length and only allowed characters. At each character's code-unit offset sits the character itself when allowed, else one "_" per code unit (two for a character outside the Basic Multilingual Plane). |
| Uploads.SanitizeBmp | app/api/uploads/route.ts:9-11 | A name inside the Basic Multilingual Plane keeps its length, and each character stays or becomes "_" in place. |
| Uploads.SanitizeAppend | app/api/uploads/route.ts:9-11 | Sanitising a concatenation is the concatenation of the sanitised parts. |
| Uploads.SanitizeAstral | app/api/uploads/route.ts:9-11 | A leading character outside the Basic Multilingual Plane becomes "__". |
| Uploads.SanitizeEmojiName | app/api/uploads/route.ts:9-11 | "😀.mp3" becomes "__.mp3". |
| Uploads.SanitizeFixpoint | app/api/uploads/route.ts:9-11 | A name is unchanged iff all its characters are allowed. Sanitising is idempotent. |
| Uploads.UploadTemplate | app/api/uploads/route.ts:28-32 | A string that is not blank is stored trimmed. Otherwise "default" is stored. |
| Uploads.UploadTemplateKeepsUnknownNames | app/api/uploads/route.ts:28-32 | Any trimmed non-empty name is stored as given, even when it is not a template key. |
| Uploads.StorageKeyShape | app/api/uploads/route.ts:38-40 | The key starts with "users/", the user id and "/", and no "/" follows that prefix. |
| Uploads.Save | app/api/uploads/route.ts:38-63 | A failed upload under the built key is rethrown with nothing written. After a successful upload, the job is stored iff the fresh id is unused. Storing adds exactly one job under that id, and any other outcome leaves the store unchanged. |
| Uploads.Post | app/api/uploads/route.ts:13-64 | An unknown user gets 401, a body that does not parse as form data rethrows the parse error, and a missing file gets 400, all with no upload and no write. With a file, a failed upload is rethrown and a successful one is stored iff the fresh id is unused. A stored upload records the user, the file name (or "upload"), the key, "uploaded" and the template. |
| Dashboard.TruncateText | app/dashboard/TranscriptionClient.tsx:606-609 | Empty text gives "". Text whose UTF-16 length is within the limit is unchanged. Longer text becomes its longest prefix that fits in max-1 code units (negative ends count from the back) followed by "…". With a positive limit the result fits the limit. |
| Dashboard.TruncateIdempotent | app/dashboard/TranscriptionClient.tsx:606-609 | With a positive limit, truncated text fits the limit in UTF-16 units, truncating it again changes nothing, and a longer text inside the Basic Multilingual Plane is cut to exactly the limit. |
| Dashboard.TruncateEmoji | app/dashboard/TranscriptionClient.tsx:606-609 | Three emoji (six code units) truncated at 3 give one emoji and "…". |
| Dashboard.ClientNormalizeSummary | app/dashboard/TranscriptionClient.tsx:611-619 | A falsy summary gives none. Otherwise the four fields keep arrays and replace anything else with empty. |
| Dashboard.ClientAgreesWithServer | app/dashboard/TranscriptionClient.tsx:611-619 | On objects the client coercion equals the server's, and it returns a summary's own JSON unchanged. |
| Dashboard.FindTextItem | app/dashboard/TranscriptionClient.tsx:630-640 | The first object item with truthy text at or after the start index, or none when no such item exists. |
| Dashboard.SecondSuggestionItem | app/dashboard/TranscriptionClient.tsx:637-640 | When index 0 is not such an item, the "change priority" item is the same as the "mark completed" item. |
| Dashboard.DerivedSuggestions | app/dashboard/TranscriptionClient.tsx:630-649 | A missing summary gives none. Otherwise there is one suggestion per item found, in order: "Mark … as completed" for the first action item with text (shown up to 52 units), "Change the priority of … to urgent" for the first from index 1 on (48 units), and last "Add a key point about …" for a truthy first key point (56 units). |
| Dashboard.BuildAssistantSuggestions | app/dashboard/TranscriptionClient.tsx:621-663 | There are exactly four suggestions: the derived ones, then a prefix of the fallback list. A missing summary gives exactly the four fallback strings. |
| Dashboard.UiTemplatesAreTemplates | app/dashboard/TranscriptionClient.tsx:67-73 | The ids offered are exactly the template keys, in the same order. |
| Dashboard.SortNewestFirst | app/dashboard/TranscriptionClient.tsx:75-80 | The result is ordered newest first and is a permutation of the items. |
| Dashboard.LatestIsNewestDone | app/dashboard/TranscriptionClient.tsx:82-84 | The summary shown is the first finished item after sorting. It is a finished item with the greatest timestamp, or none when no item is finished. |

## Left out

- **React and other UI.** The React component body, hooks, fetch handlers, pages and the sign-out button are UI and browser I/O.
- **Authentication.** Sign-up, password hashing and the session lookup are out. A session is an optional e-mail and users are a map from lower-cased e-mail to id.
- **LLM SDK calls.** They are oracles. Temperature and topP are float settings with nothing to prove.
- **Prompt prose.** The text of the prompts is abbreviated to each section's heading line, and each OpenAI system message to its first sentence. The order of sections and the placeholders are kept.
- **JSON parsing and printing.** `JSON.parse` and `JSON.stringify` are oracle parameters. JSON numbers are integers, with no floating point.
- **Strings.** Strings are sequences of Unicode scalar values: a character outside the Basic Multilingual Plane is one element here and two UTF-16 code units in JavaScript. Where the code counts code units (`sanitizeFilename`, `truncateText`), the model counts them explicitly with `Strings.Utf16Length`. `trim` removes the white-space and line-terminator characters of the JS language definition. Case mapping covers ASCII letters only.
- **Runtime and framework.** Left out are:
  - Inngest step memoisation, `retries: 3` and the serve route;
  - Prisma transactions and queries beyond the map updates modelled;
  - module-level client caching;
  - `console` logging;
  - `Date` parsing (timestamps are integers) and `Date.now` (a parameter).
- **Thin routes.** The listing route, the assistant routes and the database check script only coerce request fields and delegate, so they are out.
- **Storage SDK internals.** The S3 upload and presigning internals are out. Bucket resolution inside the signer is left to the oracle, which receives the key, the bucket and the lifetime.
- **Database writes.** No database read or write fails in the model, except that the `create` of `TrainingData.Get` and `Uploads.Save` fails when the fresh id is already used. In the code the pipeline's mark-processing and update-db writes can fail too, and the job would then be marked "error" (inngest/functions.ts:72-77, 100-120); the mark-error write itself is swallowed. The process route's `update` calls cannot fail in the model either.
- Pipeline.NeverLeftProcessing: the mark-error write never fails in the model. In the code a failed write is swallowed and the job then stays at "processing".
- Dashboard.TruncateText: when the cut at max-1 code units falls inside a surrogate pair, JavaScript keeps the lone high surrogate; a Dafny string cannot hold one, so the model drops the whole character.
- Dashboard.ShowText: action-item text that is truthy but not a string is rendered by the `show` oracle without truncation, because arrays' `.length` is not modelled.
- Dashboard.SortNewestFirst: the sort is an insertion sort, stable on equal timestamps, which is how the JS sort behaves. Invalid dates (`NaN`) are not modelled.
- Uploads.Post: the form is a `Result` standing for `request.formData()`, which the route does not guard. `upload.key` is taken to be the key passed to the upload. The content-type choice and the file bytes are not modelled.
- TrainingData.Get: a collision of the fresh database id is a failure. `createdAt` is the `now` parameter. The `readFile` oracle takes the training file's name and stands for reading that file from the `data` directory under the working directory; the stored `fileUrl` is modelled exactly (`test-data/<now>-<file name>`).
- Agent.Summarizer: the pipeline and routes see the agent's summariser as the `summarize` oracle of their services. Its link to `Agent.SummarizeTranscript` is by definition only.
- OpenAi.ChatGuardNeverFires: states only that some model is tried, not which reply results.

=== FILE: agent.dfy ===
/**
 * The provider-level agent: the provider key, the provider order, and the
 * three operations run over that order with `runWithProviders`.
 */
module Agent {
  import opened Wrappers
  import opened Strings
  import opened Json
  import opened Errors
  import opened Fallback
  import opened Normalizer
  import OpenAi
  import Gemini

  /** The environment: `LLM_PROVIDER` and each adapter's configuration. */
  datatype Env = Env(llmProvider: Option<string>, openai: OpenAi.Config, gemini: Gemini.Config)

  /**
   * The outside world: the two backends' completion calls, `JSON.parse`
   * (`None` when it throws) and `JSON.stringify`.
   */
  datatype Backends = Backends(complete: OpenAi.Request -> Result<Option<string>, Error>,
                               generate: Gemini.Request -> Result<Option<string>, Error>,
                               parse: string -> Option<JsonValue>,
                               render: JsonValue -> string)

  /** `DEFAULT_PROVIDER`: `LLM_PROVIDER`, or "openai" when unset or empty, lower-cased. */
  function DefaultProvider(env: Env): (r: string)
    ensures r != "" && IsLower(r)
    ensures Present(env.llmProvider) ==> r == Lower(env.llmProvider.value)
    ensures !Present(env.llmProvider) ==> r == "openai"
  {
    LowerIsLower(if Present(env.llmProvider) then env.llmProvider.value else "openai");
    LowerOfLower("openai");
    Lower(if Present(env.llmProvider) then env.llmProvider.value else "openai")
  }

  /**
   * The provider key: the caller's provider lower-cased when it is
   * truthy, otherwise the default provider. The
   * last fallback "openai" is never reached, the default being non-empty.
   */
  function ProviderKey(provider: Option<string>, env: Env): (r: string)
    ensures IsLower(r)
    ensures Present(provider) ==> r == Lower(provider.value)
    ensures !Present(provider) ==> r == DefaultProvider(env)
  {
    var d := DefaultProvider(env);
    var chosen := if Present(provider) then provider.value else if d != "" then d else "openai";
    LowerIsLower(chosen);
    LowerOfLower(d);
    Lower(chosen)
  }

  /**
   * `getProviderOrder`: "openai-only" and "gemini-only" pin one provider;
   * every other key, "openai" included, tries Gemini first, then OpenAI.
   */
  function ProviderOrder(preferred: string): (order: seq<string>)
    ensures 1 <= |order| <= 2
    ensures forall i :: 0 <= i < |order| ==> order[i] == "gemini" || order[i] == "openai"
    ensures "openai" in order <==> preferred != "gemini-only"
    ensures "gemini" in order <==> preferred != "openai-only"
    ensures |order| == 2 ==> order[0] == "gemini" && order[1] == "openai"
  {
    if preferred == "openai-only" then ["openai"]
    else if preferred == "gemini-only" then ["gemini"]
    else
      var base := if preferred == "openai" then ["gemini", "openai"] else ["gemini", "openai"];
      base
  }

  /** Naming "openai" as the provider does not put OpenAI first: the order is the default one. */
  lemma OpenAiPreferenceKeepsDefaultOrder(other: string)
    requires other != "openai-only" && other != "gemini-only"
    ensures ProviderOrder("openai") == ProviderOrder(other) == ["gemini", "openai"]
  {
  }

  /** The pins are matched after lower-casing, so any capitalisation of "openai-only" pins OpenAI. */
  lemma PinIsCaseInsensitive(provider: string, env: Env)
    requires Lower(provider) == "openai-only"
    ensures ProviderOrder(ProviderKey(Some(provider), env)) == ["openai"]
  {
  }

  /** The provider order of a call: from the caller's provider, else `LLM_PROVIDER`. */
  function OrderFor(provider: Option<string>, env: Env): (order: seq<string>)
    ensures order != []
    ensures forall i :: 0 <= i < |order| ==> order[i] == "gemini" || order[i] == "openai"
    ensures !Present(provider) && !Present(env.llmProvider) ==> order == ["gemini", "openai"]
  {
    ProviderOrder(ProviderKey(provider, env))
  }

  /** One provider's summarisation; an unknown name throws "Unsupported provider". */
  function SummarizeOn(prov: string, transcript: string, model: Option<string>, template: Option<string>,
                       env: Env, b: Backends): (r: Result<Summary, Error>)
    ensures IsBlank(transcript) && (prov == "gemini" || prov == "openai") ==>
      r == Failure(InvalidInput("summarizeTranscript requires transcript text"))
  {
    if prov == "gemini" then Gemini.Summarize(transcript, model, template, env.gemini, b.generate, b.parse).result
    else if prov == "openai" then OpenAi.Summarize(transcript, model, template, env.openai, b.complete, b.parse).result
    else Failure(ServiceError("Unsupported provider " + prov))
  }

  /**
   * `summarizeTranscript`: providers are tried in order until one returns a
   * summary; when all fail the last provider's error is thrown.
   */
  function SummarizeTranscript(transcript: string, provider: Option<string>, model: Option<string>,
                               template: Option<string>, env: Env, b: Backends): (a: Attempt<Summary>)
    ensures FailedOver(OrderFor(provider, env), SummarizeRun(transcript, model, template, env, b), a)
    ensures forall i :: 0 <= i < |a.tried| ==> a.tried[i] == "gemini" || a.tried[i] == "openai"
  {
    RunWithProviders(OrderFor(provider, env), SummarizeRun(transcript, model, template, env, b))
  }

  /** `SummarizeOn` as the per-provider callback. */
  function SummarizeRun(transcript: string, model: Option<string>, template: Option<string>,
                        env: Env, b: Backends): string -> Result<Summary, Error> {
    p => SummarizeOn(p, transcript, model, template, env, b)
  }

  /**
   * A blank transcript is rejected by every provider before any backend
   * call: all providers are tried and the adapters' own error is thrown.
   */
  lemma BlankTranscriptRejected(transcript: string, provider: Option<string>, model: Option<string>,
                                template: Option<string>, env: Env, b: Backends)
    requires IsBlank(transcript)
    ensures SummarizeTranscript(transcript, provider, model, template, env, b)
         == Attempt(OrderFor(provider, env), Failure(InvalidInput("summarizeTranscript requires transcript text")))
  {
  }

  /**
   * With the default order and no Gemini key, the Gemini failure is
   * discarded and the result is whatever OpenAI produced.
   */
  lemma MissingGeminiKeyFallsThrough(transcript: string, model: Option<string>,
                                     template: Option<string>, env: Env, b: Backends)
    requires !IsBlank(transcript) && !Gemini.HasKey(env.gemini) && !Present(env.llmProvider)
    ensures SummarizeTranscript(transcript, None, model, template, env, b)
         == Attempt(["gemini", "openai"], OpenAi.Summarize(transcript, model, template, env.openai, b.complete, b.parse).result)
  {
    var run := SummarizeRun(transcript, model, template, env, b);
    assert SummarizeTranscript(transcript, None, model, template, env, b) == RunWithProviders(["gemini", "openai"], run);
    assert run("gemini") == Gemini.Summarize(transcript, model, template, env.gemini, b.generate, b.parse).result;
    assert run("openai") == OpenAi.Summarize(transcript, model, template, env.openai, b.complete, b.parse).result;
    SecondProviderDecides("gemini", "openai", run);
  }

  /**
   * The summariser as the job pipeline and the processing route call it:
   * no provider or model, only the transcript and the template name.
   */
  function Summarizer(env: Env, b: Backends): (string, string) -> Result<Summary, Error> {
    (text, template) => SummarizeTranscript(text, None, None, Some(template), env, b).result
  }

  /** One provider's edit. */
  function EditOn(prov: string, prompt: string, summary: Option<JsonValue>, model: Option<string>,
                  env: Env, b: Backends): (r: Result<Summary, Error>)
    ensures IsBlank(prompt) && (prov == "gemini" || prov == "openai") ==>
      r == Failure(InvalidInput("applyAssistantEdit requires a prompt"))
  {
    if prov == "gemini" then Gemini.Edit(prompt, summary, model, env.gemini, b.generate, b.parse, b.render).result
    else if prov == "openai" then OpenAi.Edit(prompt, summary, model, env.openai, b.complete, b.parse, b.render).result
    else Failure(ServiceError("Unsupported provider " + prov))
  }

  /** `applyAssistantEdit`: the edit over the provider order. */
  function ApplyAssistantEdit(prompt: string, summary: Option<JsonValue>, provider: Option<string>,
                              model: Option<string>, env: Env, b: Backends): (a: Attempt<Summary>)
    ensures FailedOver(OrderFor(provider, env), EditRun(prompt, summary, model, env, b), a)
    ensures IsBlank(prompt) ==> a == Attempt(OrderFor(provider, env), Failure(InvalidInput("applyAssistantEdit requires a prompt")))
  {
    RunWithProviders(OrderFor(provider, env), EditRun(prompt, summary, model, env, b))
  }

  /** `EditOn` as the per-provider callback. */
  function EditRun(prompt: string, summary: Option<JsonValue>, model: Option<string>,
                   env: Env, b: Backends): string -> Result<Summary, Error> {
    p => EditOn(p, prompt, summary, model, env, b)
  }

  /** One provider's chat reply. */
  function ChatOn(prov: string, messages: Option<JsonValue>, summary: Option<JsonValue>, model: Option<string>,
                  env: Env, b: Backends): (r: Result<string, Error>)
    ensures r.Success? ==> IsTrimmed(r.value)
  {
    if prov == "gemini" then Gemini.Chat(messages, summary, model, env.gemini, b.generate, b.render).result
    else if prov == "openai" then OpenAi.Chat(messages, summary, model, env.openai, b.complete, b.render).result
    else Failure(ServiceError("Unsupported provider " + prov))
  }

  /** `applyAssistantChat`: the chat over the provider order; a reply is always trimmed. */
  function ApplyAssistantChat(messages: Option<JsonValue>, summary: Option<JsonValue>, provider: Option<string>,
                              model: Option<string>, env: Env, b: Backends): (a: Attempt<string>)
    ensures FailedOver(OrderFor(provider, env), ChatRun(messages, summary, model, env, b), a)
    ensures a.result.Success? ==> IsTrimmed(a.result.value)
  {
    RunWithProviders(OrderFor(provider, env), ChatRun(messages, summary, model, env, b))
  }

  /** `ChatOn` as the per-provider callback. */
  function ChatRun(messages: Option<JsonValue>, summary: Option<JsonValue>, model: Option<string>,
                   env: Env, b: Backends): string -> Result<string, Error> {
    p => ChatOn(p, messages, summary, model, env, b)
  }

  /**
   * An empty history under the default order: Gemini rejects it, and the
   * call falls through to OpenAI, whose own guard does not fire.
   */
  lemma EmptyChatReachesOpenAi(messages: Option<JsonValue>, summary: Option<JsonValue>, model: Option<string>, env: Env, b: Backends)
    requires !Present(env.llmProvider) && NormalizeChatMessages(messages) == []
    ensures ApplyAssistantChat(messages, summary, None, model, env, b)
         == Attempt(["gemini", "openai"], OpenAi.Chat(messages, summary, model, env.openai, b.complete, b.render).result)
  {
    var run := ChatRun(messages, summary, model, env, b);
    assert OrderFor(None, env) == ["gemini", "openai"];
    assert ApplyAssistantChat(messages, summary, None, model, env, b) == RunWithProviders(["gemini", "openai"], run);
    assert run("gemini") == Gemini.Chat(messages, summary, model, env.gemini, b.generate, b.render).result;
    assert run("gemini").Failure?;
    assert run("openai") == OpenAi.Chat(messages, summary, model, env.openai, b.complete, b.render).result;
    SecondProviderDecides("gemini", "openai", run);
  }

}

=== FILE: dashboard.dfy ===
/**
 * The pure helpers of the dashboard client: text truncation, the client's
 * summary normaliser, the assistant's suggested prompts, the template
 * picker's ids, and the choice of the newest finished job.
 */
module Dashboard {
  import opened Wrappers
  import opened Strings
  import opened Json
  import opened Normalizer
  import opened PromptBuilder

  const Ellipsis: char := '\U{2026}'

  /** The end index `slice(0, end)` uses on a string of length `len`: negative ends count from the back. */
  function SliceEnd(len: nat, end: int): (k: nat)
    ensures k <= len
  {
    if end < 0 then (if len + end < 0 then 0 else len + end)
    else if end > len then len
    else end
  }

  /**
   * The number of characters of `s[..n]` that fit whole in the first `k`
   * UTF-16 code units: the longest such prefix, found from `n` downwards.
   */
  function FitCount(s: string, k: nat, n: nat): (m: nat)
    requires n <= |s|
    ensures m <= n && Utf16Length(s[..m]) <= k
    ensures m < n ==> Utf16Length(s[..m + 1]) > k
  {
    if n == 0 || Utf16Length(s[..n]) <= k then n else FitCount(s, k, n - 1)
  }

  /**
   * `truncateText`: a text whose JavaScript length exceeds `max` keeps the
   * characters inside its first `max - 1` code units and gains "…". A limit
   * below one counts from the back, as `slice` does with a negative end.
   */
  function TruncateText(text: string, max: int): (r: string)
    ensures text == "" ==> r == ""
    ensures Utf16Length(text) <= max ==> r == text
    ensures Utf16Length(text) > max && text != "" ==>
      var k := SliceEnd(Utf16Length(text), max - 1);
      var n := |r| - 1;
      && |r| >= 1 && r[n] == Ellipsis && n <= |text| && r[..n] == text[..n]
      && Utf16Length(text[..n]) <= k && (n < |text| ==> Utf16Length(text[..n + 1]) > k)
    ensures max >= 1 ==> Utf16Length(r) <= max
  {
    if text == "" then ""
    else if Utf16Length(text) > max then
      var kept := text[..FitCount(text, SliceEnd(Utf16Length(text), max - 1), |text|)];
      assert (kept + [Ellipsis])[..|kept|] == kept;
      kept + [Ellipsis]
    else text
  }

  /**
   * Truncated text fits the limit and truncating it again changes nothing;
   * a text inside the Basic Multilingual Plane is cut to exactly `max` characters.
   */
  lemma TruncateIdempotent(text: string, max: int)
    requires max >= 1
    ensures Utf16Length(TruncateText(text, max)) <= max
    ensures TruncateText(TruncateText(text, max), max) == TruncateText(text, max)
    ensures (forall i :: 0 <= i < |text| ==> Utf16Units(text[i]) == 1) && |text| > max ==> |TruncateText(text, max)| == max
  {
    if (forall i :: 0 <= i < |text| ==> Utf16Units(text[i]) == 1) && |text| > max {
      Utf16LengthOfBmp(text);
      var r := TruncateText(text, max);
      var n := |r| - 1;
      assert SliceEnd(Utf16Length(text), max - 1) == max - 1;
      assert forall i :: 0 <= i < n ==> text[..n][i] == text[i];
      Utf16LengthOfBmp(text[..n]);
      assert n < |text|;
      assert forall i :: 0 <= i < n + 1 ==> text[..n + 1][i] == text[i];
      Utf16LengthOfBmp(text[..n + 1]);
    }
  }

  /** Three emoji are six code units, so a limit of three keeps one emoji and the ellipsis. */
  lemma TruncateEmoji()
    ensures TruncateText("\U{1F600}\U{1F600}\U{1F600}", 3) == "\U{1F600}\U{2026}"
  {
    var e := '\U{1F600}';
    var text := [e, e, e];
    assert text[..1] == [e] && [e][..0] == [];
    assert text[..2] == [e, e] && [e, e][..1] == [e];
    assert text[..3] == text && text[..2] == [e, e];
    assert Utf16Length(text[..1]) == 2;
    assert Utf16Length(text[..2]) == 4;
    assert Utf16Length(text) == 6;
    var r := TruncateText(text, 3);
    assert |r| == 2;
    assert r == [e, Ellipsis];
    assert text == "\U{1F600}\U{1F600}\U{1F600}";
  }

  /**
   * The client's `normalizeSummary`: a missing or falsy value gives null;
   * anything else its four fields, non-arrays replaced by `[]`.
   */
  function ClientNormalizeSummary(summary: Option<JsonValue>): (r: Option<Summary>)
    ensures r.None? <==> summary.None? || !Truthy(summary.value)
    ensures r.Some? ==> r.value == Normalize(summary.value)
  {
    if summary.None? || !Truthy(summary.value) then None else Some(Normalize(summary.value))
  }

  /**
   * The client and the server normalise a present object alike, and the
   * client gives back a normalised summary unchanged.
   */
  lemma ClientAgreesWithServer(summary: JsonValue, s: Summary)
    ensures summary.JObj? ==> ClientNormalizeSummary(Some(summary)) == Some(NormalizeSummary(Some(summary)))
    ensures ClientNormalizeSummary(Some(SummaryToJson(s))) == Some(s)
  {
    NormalizeSummaryToJson(s);
  }

  /** An action item the suggestions can name: an object whose text field is truthy. */
  predicate IsTextItem(v: JsonValue) {
    v.JObj? && "text" in v.fields && Truthy(v.fields["text"])
  }

  /** The index of the first text item at or after `from`, as the dashboard's searches find it. */
  function FindTextItem(actions: seq<JsonValue>, from: nat): (k: Option<nat>)
    ensures k.Some? ==>
      && from <= k.value < |actions| && IsTextItem(actions[k.value])
      && forall j :: from <= j < k.value ==> !IsTextItem(actions[j])
    ensures k.None? ==> forall j :: from <= j < |actions| ==> !IsTextItem(actions[j])
    decreases |actions| - from
  {
    if from >= |actions| then None
    else if IsTextItem(actions[from]) then Some(from)
    else FindTextItem(actions, from + 1)
  }

  /**
   * The "change priority" suggestion looks for the first text item after
   * index 0; when index 0 holds none, that is the very item the "mark
   * completed" suggestion names.
   */
  lemma SecondSuggestionItem(actions: seq<JsonValue>)
    requires actions == [] || !IsTextItem(actions[0])
    ensures FindTextItem(actions, 1) == FindTextItem(actions, 0)
  {
  }

  /**
   * An item shown in a suggestion: a string is truncated; any other value
   * is rendered as the template literal renders it (the oracle `show`).
   */
  function ShowText(v: JsonValue, max: int, show: JsonValue -> string): string {
    if v.JStr? then TruncateText(v.s, max) else show(v)
  }

  /**
   * The suggestions derived from a summary, in order: "mark completed" for
   * the first text item, "change priority" for the first text item after
   * index 0 (present only when the first is), and "add a key point" for a
   * truthy first key point.
   */
  function DerivedSuggestions(summary: Option<Summary>, show: JsonValue -> string): (d: seq<string>)
    ensures |d| <= 3
    ensures summary.None? ==> d == []
    ensures summary.Some? ==>
      var actions := summary.value.actionItems;
      var keyPoints := summary.value.keyPoints;
      var first := FindTextItem(actions, 0);
      var second := FindTextItem(actions, 1);
      var keyPoint := |keyPoints| > 0 && Truthy(keyPoints[0]);
      && |d| == (if first.Some? then 1 else 0) + (if second.Some? then 1 else 0) + (if keyPoint then 1 else 0)
      && (second.Some? ==> first.Some? && first.value <= second.value)
      && (first.Some? ==> d[0] == "Mark \"" + ShowText(actions[first.value].fields["text"], 52, show) + "\" as completed")
      && (second.Some? ==> d[1] == "Change the priority of \"" + ShowText(actions[second.value].fields["text"], 48, show) + "\" to urgent")
      && (keyPoint ==> d[|d| - 1] == "Add a key point about " + ShowText(keyPoints[0], 56, show))
  {
    if summary.None? then []
    else
      var actions := summary.value.actionItems;
      var keyPoints := summary.value.keyPoints;
      var first := FindTextItem(actions, 0);
      var second := FindTextItem(actions, 1);
      (if first.Some? then ["Mark \"" + ShowText(actions[first.value].fields["text"], 52, show) + "\" as completed"] else [])
      + (if second.Some? then ["Change the priority of \"" + ShowText(actions[second.value].fields["text"], 48, show) + "\" to urgent"] else [])
      + (if |keyPoints| > 0 && Truthy(keyPoints[0]) then ["Add a key point about " + ShowText(keyPoints[0], 56, show)] else [])
  }

  const FallbackSuggestions: seq<string> := [
    "Summarize the meeting in 3 bullets",
    "List owners for each action item",
    "Draft a follow-up email for attendees",
    "Create a risk list from the discussion"
  ]

  /** Appends fallback strings in order while fewer than four suggestions are held. */
  function TopUp(acc: seq<string>, rest: seq<string>): (r: seq<string>)
    requires |acc| <= 4
    ensures var n := if 4 - |acc| < |rest| then 4 - |acc| else |rest|;
      r == acc + rest[..n]
    decreases |rest|
  {
    if rest == [] then acc
    else if |acc| < 4 then
      var r := TopUp(acc + [rest[0]], rest[1..]);
      assert rest[..1] + rest[1..][..(if 4 - |acc| - 1 < |rest| - 1 then 4 - |acc| - 1 else |rest| - 1)]
          == rest[..(if 4 - |acc| < |rest| then 4 - |acc| else |rest|)];
      r
    else TopUp(acc, rest[1..])
  }

  /**
   * `buildAssistantSuggestions`: exactly four suggestions, the derived ones
   * first and the fixed fallback list, in order, filling the rest.
   */
  function BuildAssistantSuggestions(summary: Option<Summary>, show: JsonValue -> string): (r: seq<string>)
    ensures |r| == 4
    ensures var d := DerivedSuggestions(summary, show);
      r[..|d|] == d && r[|d|..] == FallbackSuggestions[..4 - |d|]
    ensures summary.None? ==> r == FallbackSuggestions
  {
    var suggestions := TopUp(DerivedSuggestions(summary, show), FallbackSuggestions);
    suggestions[..4]
  }

  /** The template picker: id and label of each entry. */
  const UiTemplates: seq<(string, string)> := [
    ("default", "Default Template (Default)"),
    ("brainstorm", "Brainstorm Session"),
    ("interview", "Interview Notes"),
    ("lecture", "Lecture Notes"),
    ("voice-memo", "Voice Memo Notes")
  ]

  /** The picker offers exactly the prompt builder's templates, in the same order. */
  lemma UiTemplatesAreTemplates()
    ensures |UiTemplates| == |TemplateKeys|
    ensures forall i :: 0 <= i < |UiTemplates| ==> UiTemplates[i].0 == TemplateKeys[i] && UiTemplates[i].0 in Templates
    ensures forall t :: t in Templates ==> exists i :: 0 <= i < |UiTemplates| && UiTemplates[i].0 == t
  {
    assert UiTemplates[0].0 == "default";
    assert UiTemplates[1].0 == "brainstorm";
    assert UiTemplates[2].0 == "interview";
    assert UiTemplates[3].0 == "lecture";
    assert UiTemplates[4].0 == "voice-memo";
  }

  /** A job as the list endpoint returns it; `createdAt` as milliseconds. */
  datatype Item = Item(id: string, status: string, createdAt: int, record: JsonValue)

  predicate SortedNewestFirst(s: seq<Item>) {
    forall i, j :: 0 <= i < j < |s| ==> s[i].createdAt >= s[j].createdAt
  }

  /** Insert before the first item strictly older, so earlier-listed items stay ahead of equal ones. */
  function Insert(x: Item, s: seq<Item>): (r: seq<Item>)
    ensures |r| == |s| + 1
  {
    if s == [] || x.createdAt >= s[0].createdAt then [x] + s
    else [s[0]] + Insert(x, s[1..])
  }

  /** Inserting adds exactly `x`. */
  lemma {:induction false} InsertPermutes(x: Item, s: seq<Item>)
    ensures multiset(Insert(x, s)) == multiset(s) + multiset{x}
    ensures forall k :: 0 <= k < |Insert(x, s)| ==> Insert(x, s)[k] == x || Insert(x, s)[k] in s
  {
    if !(s == [] || x.createdAt >= s[0].createdAt) {
      InsertPermutes(x, s[1..]);
      var rest := Insert(x, s[1..]);
      assert Insert(x, s) == [s[0]] + rest;
      assert multiset(s) == multiset{s[0]} + multiset(s[1..]) by { assert s == [s[0]] + s[1..]; }
      forall k | 0 <= k < |Insert(x, s)|
        ensures Insert(x, s)[k] == x || Insert(x, s)[k] in s
      {
        if k > 0 {
          assert Insert(x, s)[k] == rest[k - 1];
        }
      }
    }
  }

  /** Inserting into a newest-first list keeps it newest-first. */
  lemma {:induction false} InsertSorted(x: Item, s: seq<Item>)
    requires SortedNewestFirst(s)
    ensures SortedNewestFirst(Insert(x, s))
  {
    if s == [] || x.createdAt >= s[0].createdAt {
      SortedCons(x, s);
    } else {
      InsertSorted(x, s[1..]);
      InsertPermutes(x, s[1..]);
      var rest := Insert(x, s[1..]);
      forall k | 0 <= k < |rest|
        ensures rest[k].createdAt <= s[0].createdAt
      {
        if rest[k] != x {
          var j :| 0 <= j < |s[1..]| && s[1..][j] == rest[k];
          assert s[1 + j] == rest[k];
        }
      }
      SortedCons(s[0], rest);
    }
  }

  lemma SortedCons(a: Item, t: seq<Item>)
    requires SortedNewestFirst(t)
    requires forall k :: 0 <= k < |t| ==> t[k].createdAt <= a.createdAt
    ensures SortedNewestFirst([a] + t)
  {
    var r := [a] + t;
    assert forall k :: 0 <= k < |t| ==> r[k + 1] == t[k];
    forall i, j | 0 <= i < j < |r|
      ensures r[i].createdAt >= r[j].createdAt
    {
      if i > 0 {
        assert r[i] == t[i - 1] && r[j] == t[j - 1];
      } else {
        assert r[j] == t[j - 1];
      }
    }
  }

  /**
   * `sortedItems`: the items newest first. `Array.prototype.sort` is
   * stable, as is this insertion sort, so both give the same order.
   */
  function SortNewestFirst(items: seq<Item>): (r: seq<Item>)
    ensures SortedNewestFirst(r) && multiset(r) == multiset(items)
  {
    if items == [] then []
    else
      var rest := SortNewestFirst(items[1..]);
      InsertSorted(items[0], rest);
      InsertPermutes(items[0], rest);
      assert items == [items[0]] + items[1..];
      Insert(items[0], rest)
  }

  /** The first finished item of a list. */
  function FirstDone(s: seq<Item>): (r: Option<Item>)
    ensures r.Some? ==> r.value in s && r.value.status == "done"
    ensures r.None? <==> forall i :: 0 <= i < |s| ==> s[i].status != "done"
  {
    if s == [] then None
    else if s[0].status == "done" then Some(s[0])
    else FirstDone(s[1..])
  }

  /** `latestSummary`: the first finished item of the sorted list. */
  function LatestSummary(items: seq<Item>): Option<Item> {
    FirstDone(SortNewestFirst(items))
  }

  /**
   * The reference choice, made without sorting: among the finished items
   * one with the greatest timestamp, the earliest listed on a tie.
   */
  function NewestDone(items: seq<Item>): (r: Option<Item>)
    ensures r.None? <==> forall i :: 0 <= i < |items| ==> items[i].status != "done"
    ensures r.Some? ==>
      && r.value in items && r.value.status == "done"
      && forall i :: 0 <= i < |items| && items[i].status == "done" ==> items[i].createdAt <= r.value.createdAt
  {
    if items == [] then None
    else
      var rest := NewestDone(items[1..]);
      if items[0].status == "done" && (rest.None? || items[0].createdAt >= rest.value.createdAt) then Some(items[0])
      else rest
  }

  lemma {:induction false} FirstDoneInsert(x: Item, s: seq<Item>)
    requires SortedNewestFirst(s)
    ensures var d := FirstDone(s);
      FirstDone(Insert(x, s)) == (if x.status == "done" && (d.None? || x.createdAt >= d.value.createdAt) then Some(x) else d)
  {
    if s == [] || x.createdAt >= s[0].createdAt {
      var d := FirstDone(s);
      if d.Some? {
        assert s[0].createdAt >= d.value.createdAt;
      }
    } else {
      FirstDoneInsert(x, s[1..]);
      assert Insert(x, s)[1..] == Insert(x, s[1..]);
    }
  }

  /**
   * The newest finished job is the one `latestSummary` picks: sorting and
   * taking the first finished item is the reference choice.
   */
  lemma {:induction false} LatestIsNewestDone(items: seq<Item>)
    ensures LatestSummary(items) == NewestDone(items)
  {
    if items != [] {
      LatestIsNewestDone(items[1..]);
      FirstDoneInsert(items[0], SortNewestFirst(items[1..]));
    }
  }
}

=== FILE: errors.dfy ===
/** What the core can throw. */
module Errors {
  import opened Wrappers

  datatype Error =
    /** `throw lastError` when no attempt assigned it: JavaScript throws `undefined`. */
    | Undefined
    /**
     * An error from an LLM SDK. Only the fields the rate-limit classifiers
     * read are kept: `status`, `statusCode`, `response.status`, `code` and
     * `error.code`.
     */
    | ApiError(status: Option<int>, statusCode: Option<int>, responseStatus: Option<int>,
               code: Option<string>, nestedCode: Option<string>)
    /** A guard on caller-supplied input threw (`new Error(message)`). */
    | InvalidInput(message: string)
    /** A required environment variable is not set. */
    | MissingConfig(name: string)
    /** `JSON.parse` rejected its input. */
    | JsonSyntax
    /** A failure of signing, transcription or storage, reported by that collaborator. */
    | ServiceError(message: string)
    /** `Transcription not found: <id>`. */
    | NotFound(id: string)
    /** `Transcription returned empty text`. */
    | EmptyTranscript
}

=== FILE: fallback.dfy ===
/**
 * The two failover loops. Each backend call is an oracle `run(candidate)`;
 * each loop returns the candidates it called, in order, and the value it
 * returned or the error it threw.
 */
module Fallback {
  import opened Wrappers
  import opened Errors

  datatype Attempt<T> = Attempt(tried: seq<string>, result: Result<T, Error>)

  /** Every candidate tried before the last one failed with an error the classifier accepts. */
  ghost predicate EarlierFailedWith<T>(tried: seq<string>, run: string -> Result<T, Error>, retry: Error -> bool) {
    forall i :: 0 <= i < |tried| - 1 ==> run(tried[i]).Failure? && retry(run(tried[i]).error)
  }

  /**
   * The `for … of` loop of `withModelFallback`, entered with `lastError`
   * already holding the previous failure.
   */
  function ModelLoop<T>(models: seq<string>, run: string -> Result<T, Error>,
                        rateLimited: Error -> bool, lastError: Error): (a: Attempt<T>)
    ensures |a.tried| <= |models| && a.tried == models[..|a.tried|]
    ensures EarlierFailedWith(a.tried, run, rateLimited)
    ensures a.tried == [] ==> models == [] && a.result == Failure(lastError)
    ensures a.tried != [] ==> a.result == run(a.tried[|a.tried| - 1])
    ensures a.result.Failure? && a.tried != [] && rateLimited(a.result.error) ==> a.tried == models
  {
    if models == [] then Attempt([], Failure(lastError))
    else
      match run(models[0])
      case Success(v) => Attempt([models[0]], Success(v))
      case Failure(e) =>
        if !rateLimited(e) then Attempt([models[0]], Failure(e))
        else
          var rest := ModelLoop(models[1..], run, rateLimited, e);
          assert models[..1 + |rest.tried|] == [models[0]] + models[1..][..|rest.tried|];
          Attempt([models[0]] + rest.tried, rest.result)
  }

  /**
   * `withModelFallback`: models are called in order; the first success is
   * returned, the first error that is not rate-limited is thrown, and when
   * every model was rate-limited the last model's error is thrown.
   */
  function WithModelFallback<T>(models: seq<string>, run: string -> Result<T, Error>,
                                rateLimited: Error -> bool): (a: Attempt<T>)
    ensures |a.tried| <= |models| && a.tried == models[..|a.tried|]
    ensures models != [] ==> a.tried != [] && a.result == run(a.tried[|a.tried| - 1])
    ensures models == [] ==> a == Attempt([], Failure(Undefined))
    ensures EarlierFailedWith(a.tried, run, rateLimited)
    ensures a.result.Failure? && models != [] ==> !rateLimited(a.result.error) || a.tried == models
  {
    ModelLoop(models, run, rateLimited, Undefined)
  }

  /**
   * The first model whose call succeeds ends the loop: no later model is
   * called, provided every earlier one was rate-limited.
   */
  lemma FirstSuccessStops<T>(models: seq<string>, run: string -> Result<T, Error>,
                             rateLimited: Error -> bool, k: nat)
    requires k < |models| && run(models[k]).Success?
    requires forall i :: 0 <= i < k ==> run(models[i]).Failure? && rateLimited(run(models[i]).error)
    ensures WithModelFallback(models, run, rateLimited) == Attempt(models[..k + 1], run(models[k]))
  {
  }

  /** The first error that is not rate-limited is thrown and no later model is called. */
  lemma NonRateLimitedStops<T>(models: seq<string>, run: string -> Result<T, Error>,
                               rateLimited: Error -> bool, k: nat)
    requires k < |models| && run(models[k]).Failure? && !rateLimited(run(models[k]).error)
    requires forall i :: 0 <= i < k ==> run(models[i]).Failure? && rateLimited(run(models[i]).error)
    ensures WithModelFallback(models, run, rateLimited) == Attempt(models[..k + 1], run(models[k]))
  {
  }

  /** When every model is rate-limited, all are called and the last one's error is thrown. */
  lemma AllRateLimited<T>(models: seq<string>, run: string -> Result<T, Error>, rateLimited: Error -> bool)
    requires models != []
    requires forall i :: 0 <= i < |models| ==> run(models[i]).Failure? && rateLimited(run(models[i]).error)
    ensures WithModelFallback(models, run, rateLimited) == Attempt(models, run(models[|models| - 1]))
  {
  }

  /** The loop of `runWithProviders`, entered with `lastError` holding the previous failure. */
  function ProviderLoop<T>(order: seq<string>, run: string -> Result<T, Error>, lastError: Error): (a: Attempt<T>)
    ensures |a.tried| <= |order| && a.tried == order[..|a.tried|]
    ensures EarlierFailedWith(a.tried, run, _ => true)
    ensures a.tried == [] ==> order == [] && a.result == Failure(lastError)
    ensures a.tried != [] ==> a.result == run(a.tried[|a.tried| - 1])
    ensures a.result.Failure? ==> a.tried == order
  {
    if order == [] then Attempt([], Failure(lastError))
    else
      match run(order[0])
      case Success(v) => Attempt([order[0]], Success(v))
      case Failure(e) =>
        var rest := ProviderLoop(order[1..], run, e);
        assert order[..1 + |rest.tried|] == [order[0]] + order[1..][..|rest.tried|];
        Attempt([order[0]] + rest.tried, rest.result)
  }

  /**
   * `runWithProviders`: providers are called in order and the first success
   * is returned; any failure moves on to the next provider, and when all
   * fail the last provider's error is thrown, earlier ones discarded.
   */
  function RunWithProviders<T>(order: seq<string>, run: string -> Result<T, Error>): (a: Attempt<T>)
    ensures |a.tried| <= |order| && a.tried == order[..|a.tried|]
    ensures order != [] ==> a.tried != [] && a.result == run(a.tried[|a.tried| - 1])
    ensures order == [] ==> a == Attempt([], Failure(Undefined))
    ensures forall i :: 0 <= i < |a.tried| - 1 ==> run(a.tried[i]).Failure?
    ensures a.result.Failure? ==> a.tried == order
    ensures order != [] ==> FailedOver(order, run, a)
  {
    ProviderLoop(order, run, Undefined)
  }

  /**
   * `a` is what failover over a non-empty `order` gives: a prefix of the
   * order was tried, the outcome is the last tried provider's, every earlier
   * one failed, and a failure means every provider was tried.
   */
  ghost predicate FailedOver<T>(order: seq<string>, run: string -> Result<T, Error>, a: Attempt<T>) {
    && a.tried != [] && a.tried <= order
    && a.result == run(a.tried[|a.tried| - 1])
    && (forall i :: 0 <= i < |a.tried| - 1 ==> run(a.tried[i]).Failure?)
    && (a.result.Failure? ==> a.tried == order)
  }

  /** With two providers of which the first fails, both are tried and the second one's result is the outcome. */
  lemma SecondProviderDecides<T>(first: string, second: string, run: string -> Result<T, Error>)
    requires run(first).Failure?
    ensures RunWithProviders([first, second], run) == Attempt([first, second], run(second))
  {
  }

  /** The provider loop is the model loop with every error treated as retryable. */
  lemma {:induction false} ProviderLoopIsModelLoop<T>(order: seq<string>, run: string -> Result<T, Error>, lastError: Error)
    ensures ProviderLoop(order, run, lastError) == ModelLoop(order, run, _ => true, lastError)
  {
    if order != [] && run(order[0]).Failure? {
      ProviderLoopIsModelLoop(order[1..], run, run(order[0]).error);
    }
  }

  /** `runWithProviders` behaves as `withModelFallback` with a classifier that accepts every error. */
  lemma ProvidersAreModelFallbackWithoutClassification<T>(order: seq<string>, run: string -> Result<T, Error>)
    ensures RunWithProviders(order, run) == WithModelFallback(order, run, _ => true)
  {
    ProviderLoopIsModelLoop(order, run, Undefined);
  }

  /**
   * Model fallback within one provider halts at an error that is not
   * rate-limited, where provider fallback carries on to the next candidate.
   */
  lemma ModelAndProviderLevelsDiffer<T>(a: string, b: string, run: string -> Result<T, Error>,
                                        rateLimited: Error -> bool)
    requires run(a).Failure? && !rateLimited(run(a).error)
    ensures WithModelFallback([a, b], run, rateLimited) == Attempt([a], run(a))
    ensures RunWithProviders([a, b], run) == Attempt([a, b], run(b))
  {
    NonRateLimitedStops([a, b], run, rateLimited, 0);
    assert [a, b][..1] == [a];
    assert [a, b][1..] == [b];
  }
}

=== FILE: gemini.dfy ===
/**
 * The Gemini adapter: model-name normalisation, the model list, its own
 * rate-limit classifier, the chat prompt and its three operations. A
 * `generateContent` call is the oracle `generate`, answering with
 * `response.text()` (or nothing) or failing with an error.
 */
module Gemini {
  import opened Wrappers
  import opened Strings
  import opened Json
  import opened Errors
  import opened Fallback
  import opened PromptBuilder
  import opened Normalizer
  import opened Seqs
  import opened Replies

  const FallbackModel: string := "gemini-2.5-flash"

  /** Environment the adapter reads: `GOOGLE_GEMINI_API_KEY`, `GEMINI_API_KEY` and `GEMINI_MODELS`. */
  datatype Config = Config(googleApiKey: Option<string>, apiKey: Option<string>, models: Option<string>)

  /** A `generateContent` call; `jsonMode` is the `application/json` response type. Sampling values are left out. */
  datatype Request = Request(model: string, jsonMode: bool, prompt: string)

  /** `normalizeModel`: a missing or empty name gives `undefined`, anything else its trimmed text. */
  function NormalizeModel(model: Option<string>): Option<string> {
    if !Present(model) then None
    else
      var m := Trim(model.value);
      if m == "gemini-2.5-flash" then Some("gemini-2.5-flash") else Some(m)
  }

  /** The "gemini-2.5-flash" branch changes nothing: a present name always maps to its trim. */
  lemma NormalizeModelIsTrim(model: Option<string>)
    ensures !Present(model) ==> NormalizeModel(model) == None
    ensures Present(model) ==> NormalizeModel(model) == Some(Trim(model.value))
  {
  }

  /** One configured name: its normalised form, or nothing when that is empty. */
  function NormalizedName(part: string): (r: Option<string>)
    ensures r.Some? ==> r.value != ""
    ensures r.Some? <==> Trim(part) != ""
    ensures r.Some? ==> r.value == Trim(part)
  {
    NormalizeModelIsTrim(Some(part));
    assert part == "" ==> Trim(part) == "";
    var m := NormalizeModel(Some(part));
    if Present(m) then Some(m.value) else None
  }

  /** Each configured name normalised, empty results dropped. */
  function NormalizeAllDropEmpty(parts: seq<string>): (r: seq<string>)
    ensures |r| <= |parts|
    ensures forall i :: 0 <= i < |r| ==> r[i] != ""
  {
    FilterMapKeeps(NormalizedName, parts, NonEmpty);
    FilterMap(NormalizedName, parts)
  }

  predicate NonEmpty(s: string) {
    s != ""
  }

  /**
   * `GEMINI_MODELS`: the comma-separated list, entries normalised, empty
   * ones dropped. The list is exactly the pieces that do not trim to "",
   * trimmed, in their order.
   */
  function ModelList(env: Option<string>): (models: seq<string>)
    ensures forall i :: 0 <= i < |models| ==> models[i] != ""
    ensures TrimmedPieces(Split(env.GetOr(""), ','), models, KeptIndexes(NormalizedName, Split(env.GetOr(""), ',')))
  {
    var parts := Split(env.GetOr(""), ',');
    FilterMapSubsequence(NormalizedName, parts);
    NormalizeAllDropEmpty(parts)
  }

  /** `DEFAULT_GEMINI_MODEL`. */
  function DefaultModel(configured: seq<string>): string {
    if configured != [] && configured[0] != "" then configured[0] else FallbackModel
  }

  /**
   * `getModelCandidates`: the normalised explicit model, else the configured
   * list, else the default model. The explicit entry is `None` only when
   * normalisation yields `undefined`, which a present name never does.
   */
  function ModelCandidates(explicit: Option<string>, configured: seq<string>): (c: seq<string>)
    ensures |c| >= 1
    ensures Present(explicit) ==> c == [Trim(explicit.value)]
    ensures !Present(explicit) ==> forall i :: 0 <= i < |c| ==> c[i] in configured || c[i] == FallbackModel
    ensures !Present(explicit) && configured != [] ==> c == configured
    ensures !Present(explicit) && configured == [] ==> c == [FallbackModel]
  {
    if Present(explicit) then [NormalizeModel(explicit).value]
    else if configured != [] then configured
    else [DefaultModel(configured)]
  }

  /**
   * The candidate list is never empty: the trimmed explicit model alone,
   * otherwise the configured list (trimmed, non-empty entries), otherwise
   * "gemini-2.5-flash"; a normalised explicit model normalises to itself.
   */
  lemma CandidatesFromEnvironment(explicit: Option<string>, env: Option<string>)
    ensures Present(explicit) ==> ModelCandidates(explicit, ModelList(env)) == [Trim(explicit.value)]
    ensures !Present(explicit) && ModelList(env) != [] ==> ModelCandidates(explicit, ModelList(env)) == ModelList(env)
    ensures !Present(explicit) && ModelList(env) == [] ==> ModelCandidates(explicit, ModelList(env)) == [FallbackModel]
    ensures !Present(explicit) ==> forall i :: 0 <= i < |ModelCandidates(explicit, ModelList(env))| ==> ModelCandidates(explicit, ModelList(env))[i] != ""
    ensures Present(explicit) && Trim(explicit.value) != "" ==>
      ModelCandidates(Some(Trim(explicit.value)), ModelList(env)) == ModelCandidates(explicit, ModelList(env))
  {
    if Present(explicit) {
      TrimIdempotent(explicit.value);
    }
  }

  /**
   * An explicit model turns fallback off: once past the guards, each
   * operation calls that one model, trimmed, and no other.
   */
  lemma SummarizeExplicitModel(name: string, transcript: string, template: Option<string>, cfg: Config,
                               generate: Request -> Result<Option<string>, Error>, parse: string -> Option<JsonValue>)
    requires name != "" && HasKey(cfg) && !IsBlank(transcript)
    ensures Summarize(transcript, Some(name), template, cfg, generate, parse).tried == [Trim(name)]
  {
    var a := Summarize(transcript, Some(name), template, cfg, generate, parse);
    assert ModelCandidates(Some(name), ModelList(cfg.models)) == [Trim(name)];
    PrefixOfSingleton(a.tried, Trim(name));
  }

  lemma EditExplicitModel(name: string, prompt: string, summary: Option<JsonValue>, cfg: Config,
                          generate: Request -> Result<Option<string>, Error>, parse: string -> Option<JsonValue>,
                          render: JsonValue -> string)
    requires name != "" && HasKey(cfg) && !IsBlank(prompt)
    ensures Edit(prompt, summary, Some(name), cfg, generate, parse, render).tried == [Trim(name)]
  {
    var a := Edit(prompt, summary, Some(name), cfg, generate, parse, render);
    assert ModelCandidates(Some(name), ModelList(cfg.models)) == [Trim(name)];
    PrefixOfSingleton(a.tried, Trim(name));
  }

  lemma ChatExplicitModel(name: string, messages: Option<JsonValue>, summary: Option<JsonValue>, cfg: Config,
                          generate: Request -> Result<Option<string>, Error>, render: JsonValue -> string)
    requires name != "" && HasKey(cfg) && NormalizeChatMessages(messages) != []
    ensures Chat(messages, summary, Some(name), cfg, generate, render).tried == [Trim(name)]
  {
    var a := Chat(messages, summary, Some(name), cfg, generate, render);
    assert ModelCandidates(Some(name), ModelList(cfg.models)) == [Trim(name)];
    PrefixOfSingleton(a.tried, Trim(name));
  }

  /** A blank explicit model becomes the empty model name "": the list is never empty but its entry can be. */
  lemma BlankExplicitModel()
    ensures ModelCandidates(Some(" "), []) == [""]
  {
    assert TrimStart(" ") == TrimStart(" "[1..]);
  }

  /** The classifier of Gemini's `withModelFallback`: only `status` and `code` are read. */
  predicate IsRateLimited(e: Error) {
    e.ApiError? && (e.status == Some(429) || e.code == Some("RESOURCE_EXHAUSTED"))
  }

  /** `statusCode`, `response.status` and `error.code` play no part in Gemini's classification. */
  lemma RateLimitedIgnoresOtherFields(e: Error, statusCode: Option<int>, responseStatus: Option<int>, nestedCode: Option<string>)
    requires e.ApiError?
    ensures IsRateLimited(e) <==> (e.status == Some(429) || e.code == Some("RESOURCE_EXHAUSTED"))
    ensures IsRateLimited(e) == IsRateLimited(ApiError(e.status, statusCode, responseStatus, e.code, nestedCode))
  {
  }

  /** A key is configured when either the Google or the Gemini key variable is truthy. */
  predicate HasKey(cfg: Config) {
    Present(cfg.googleApiKey) || Present(cfg.apiKey)
  }

  const EditPreamble: string := "You are an expert meeting notes editor."
  const ChatPreamble: string := "You are a concise, helpful meeting copilot."

  /** `buildEditPrompt` of this adapter: the normalised summary rendered by `render`, then the request verbatim. */
  function BuildEditPrompt(summary: Option<JsonValue>, userPrompt: string, render: JsonValue -> string): string {
    EditPreamble + "\n\nCurrent summary JSON:\n" + render(SummaryToJson(NormalizeSummary(summary)))
    + "\n\nUser request:\n" + userPrompt + "\n\nReturn ONLY the updated JSON."
  }

  /** The edit prompt embeds the user's request verbatim and sees the summary only through its normalised form. */
  lemma EditPromptProperties(summary: Option<JsonValue>, userPrompt: string, render: JsonValue -> string)
    ensures var p := BuildEditPrompt(summary, userPrompt, render);
      var k := |EditPreamble + "\n\nCurrent summary JSON:\n" + render(SummaryToJson(NormalizeSummary(summary))) + "\n\nUser request:\n"|;
      k + |userPrompt| <= |p| && p[k..k + |userPrompt|] == userPrompt
    ensures BuildEditPrompt(summary, userPrompt, render)
         == BuildEditPrompt(Some(SummaryToJson(NormalizeSummary(summary))), userPrompt, render)
  {
    var p := BuildEditPrompt(summary, userPrompt, render);
    var pre := EditPreamble + "\n\nCurrent summary JSON:\n" + render(SummaryToJson(NormalizeSummary(summary))) + "\n\nUser request:\n";
    assert p == pre + userPrompt + "\n\nReturn ONLY the updated JSON.";
    assert p[|pre|..|pre| + |userPrompt|] == userPrompt;
    NormalizeSummaryToJson(NormalizeSummary(summary));
  }

  /** One history line: upper-cased role, ": ", content. */
  function HistoryLine(m: ChatMessage): string {
    Upper(RoleName(m.role)) + ": " + m.content
  }

  function HistoryLines(ms: seq<ChatMessage>): (lines: seq<string>)
    ensures |lines| == |ms|
    ensures forall i :: 0 <= i < |ms| ==> lines[i] == HistoryLine(ms[i])
  {
    seq(|ms|, i requires 0 <= i < |ms| => HistoryLine(ms[i]))
  }

  /** Upper-casing the two role names gives the history's line prefixes. */
  lemma RoleLabels()
    ensures Upper(RoleName(UserRole)) == "USER"
    ensures Upper(RoleName(AssistantRole)) == "ASSISTANT"
  {
    UpperIs("user", "USER");
    UpperIs("assistant", "ASSISTANT");
  }

  /**
   * A history line tells its message apart: two messages with the same
   * line have the same role and the same content.
   */
  lemma HistoryLineInjective(m1: ChatMessage, m2: ChatMessage)
    ensures HistoryLine(m1) == HistoryLine(m2) <==> m1 == m2
  {
    RoleLabels();
    var l1, l2 := Upper(RoleName(m1.role)) + ": ", Upper(RoleName(m2.role)) + ": ";
    assert l1[0] == (if m1.role == AssistantRole then 'A' else 'U');
    assert l2[0] == (if m2.role == AssistantRole then 'A' else 'U');
    assert HistoryLine(m1)[0] == l1[0] && HistoryLine(m2)[0] == l2[0];
    assert HistoryLine(m1)[|l1|..] == m1.content && HistoryLine(m2)[|l2|..] == m2.content;
  }

  /** `buildChatPrompt`: the normalised summary, then the cleaned history one line per message. */
  function BuildChatPrompt(messages: Option<JsonValue>, summary: Option<JsonValue>, render: JsonValue -> string): string {
    var cleaned := NormalizeChatMessages(messages);
    var history := Join(HistoryLines(cleaned), "\n");
    ChatPreamble + "\n\nCurrent summary JSON:\n" + render(SummaryToJson(NormalizeSummary(summary)))
    + "\n\nChat history:\n" + history + "\n\nReply as the assistant.\n"
  }

  /**
   * The chat prompt holds the joined history lines of the cleaned messages
   * at a fixed place after the summary, and sees the summary only through
   * its normalised form.
   */
  lemma ChatPromptProperties(messages: Option<JsonValue>, summary: Option<JsonValue>, render: JsonValue -> string)
    ensures var p := BuildChatPrompt(messages, summary, render);
      var h := Join(HistoryLines(NormalizeChatMessages(messages)), "\n");
      var k := |ChatPreamble + "\n\nCurrent summary JSON:\n" + render(SummaryToJson(NormalizeSummary(summary))) + "\n\nChat history:\n"|;
      k + |h| <= |p| && p[k..k + |h|] == h
    ensures BuildChatPrompt(messages, summary, render)
         == BuildChatPrompt(messages, Some(SummaryToJson(NormalizeSummary(summary))), render)
  {
    var p := BuildChatPrompt(messages, summary, render);
    var h := Join(HistoryLines(NormalizeChatMessages(messages)), "\n");
    var pre := ChatPreamble + "\n\nCurrent summary JSON:\n" + render(SummaryToJson(NormalizeSummary(summary))) + "\n\nChat history:\n";
    assert p == pre + h + "\n\nReply as the assistant.\n";
    assert p[|pre|..|pre| + |h|] == h;
    NormalizeSummaryToJson(NormalizeSummary(summary));
  }

  /**
   * The chat operation hands the already-cleaned history to
   * `buildChatPrompt`, which cleans it again; the second cleaning changes
   * nothing, so the prompt shows exactly the cleaned messages.
   */
  lemma ChatPromptOfCleaned(messages: Option<JsonValue>, summary: Option<JsonValue>, render: JsonValue -> string)
    ensures BuildChatPrompt(Some(HistoryToJson(NormalizeChatMessages(messages))), summary, render)
         == BuildChatPrompt(messages, summary, render)
  {
    NormalizeChatMessagesIdempotent(messages);
  }

  /** The backend call for `prompt` on model `m`, in JSON mode or not. */
  function Call(generate: Request -> Result<Option<string>, Error>, jsonMode: bool, prompt: string): string -> Result<Option<string>, Error> {
    m => generate(Request(m, jsonMode, prompt))
  }

  /** `summarizeTranscriptGemini`. */
  function Summarize(transcript: string, model: Option<string>, template: Option<string>, cfg: Config,
                     generate: Request -> Result<Option<string>, Error>,
                     parse: string -> Option<JsonValue>): (a: Attempt<Summary>)
    ensures IsBlank(transcript) ==> a == Attempt([], Failure(InvalidInput("summarizeTranscript requires transcript text")))
    ensures !IsBlank(transcript) && !HasKey(cfg) ==> a == Attempt([], Failure(MissingConfig("GOOGLE_GEMINI_API_KEY")))
    ensures a.tried != [] ==> !IsBlank(transcript) && HasKey(cfg)
    ensures !IsBlank(transcript) && HasKey(cfg) ==>
      a.tried != [] && a.tried <= ModelCandidates(model, ModelList(cfg.models))
    ensures !IsBlank(transcript) && HasKey(cfg) ==>
      var prompt := BuildPrompt(transcript, Some(NormalizeTemplate(template)));
      && a.tried != []
      && a.result == JsonReply(generate(Request(a.tried[|a.tried| - 1], true, prompt)), parse)
      && EarlierFailedWith(a.tried, JsonRun(Call(generate, true, prompt), parse), IsRateLimited)
  {
    if IsBlank(transcript) then Attempt([], Failure(InvalidInput("summarizeTranscript requires transcript text")))
    else if !HasKey(cfg) then Attempt([], Failure(MissingConfig("GOOGLE_GEMINI_API_KEY")))
    else
      var prompt := BuildPrompt(transcript, Some(NormalizeTemplate(template)));
      JsonFallback(ModelCandidates(model, ModelList(cfg.models)), Call(generate, true, prompt), parse, IsRateLimited)
  }

  /** `applyAssistantEditGemini`. */
  function Edit(prompt: string, summary: Option<JsonValue>, model: Option<string>, cfg: Config,
                generate: Request -> Result<Option<string>, Error>,
                parse: string -> Option<JsonValue>, render: JsonValue -> string): (a: Attempt<Summary>)
    ensures IsBlank(prompt) ==> a == Attempt([], Failure(InvalidInput("applyAssistantEdit requires a prompt")))
    ensures !IsBlank(prompt) && !HasKey(cfg) ==> a == Attempt([], Failure(MissingConfig("GOOGLE_GEMINI_API_KEY")))
    ensures a.tried != [] ==> !IsBlank(prompt) && HasKey(cfg)
    ensures !IsBlank(prompt) && HasKey(cfg) ==>
      a.tried != [] && a.tried <= ModelCandidates(model, ModelList(cfg.models))
    ensures !IsBlank(prompt) && HasKey(cfg) ==>
      var promptText := BuildEditPrompt(summary, prompt, render);
      && a.tried != []
      && a.result == JsonReply(generate(Request(a.tried[|a.tried| - 1], true, promptText)), parse)
      && EarlierFailedWith(a.tried, JsonRun(Call(generate, true, promptText), parse), IsRateLimited)
  {
    if IsBlank(prompt) then Attempt([], Failure(InvalidInput("applyAssistantEdit requires a prompt")))
    else if !HasKey(cfg) then Attempt([], Failure(MissingConfig("GOOGLE_GEMINI_API_KEY")))
    else
      JsonFallback(ModelCandidates(model, ModelList(cfg.models)), Call(generate, true, BuildEditPrompt(summary, prompt, render)), parse, IsRateLimited)
  }

  /**
   * `applyAssistantChatGemini`: an empty cleaned history throws before the
   * key is checked or any model is called.
   */
  function Chat(messages: Option<JsonValue>, summary: Option<JsonValue>, model: Option<string>, cfg: Config,
                generate: Request -> Result<Option<string>, Error>,
                render: JsonValue -> string): (a: Attempt<string>)
    ensures NormalizeChatMessages(messages) == [] ==>
      a == Attempt([], Failure(InvalidInput("applyAssistantChat requires at least one message")))
    ensures NormalizeChatMessages(messages) != [] && !HasKey(cfg) ==>
      a == Attempt([], Failure(MissingConfig("GOOGLE_GEMINI_API_KEY")))
    ensures NormalizeChatMessages(messages) != [] && HasKey(cfg) ==>
      a.tried != [] && a.tried <= ModelCandidates(model, ModelList(cfg.models))
    ensures NormalizeChatMessages(messages) != [] && HasKey(cfg) ==>
      var promptText := BuildChatPrompt(messages, summary, render);
      && a.tried != []
      && a.result == TextReply(generate(Request(a.tried[|a.tried| - 1], false, promptText)))
      && EarlierFailedWith(a.tried, TextRun(Call(generate, false, promptText)), IsRateLimited)
    ensures a.result.Success? ==> IsTrimmed(a.result.value)
  {
    var cleaned := NormalizeChatMessages(messages);
    if |cleaned| == 0 then Attempt([], Failure(InvalidInput("applyAssistantChat requires at least one message")))
    else if !HasKey(cfg) then Attempt([], Failure(MissingConfig("GOOGLE_GEMINI_API_KEY")))
    else
      var promptText := BuildChatPrompt(Some(HistoryToJson(cleaned)), summary, render);
      ChatPromptOfCleaned(messages, summary, render);
      TextFallback(ModelCandidates(model, ModelList(cfg.models)), Call(generate, false, promptText), IsRateLimited)
  }
}

=== FILE: jobs.dfy ===
/**
 * The transcription job store shared by the upload route, the
 * asynchronous pipeline and the synchronous processing route: a map from
 * job id to record, the four statuses, the transcription result shape and
 * the outside services as oracles.
 */
module Jobs {
  import opened Wrappers
  import opened Strings
  import opened Json
  import opened Errors
  import opened Normalizer

  datatype Status = Uploaded | Processing | Done | Errored

  /** The status strings stored in the database. */
  function StatusName(s: Status): string {
    match s
    case Uploaded => "uploaded"
    case Processing => "processing"
    case Done => "done"
    case Errored => "error"
  }

  /** One transcription record; `createdAt` is a millisecond timestamp. */
  datatype Job = Job(userId: string, fileName: string, fileUrl: Option<string>, status: Status,
                     template: Option<string>, transcript: Option<string>, summary: Option<Summary>,
                     createdAt: int)

  type Store = map<string, Job>

  /**
   * A status update of one job record: the
   * record's status changes and nothing else does; an absent id changes
   * nothing (the update throws, which callers either swallow or never meet).
   */
  function SetStatus(store: Store, id: string, status: Status): (r: Store)
    ensures r.Keys == store.Keys
    ensures forall k :: k in store && k != id ==> r[k] == store[k]
    ensures id in store ==> r[id].status == status && r[id] == store[id].(status := status)
  {
    if id in store then store[id := store[id].(status := status)] else store
  }

  /**
   * A status update of a present job is observable exactly through the
   * status: two updates give the same store only with the same status, and
   * writing the current status changes nothing.
   */
  lemma SetStatusObservable(store: Store, id: string, s1: Status, s2: Status)
    requires id in store
    ensures SetStatus(store, id, s1) == SetStatus(store, id, s2) <==> s1 == s2
    ensures SetStatus(store, id, store[id].status) == store
  {
    if SetStatus(store, id, s1) == SetStatus(store, id, s2) {
      assert SetStatus(store, id, s1)[id].status == SetStatus(store, id, s2)[id].status;
    }
  }

  /** Setting a status twice is setting it once: the last write wins. */
  lemma SetStatusLastWins(store: Store, id: string, s1: Status, s2: Status)
    ensures SetStatus(SetStatus(store, id, s1), id, s2) == SetStatus(store, id, s2)
  {
  }

  /** The final write of a successful run: transcript, the four summary fields and status "done". */
  function WriteResult(store: Store, id: string, text: string, summary: Summary): (r: Store)
    ensures r.Keys == store.Keys
    ensures forall k :: k in store && k != id ==> r[k] == store[k]
    ensures id in store ==> r[id] == store[id].(status := Done, transcript := Some(text), summary := Some(summary))
  {
    if id in store then store[id := store[id].(status := Done, transcript := Some(text), summary := Some(summary))] else store
  }

  /** The final write overrides an earlier status change of the same record. */
  lemma WriteResultAfterStatus(store: Store, id: string, status: Status, text: string, summary: Summary)
    ensures WriteResult(SetStatus(store, id, status), id, text, summary) == WriteResult(store, id, text, summary)
  {
  }

  /** Writing the same result twice is writing it once. */
  lemma WriteResultTwice(store: Store, id: string, text: string, summary: Summary)
    ensures WriteResult(WriteResult(store, id, text, summary), id, text, summary) == WriteResult(store, id, text, summary)
  {
  }

  /**
   * The effective template: the caller's
   * template when non-empty, else the stored one when non-empty, else
   * "default".
   */
  function EffectiveTemplate(override: Option<string>, stored: Option<string>): (t: string)
    ensures t != ""
    ensures t == "default" || Some(t) == override || Some(t) == stored
    ensures Present(override) ==> t == override.value
    ensures !Present(override) && Present(stored) ==> t == stored.value
  {
    if Present(override) then override.value
    else if Present(stored) then stored.value
    else "default"
  }

  /** The transcription service's reply, every level optional as in its declared type. */
  datatype Alternative = Alternative(transcript: Option<string>)
  datatype Channel = Channel(alternatives: Option<seq<Alternative>>)
  datatype Results = Results(channels: Option<seq<Channel>>)
  datatype TranscriptionResult = TranscriptionResult(results: Option<Results>)

  /** The first alternative of the first channel, when every level is there. */
  function FirstAlternative(r: Option<TranscriptionResult>): Option<Alternative> {
    if r.Some? && r.value.results.Some? && r.value.results.value.channels.Some?
       && |r.value.results.value.channels.value| > 0
       && r.value.results.value.channels.value[0].alternatives.Some?
       && |r.value.results.value.channels.value[0].alternatives.value| > 0
    then Some(r.value.results.value.channels.value[0].alternatives.value[0])
    else None
  }

  /**
   * `extractTranscript`: the trimmed transcript of the first alternative of
   * the first channel, or "" when any level is missing.
   */
  function ExtractTranscript(r: Option<TranscriptionResult>): (t: string)
    ensures IsTrimmed(t)
    ensures FirstAlternative(r).None? || FirstAlternative(r).value.transcript.None? ==> t == ""
    ensures t != "" ==> FirstAlternative(r).Some? && FirstAlternative(r).value.transcript.Some?
                        && !IsBlank(FirstAlternative(r).value.transcript.value)
  {
    var alt := FirstAlternative(r);
    var raw := if alt.Some? && Present(alt.value.transcript) then alt.value.transcript.value else "";
    TrimShape(raw);
    Trim(raw)
  }

  /** The reply carrying exactly one channel with one alternative `text`. */
  function ResultOf(text: string): Option<TranscriptionResult> {
    Some(TranscriptionResult(Some(Results(Some([Channel(Some([Alternative(Some(text))]))])))))
  }

  /** A trimmed transcript survives the round trip through a reply unchanged; anything else comes back trimmed. */
  lemma ExtractResultOf(text: string)
    ensures ExtractTranscript(ResultOf(text)) == Trim(text)
    ensures IsTrimmed(text) ==> ExtractTranscript(ResultOf(text)) == text
  {
    assert FirstAlternative(ResultOf(text)) == Some(Alternative(Some(text)));
    ExtractOfAlternative(ResultOf(text), text);
    if IsTrimmed(text) {
      TrimOfTrimmed(text);
    }
  }

  /** A reply whose first alternative carries `text` yields `text` trimmed. */
  lemma ExtractOfAlternative(r: Option<TranscriptionResult>, text: string)
    requires FirstAlternative(r) == Some(Alternative(Some(text)))
    ensures ExtractTranscript(r) == Trim(text)
  {
    if text == "" {
      assert Trim(text) == "";
    }
  }

  /** Only the first channel's first alternative is read: later alternatives are ignored. */
  lemma ExtractIgnoresLaterAlternatives(first: Alternative, rest: seq<Alternative>, channels: seq<Channel>)
    ensures ExtractTranscript(Some(TranscriptionResult(Some(Results(Some([Channel(Some([first] + rest))] + channels))))))
         == ExtractTranscript(Some(TranscriptionResult(Some(Results(Some([Channel(Some([first]))]))))))
  {
    var long := Some(TranscriptionResult(Some(Results(Some([Channel(Some([first] + rest))] + channels)))));
    var short := Some(TranscriptionResult(Some(Results(Some([Channel(Some([first]))])))));
    assert FirstAlternative(long) == Some(first) == FirstAlternative(short);
  }

  /**
   * The outside services: URL signing (key, bucket, lifetime in seconds),
   * speech-to-text on a URL, and summarisation of a transcript with a
   * template name.
   */
  datatype Services = Services(sign: (string, Option<string>, int) -> Result<string, Error>,
                               transcribe: string -> Result<Option<TranscriptionResult>, Error>,
                               summarize: (string, string) -> Result<Summary, Error>)

  /** The transcript a transcription call yields: trimmed text, or "" when the call failed. */
  function TranscriptText(svc: Services, url: string): (text: string)
    ensures IsTrimmed(text)
    ensures text != "" ==> svc.transcribe(url).Success? && text == ExtractTranscript(svc.transcribe(url).value)
  {
    if svc.transcribe(url).Success? then ExtractTranscript(svc.transcribe(url).value) else ""
  }
}

=== FILE: json.dfy ===
/**
 * The loosely typed values the core receives from LLM backends and request
 * bodies: parsed JSON, with JavaScript's truthiness and optional-chaining
 * member access.
 */
module Json {
  import opened Wrappers

  /** A parsed JSON value. Numbers are modelled as integers. */
  datatype JsonValue =
    | JNull
    | JBool(b: bool)
    | JNum(n: int)
    | JStr(s: string)
    | JArr(items: seq<JsonValue>)
    | JObj(fields: map<string, JsonValue>)

  /** Optional member access: the named member of an object, `None` (undefined) for anything else. */
  function Get(v: JsonValue, key: string): Option<JsonValue> {
    match v
    case JObj(f) => if key in f then Some(f[key]) else None
    case _ => None
  }

  /** JavaScript truthiness of a JSON value. */
  predicate Truthy(v: JsonValue) {
    match v
    case JNull => false
    case JBool(b) => b
    case JNum(n) => n != 0
    case JStr(s) => s != ""
    case _ => true
  }

  /** Truthiness of a possibly undefined value. */
  predicate OptTruthy(v: Option<JsonValue>) {
    v.Some? && Truthy(v.value)
  }

  /** The values JS calls objects, leaving out null: arrays and objects. */
  predicate IsObject(v: JsonValue) {
    v.JArr? || v.JObj?
  }

  /** Truthiness of an optional string: present and non-empty. */
  predicate Present(s: Option<string>) {
    s.Some? && s.value != ""
  }

  /** The empty object `{}`. */
  const EmptyObject: JsonValue := JObj(map[])
}

=== FILE: normalizer.dfy ===
/**
 * The output-shape normalisers shared (as identical copies) by both LLM
 * adapters: `normalize`, `normalizeSummary`, `normalizeChatMessages` and
 * `parseJsonLoose`. Each is defined once here; both adapters use it.
 */
module Normalizer {
  import opened Wrappers
  import opened Strings
  import opened Json
  import opened Errors
  import opened Seqs

  /** The canonical four-field summary. Array elements are kept as they came. */
  datatype Summary = Summary(decisions: seq<JsonValue>, keyPoints: seq<JsonValue>,
                             nextSteps: seq<JsonValue>, actionItems: seq<JsonValue>)

  const EmptySummary := Summary([], [], [], [])

  /** The summary as the JSON object the adapters return and the database stores. */
  function SummaryToJson(s: Summary): JsonValue {
    JObj(map["decisions" := JArr(s.decisions), "keyPoints" := JArr(s.keyPoints),
             "nextSteps" := JArr(s.nextSteps), "actionItems" := JArr(s.actionItems)])
  }

  /** The array stored under `key`, or no elements when there is none. */
  function ArrayField(parsed: JsonValue, key: string): seq<JsonValue> {
    match Get(parsed, key)
    case Some(JArr(items)) => items
    case _ => []
  }

  /**
   * `normalize`: each of the four fields is the input's same-named member
   * when that member is an array, and empty otherwise.
   */
  function Normalize(parsed: JsonValue): (r: Summary)
    ensures Get(parsed, "decisions") == Some(JArr(r.decisions)) || r.decisions == []
    ensures Get(parsed, "keyPoints") == Some(JArr(r.keyPoints)) || r.keyPoints == []
    ensures Get(parsed, "nextSteps") == Some(JArr(r.nextSteps)) || r.nextSteps == []
    ensures Get(parsed, "actionItems") == Some(JArr(r.actionItems)) || r.actionItems == []
    ensures Get(parsed, "decisions").Some? && Get(parsed, "decisions").value.JArr? ==> r.decisions == Get(parsed, "decisions").value.items
    ensures Get(parsed, "keyPoints").Some? && Get(parsed, "keyPoints").value.JArr? ==> r.keyPoints == Get(parsed, "keyPoints").value.items
    ensures Get(parsed, "nextSteps").Some? && Get(parsed, "nextSteps").value.JArr? ==> r.nextSteps == Get(parsed, "nextSteps").value.items
    ensures Get(parsed, "actionItems").Some? && Get(parsed, "actionItems").value.JArr? ==> r.actionItems == Get(parsed, "actionItems").value.items
    ensures !parsed.JObj? ==> r == EmptySummary
  {
    Summary(ArrayField(parsed, "decisions"), ArrayField(parsed, "keyPoints"),
            ArrayField(parsed, "nextSteps"), ArrayField(parsed, "actionItems"))
  }

  /** A summary survives the trip through its JSON form unchanged. */
  lemma NormalizeSummaryToJson(s: Summary)
    ensures Normalize(SummaryToJson(s)) == s
  {
  }

  /** `normalize` is idempotent: normalising the JSON form of a normalised value changes nothing. */
  lemma NormalizeIdempotent(parsed: JsonValue)
    ensures Normalize(SummaryToJson(Normalize(parsed))) == Normalize(parsed)
  {
    NormalizeSummaryToJson(Normalize(parsed));
  }

  /** `normalizeSummary`: a missing, falsy or non-object value is normalised as `{}`. */
  function NormalizeSummary(summary: Option<JsonValue>): Summary {
    if summary.None? || !Truthy(summary.value) || !IsObject(summary.value) then Normalize(EmptyObject)
    else Normalize(summary.value)
  }

  /** `normalizeSummary` agrees with `normalize` on every present value, and gives the empty summary for a missing one. */
  lemma NormalizeSummaryIsNormalize(summary: Option<JsonValue>)
    ensures summary.Some? ==> NormalizeSummary(summary) == Normalize(summary.value)
    ensures summary.None? ==> NormalizeSummary(summary) == EmptySummary
  {
  }

  datatype ChatRole = UserRole | AssistantRole

  /** A cleaned chat message: role and trimmed, non-empty content. */
  datatype ChatMessage = ChatMessage(role: ChatRole, content: string)

  function RoleName(role: ChatRole): string {
    match role
    case UserRole => "user"
    case AssistantRole => "assistant"
  }

  /** The role is assistant only for exactly the string "assistant", user otherwise. */
  function EntryRole(m: JsonValue): ChatRole {
    if Get(m, "role") == Some(JStr("assistant")) then AssistantRole else UserRole
  }

  /** The content trimmed when it is a string, "" otherwise. */
  function EntryContent(m: JsonValue): (content: string)
    ensures IsTrimmed(content)
  {
    match Get(m, "content")
    case Some(JStr(s)) => TrimIsTrimmed(s); Trim(s)
    case _ => ""
  }

  /** The mapping callback of `normalizeChatMessages`: `None` for an entry that is dropped. */
  function CleanEntry(m: JsonValue): (r: Option<ChatMessage>)
    ensures r.Some? ==> m.JObj? && r.value.content != "" && IsTrimmed(r.value.content)
    ensures r.Some? ==> (r.value.role == AssistantRole <==> Get(m, "role") == Some(JStr("assistant")))
    ensures r.Some? <==> m.JObj? && Get(m, "content").Some? && Get(m, "content").value.JStr?
                         && Trim(Get(m, "content").value.s) != ""
    ensures r.Some? ==> r.value.content == Trim(Get(m, "content").value.s)
  {
    if !Truthy(m) || !IsObject(m) || EntryContent(m) == "" then None
    else Some(ChatMessage(EntryRole(m), EntryContent(m)))
  }

  /** What every cleaned message satisfies: non-empty, trimmed content. */
  predicate ValidMessage(m: ChatMessage) {
    m.content != "" && IsTrimmed(m.content)
  }

  /** Map-then-filter over an array of entries; order is kept and nothing is added. */
  function CleanAll(ms: seq<JsonValue>): (r: seq<ChatMessage>)
    ensures |r| <= |ms|
    ensures forall i :: 0 <= i < |r| ==> r[i].content != "" && IsTrimmed(r[i].content)
  {
    FilterMapKeeps(CleanEntry, ms, ValidMessage);
    FilterMap(CleanEntry, ms)
  }

  /**
   * `normalizeChatMessages`: a non-array gives the empty history. For an
   * array, the history is taken entry by entry in order: the entries kept
   * are exactly those `CleanEntry` accepts (objects whose content is a
   * non-blank string), each giving its role and trimmed content.
   */
  function NormalizeChatMessages(messages: Option<JsonValue>): (r: seq<ChatMessage>)
    ensures !(messages.Some? && messages.value.JArr?) ==> r == []
    ensures messages.Some? && messages.value.JArr? ==> |r| <= |messages.value.items|
    ensures forall i :: 0 <= i < |r| ==> r[i].content != "" && IsTrimmed(r[i].content)
    ensures messages.Some? && messages.value.JArr? ==>
      var items := messages.value.items;
      var idx := KeptIndexes(CleanEntry, items);
      && |r| == |idx|
      && (forall k, l :: 0 <= k < l < |idx| ==> idx[k] < idx[l])
      && (forall k :: 0 <= k < |idx| ==> idx[k] < |items| && CleanEntry(items[idx[k]]) == Some(r[k]))
      && (forall i :: 0 <= i < |items| && CleanEntry(items[i]).Some? ==> i in idx)
  {
    match messages
    case Some(JArr(items)) =>
      FilterMapSubsequence(CleanEntry, items);
      CleanAll(items)
    case _ => []
  }

  /** Cleaning distributes over concatenation: the output keeps the input's order. */
  lemma CleanAllAppend(a: seq<JsonValue>, b: seq<JsonValue>)
    ensures CleanAll(a + b) == CleanAll(a) + CleanAll(b)
  {
    FilterMapAppend(CleanEntry, a, b);
  }

  /** Every entry is kept exactly when it cleans to a message, so an all-valid history keeps its length. */
  lemma CleanAllKeepsValid(ms: seq<JsonValue>)
    requires forall i :: 0 <= i < |ms| ==> CleanEntry(ms[i]).Some?
    ensures |CleanAll(ms)| == |ms|
    ensures forall i :: 0 <= i < |ms| ==> CleanAll(ms)[i] == CleanEntry(ms[i]).value
  {
    FilterMapAllPresent(CleanEntry, ms);
  }

  /** The JSON form of a cleaned message, as it is sent back in a later request. */
  function MessageToJson(m: ChatMessage): JsonValue {
    JObj(map["role" := JStr(RoleName(m.role)), "content" := JStr(m.content)])
  }

  function HistoryToJson(ms: seq<ChatMessage>): JsonValue {
    JArr(seq(|ms|, i requires 0 <= i < |ms| => MessageToJson(ms[i])))
  }

  /** A cleaned message is a fixed point of the entry cleaner. */
  lemma CleanEntryOfMessage(m: ChatMessage)
    requires m.content != "" && IsTrimmed(m.content)
    ensures CleanEntry(MessageToJson(m)) == Some(m)
  {
    var j := MessageToJson(m);
    assert Get(j, "role") == Some(JStr(RoleName(m.role)));
    assert Get(j, "content") == Some(JStr(m.content));
    TrimOfTrimmed(m.content);
    assert Get(j, "role") == Some(JStr("assistant")) <==> m.role == AssistantRole;
  }

  lemma {:induction false} CleanAllOfHistory(ms: seq<ChatMessage>)
    requires forall i :: 0 <= i < |ms| ==> ms[i].content != "" && IsTrimmed(ms[i].content)
    ensures CleanAll(HistoryToJson(ms).items) == ms
  {
    var items := HistoryToJson(ms).items;
    forall i | 0 <= i < |ms|
      ensures CleanEntry(items[i]) == Some(ms[i])
    {
      CleanEntryOfMessage(ms[i]);
    }
    CleanAllKeepsValid(items);
  }

  /** `normalizeChatMessages` is idempotent on its own output. */
  lemma NormalizeChatMessagesIdempotent(messages: Option<JsonValue>)
    ensures NormalizeChatMessages(Some(HistoryToJson(NormalizeChatMessages(messages))))
         == NormalizeChatMessages(messages)
  {
    CleanAllOfHistory(NormalizeChatMessages(messages));
  }

  lemma EntryOfStrings(m: JsonValue, role: string, content: string)
    requires m.JObj? && Get(m, "role") == Some(JStr(role)) && Get(m, "content") == Some(JStr(content))
    ensures CleanEntry(m) == if Trim(content) == "" then None
      else Some(ChatMessage(if role == "assistant" then AssistantRole else UserRole, Trim(content)))
  {
    assert Truthy(m) && IsObject(m);
    assert EntryContent(m) == Trim(content);
    assert EntryRole(m) == if role == "assistant" then AssistantRole else UserRole;
  }

  /** An entry with an unknown role is kept as a user message. */
  lemma ExampleUnknownRole()
    ensures CleanEntry(JObj(map["role" := JStr("x"), "content" := JStr("hi")])) == Some(ChatMessage(UserRole, "hi"))
  {
    var a := JObj(map["role" := JStr("x"), "content" := JStr("hi")]);
    assert Get(a, "role") == Some(JStr("x")) && Get(a, "content") == Some(JStr("hi"));
    TrimOfTrimmed("hi");
    EntryOfStrings(a, "x", "hi");
  }

  /** An entry with empty content is dropped. */
  lemma ExampleEmptyContent()
    ensures CleanEntry(JObj(map["content" := JStr("")])) == None
  {
    var b := JObj(map["content" := JStr("")]);
    assert Get(b, "content") == Some(JStr(""));
    TrimOfTrimmed("");
    assert EntryContent(b) == "";
  }

  /** An assistant entry keeps its role and has its content trimmed. */
  lemma ExampleAssistant()
    ensures CleanEntry(JObj(map["role" := JStr("assistant"), "content" := JStr(" ok ")])) == Some(ChatMessage(AssistantRole, "ok"))
  {
    var c := JObj(map["role" := JStr("assistant"), "content" := JStr(" ok ")]);
    assert Get(c, "role") == Some(JStr("assistant")) && Get(c, "content") == Some(JStr(" ok "));
    assert TrimStart(" ok ") == "ok " by {
      assert " ok "[1..] == "ok ";
      TrimStartIdem("ok ");
    }
    assert TrimEnd("ok ") == "ok" by {
      assert "ok "[..2] == "ok";
      TrimEndIdem("ok");
    }
    EntryOfStrings(c, "assistant", " ok ");
  }

  /** Three entries of which the middle one is dropped give the other two, in order. */
  lemma CleanAllOfThree(a: JsonValue, b: JsonValue, c: JsonValue, ra: ChatMessage, rc: ChatMessage)
    requires CleanEntry(a) == Some(ra) && CleanEntry(b) == None && CleanEntry(c) == Some(rc)
    ensures NormalizeChatMessages(Some(JArr([a, b, c]))) == [ra, rc]
  {
    FilterMapDropMiddle(CleanEntry, a, b, c, ra, rc);
  }

  /** The worked example: an unknown role becomes "user", an empty entry is dropped, content is trimmed. */
  lemma ChatExample()
    ensures NormalizeChatMessages(Some(JArr([
              JObj(map["role" := JStr("x"), "content" := JStr("hi")]),
              JObj(map["content" := JStr("")]),
              JObj(map["role" := JStr("assistant"), "content" := JStr(" ok ")])])))
         == [ChatMessage(UserRole, "hi"), ChatMessage(AssistantRole, "ok")]
  {
    ExampleUnknownRole();
    ExampleEmptyContent();
    ExampleAssistant();
    CleanAllOfThree(JObj(map["role" := JStr("x"), "content" := JStr("hi")]),
                    JObj(map["content" := JStr("")]),
                    JObj(map["role" := JStr("assistant"), "content" := JStr(" ok ")]),
                    ChatMessage(UserRole, "hi"), ChatMessage(AssistantRole, "ok"));
  }

  /**
   * Where `/\{[\s\S]*\}/` matches: from the first "{" to the last "}", when
   * some "}" follows the first "{". The span is `raw[lo..hi + 1]`.
   */
  function BraceSpan(raw: string): (span: Option<(nat, nat)>)
    ensures span.Some? <==> exists i, j :: 0 <= i < j < |raw| && raw[i] == '{' && raw[j] == '}'
    ensures span.Some? ==> var (lo, hi) := span.value;
      lo < hi < |raw| && raw[lo] == '{' && raw[hi] == '}' && '{' !in raw[..lo] && '}' !in raw[hi + 1..]
  {
    if '{' in raw && '}' in raw && IndexOf(raw, '{') < LastIndexOf(raw, '}') then
      Some((IndexOf(raw, '{'), LastIndexOf(raw, '}')))
    else
      NoBraceSpan(raw);
      None
  }

  lemma NoBraceSpan(raw: string)
    requires !('{' in raw && '}' in raw && IndexOf(raw, '{') < LastIndexOf(raw, '}'))
    ensures forall i, j :: 0 <= i < j < |raw| && raw[i] == '{' ==> raw[j] != '}'
  {
    forall i, j | 0 <= i < j < |raw| && raw[i] == '{'
      ensures raw[j] != '}'
    {
      var fi := IndexOf(raw, '{');
      assert fi <= i;
    }
  }

  /** The text the retry parses. */
  function SpanText(raw: string, span: (nat, nat)): string
    requires span.0 <= span.1 < |raw|
  {
    raw[span.0..span.1 + 1]
  }

  /**
   * `parseJsonLoose`, with `JSON.parse` as the oracle `parse` (`None` when it
   * throws). The retry on the brace span is not guarded, so it can throw.
   */
  function ParseJsonLoose(raw: string, parse: string -> Option<JsonValue>): (r: Result<JsonValue, Error>)
    ensures raw == "" ==> r == Success(EmptyObject)
    ensures raw != "" && parse(raw).Some? ==> r == Success(parse(raw).value)
    ensures r.Failure? ==> r.error == JsonSyntax && raw != "" && parse(raw).None?
                           && BraceSpan(raw).Some? && parse(SpanText(raw, BraceSpan(raw).value)).None?
    ensures raw != "" && parse(raw).None? && BraceSpan(raw).None? ==> r == Success(EmptyObject)
    ensures raw != "" && parse(raw).None? && BraceSpan(raw).Some? && parse(SpanText(raw, BraceSpan(raw).value)).Some? ==>
      r == Success(parse(SpanText(raw, BraceSpan(raw).value)).value)
  {
    if raw == "" then Success(EmptyObject)
    else match parse(raw)
      case Some(v) => Success(v)
      case None =>
        match BraceSpan(raw)
        case Some(span) =>
          (match parse(SpanText(raw, span))
           case Some(v) => Success(v)
           case None => Failure(JsonSyntax))
        case None => Success(EmptyObject)
  }

  /**
   * A reply that wraps one JSON object in text holding no "{" before it and
   * no "}" after it (a fenced code block, say) is recovered: the retry
   * parses exactly the object.
   */
  lemma ParseJsonLooseOfWrapped(prefix: string, body: string, suffix: string,
                                parse: string -> Option<JsonValue>, v: JsonValue)
    requires '{' !in prefix && '}' !in suffix
    requires |body| >= 2 && body[0] == '{' && body[|body| - 1] == '}'
    requires parse(prefix + body + suffix).None? && parse(body) == Some(v)
    ensures ParseJsonLoose(prefix + body + suffix, parse) == Success(v)
  {
    var raw := prefix + body + suffix;
    var open, close := |prefix|, |prefix| + |body| - 1;
    assert raw[open] == '{' && raw[close] == '}';
    var (lo, hi) := BraceSpan(raw).value;
    assert raw[..open] == prefix && raw[close + 1..] == suffix;
    assert SpanText(raw, (lo, hi)) == body;
  }
}

=== FILE: openai.dfy ===
/**
 * The OpenAI adapter: model-list configuration, the rate-limit classifier,
 * the prompts it sends and its three operations. A chat-completion call is
 * the oracle `complete`, answering with `choices[0].message.content` (or
 * nothing) or failing with an error.
 */
module OpenAi {
  import opened Wrappers
  import opened Strings
  import opened Json
  import opened Errors
  import opened Fallback
  import opened PromptBuilder
  import opened Normalizer
  import opened Seqs
  import opened Replies

  const FallbackModel: string := "gpt-4o-mini"

  /** Environment the adapter reads: `OPENAI_API_KEY` and `OPENAI_MODELS`. */
  datatype Config = Config(apiKey: Option<string>, models: Option<string>)

  datatype WireRole = SystemRole | UserWire | AssistantWire
  datatype WireMessage = WireMessage(role: WireRole, content: string)

  /** A `chat.completions.create` request; temperatures are left out. */
  datatype Request = Request(model: string, jsonMode: bool, messages: seq<WireMessage>)

  /** One configured name: its trim, or nothing when that is empty. */
  function TrimmedName(part: string): (r: Option<string>)
    ensures r.Some? ==> ValidName(r.value)
    ensures r.Some? <==> Trim(part) != ""
    ensures r.Some? ==> r.value == Trim(part)
  {
    TrimShape(part);
    if Trim(part) != "" then Some(Trim(part)) else None
  }

  /** A usable model name: non-empty and trimmed. */
  predicate ValidName(name: string) {
    name != "" && IsTrimmed(name)
  }

  /** Each configured name trimmed, empty results dropped. */
  function TrimAllDropEmpty(parts: seq<string>): (r: seq<string>)
    ensures |r| <= |parts|
    ensures forall i :: 0 <= i < |r| ==> r[i] != "" && IsTrimmed(r[i])
  {
    FilterMapKeeps(TrimmedName, parts, ValidName);
    FilterMap(TrimmedName, parts)
  }

  /**
   * `OPENAI_MODELS`: the comma-separated list, each entry trimmed, empty
   * entries dropped. The list is exactly the pieces that do not trim to
   * "", trimmed, in their order.
   */
  function ModelList(env: Option<string>): (models: seq<string>)
    ensures forall i :: 0 <= i < |models| ==> models[i] != "" && IsTrimmed(models[i]) && ',' !in models[i]
    ensures TrimmedPieces(Split(env.GetOr(""), ','), models, KeptIndexes(TrimmedName, Split(env.GetOr(""), ',')))
  {
    var parts := Split(env.GetOr(""), ',');
    TrimAllNoComma(parts);
    FilterMapSubsequence(TrimmedName, parts);
    TrimAllDropEmpty(parts)
  }

  /** Pieces of a comma split hold no comma, and trimming them cannot add one. */
  lemma TrimAllNoComma(parts: seq<string>)
    requires forall k :: 0 <= k < |parts| ==> ',' !in parts[k]
    ensures forall i :: 0 <= i < |TrimAllDropEmpty(parts)| ==> ',' !in TrimAllDropEmpty(parts)[i]
  {
    forall k | 0 <= k < |parts|
      ensures TrimmedName(parts[k]).Some? ==> NoComma(TrimmedName(parts[k]).value)
    {
      TrimKeepsAbsent(parts[k], ',');
    }
    FilterMapKeeps(TrimmedName, parts, NoComma);
  }

  predicate NoComma(s: string) {
    ',' !in s
  }

  /** `DEFAULT_OPENAI_MODEL`. */
  function DefaultModel(configured: seq<string>): string {
    if configured != [] && configured[0] != "" then configured[0] else FallbackModel
  }

  /** `getModelCandidates`: the explicit model, else the configured list, else the default model. */
  function ModelCandidates(explicit: Option<string>, configured: seq<string>): (c: seq<string>)
    ensures |c| >= 1
    ensures Present(explicit) ==> c == [explicit.value]
    ensures !Present(explicit) && configured != [] ==> c == configured
    ensures !Present(explicit) && configured == [] ==> c == [FallbackModel]
  {
    if Present(explicit) then [explicit.value]
    else if configured != [] then configured
    else [DefaultModel(configured)]
  }

  /**
   * The candidate list is never empty: an explicit model alone, otherwise
   * the configured list (trimmed, non-empty entries), otherwise "gpt-4o-mini".
   */
  lemma CandidatesFromEnvironment(explicit: Option<string>, env: Option<string>)
    ensures Present(explicit) ==> ModelCandidates(explicit, ModelList(env)) == [explicit.value]
    ensures !Present(explicit) && ModelList(env) != [] ==> ModelCandidates(explicit, ModelList(env)) == ModelList(env)
    ensures !Present(explicit) && ModelList(env) == [] ==> ModelCandidates(explicit, ModelList(env)) == [FallbackModel]
    ensures forall i :: 0 <= i < |ModelCandidates(explicit, ModelList(env))| ==> ModelCandidates(explicit, ModelList(env))[i] != ""
  {
    var models := ModelList(env);
    var c := ModelCandidates(explicit, models);
    assert c == models || c == [FallbackModel] || c == [explicit.GetOr("")];
  }

  /** The first present of the error's status, its statusCode and its response's status. */
  function EffectiveStatus(e: Error): Option<int> {
    if !e.ApiError? then None
    else if e.status.Some? then e.status
    else if e.statusCode.Some? then e.statusCode
    else e.responseStatus
  }

  /** The error's code when truthy, otherwise the nested error's code. */
  function EffectiveCode(e: Error): Option<string> {
    if !e.ApiError? then None
    else if Present(e.code) then e.code
    else e.nestedCode
  }

  /** The classifier of `withModelFallback`. */
  predicate IsRateLimited(e: Error) {
    EffectiveStatus(e) == Some(429) || EffectiveCode(e) == Some("rate_limit_exceeded") || EffectiveCode(e) == Some("429")
  }

  /**
   * An SDK error is rate-limited exactly when the first present status
   * field is 429, or the first non-empty code is "rate_limit_exceeded" or
   * "429"; errors raised by the adapter itself never are.
   */
  lemma RateLimitedIff(e: Error)
    ensures !e.ApiError? ==> !IsRateLimited(e)
    ensures e.ApiError? ==>
      (IsRateLimited(e) <==>
        || (e.status == Some(429))
        || (e.status.None? && e.statusCode == Some(429))
        || (e.status.None? && e.statusCode.None? && e.responseStatus == Some(429))
        || (Present(e.code) && e.code.value in {"rate_limit_exceeded", "429"})
        || (!Present(e.code) && e.nestedCode.Some? && e.nestedCode.value in {"rate_limit_exceeded", "429"}))
  {
  }

  /** A present `status` hides `statusCode`: a 500 status with a 429 statusCode is not rate-limited. */
  lemma StatusTakesPrecedence()
    ensures !IsRateLimited(ApiError(Some(500), Some(429), None, None, None))
    ensures IsRateLimited(ApiError(None, None, Some(429), None, None))
    ensures IsRateLimited(ApiError(None, None, None, Some(""), Some("rate_limit_exceeded")))
  {
  }

  const SummarizeSystem: string := "You are an expert meeting summarizer."
  const EditSystem: string := "You edit structured meeting notes."
  const ChatSystem: string := "You are a helpful meeting copilot."
  const EditPreamble: string := "You are an expert meeting notes editor."

  /**
   * `buildEditPrompt`: the normalised current summary, rendered by
   * `JSON.stringify` (the oracle `render`), then the user's request verbatim.
   */
  function BuildEditPrompt(summary: Option<JsonValue>, userPrompt: string, render: JsonValue -> string): (p: string)
  {
    EditPreamble + "\n\nCurrent summary JSON:\n" + render(SummaryToJson(NormalizeSummary(summary)))
    + "\n\nUser request:\n" + userPrompt + "\n\nRespond with ONLY the updated JSON."
  }

  /** The edit prompt embeds the user's request verbatim and sees the summary only through its normalised form. */
  lemma EditPromptProperties(summary: Option<JsonValue>, userPrompt: string, render: JsonValue -> string)
    ensures var p := BuildEditPrompt(summary, userPrompt, render);
      var k := |EditPreamble + "\n\nCurrent summary JSON:\n" + render(SummaryToJson(NormalizeSummary(summary))) + "\n\nUser request:\n"|;
      k + |userPrompt| <= |p| && p[k..k + |userPrompt|] == userPrompt
    ensures BuildEditPrompt(summary, userPrompt, render)
         == BuildEditPrompt(Some(SummaryToJson(NormalizeSummary(summary))), userPrompt, render)
  {
    var p := BuildEditPrompt(summary, userPrompt, render);
    var pre := EditPreamble + "\n\nCurrent summary JSON:\n" + render(SummaryToJson(NormalizeSummary(summary))) + "\n\nUser request:\n";
    assert p == pre + userPrompt + "\n\nRespond with ONLY the updated JSON.";
    assert p[|pre|..|pre| + |userPrompt|] == userPrompt;
    NormalizeSummaryToJson(NormalizeSummary(summary));
  }

  function ToWire(m: ChatMessage): WireMessage {
    WireMessage(if m.role == AssistantRole then AssistantWire else UserWire, m.content)
  }

  /**
   * `buildChatMessages`: two system messages (instructions, then the
   * normalised summary) followed by the cleaned history in order.
   */
  function BuildChatMessages(messages: Option<JsonValue>, summary: Option<JsonValue>,
                             render: JsonValue -> string): (r: seq<WireMessage>)
    ensures |r| == 2 + |NormalizeChatMessages(messages)|
    ensures r[0].role == SystemRole && r[1].role == SystemRole
    ensures forall i :: 0 <= i < |NormalizeChatMessages(messages)| ==>
      r[i + 2].content == NormalizeChatMessages(messages)[i].content
      && (r[i + 2].role == AssistantWire <==> NormalizeChatMessages(messages)[i].role == AssistantRole)
  {
    WithSystem(SummaryContext(summary, render), NormalizeChatMessages(messages))
  }

  /** The second system message: the normalised summary as rendered JSON. */
  function SummaryContext(summary: Option<JsonValue>, render: JsonValue -> string): string {
    "Current summary JSON:\n" + render(SummaryToJson(NormalizeSummary(summary)))
  }

  /** The instructions and the summary context, then each cleaned message with its wire role. */
  function WithSystem(context: string, cleaned: seq<ChatMessage>): (r: seq<WireMessage>)
    ensures |r| == 2 + |cleaned|
    ensures r[0] == WireMessage(SystemRole, ChatSystem) && r[1] == WireMessage(SystemRole, context)
    ensures forall i :: 0 <= i < |cleaned| ==>
      r[i + 2].content == cleaned[i].content
      && (r[i + 2].role == AssistantWire <==> cleaned[i].role == AssistantRole)
  {
    [WireMessage(SystemRole, ChatSystem), WireMessage(SystemRole, context)]
    + seq(|cleaned|, i requires 0 <= i < |cleaned| => ToWire(cleaned[i]))
  }

  /** The backend call carrying `messages` on model `m`, in JSON mode or not. */
  function Call(complete: Request -> Result<Option<string>, Error>, jsonMode: bool, messages: seq<WireMessage>): string -> Result<Option<string>, Error> {
    m => complete(Request(m, jsonMode, messages))
  }

  /** `summarizeTranscriptOpenAI`. */
  function Summarize(transcript: string, model: Option<string>, template: Option<string>, cfg: Config,
                     complete: Request -> Result<Option<string>, Error>,
                     parse: string -> Option<JsonValue>): (a: Attempt<Summary>)
    ensures IsBlank(transcript) ==> a == Attempt([], Failure(InvalidInput("summarizeTranscript requires transcript text")))
    ensures !IsBlank(transcript) && !Present(cfg.apiKey) ==> a == Attempt([], Failure(MissingConfig("OPENAI_API_KEY")))
    ensures a.tried != [] ==> !IsBlank(transcript) && Present(cfg.apiKey)
    ensures !IsBlank(transcript) && Present(cfg.apiKey) ==>
      a.tried != [] && a.tried <= ModelCandidates(model, ModelList(cfg.models))
    ensures !IsBlank(transcript) && Present(cfg.apiKey) ==>
      var messages := [WireMessage(SystemRole, SummarizeSystem),
                       WireMessage(UserWire, BuildPrompt(transcript, Some(NormalizeTemplate(template))))];
      && a.tried != []
      && a.result == JsonReply(complete(Request(a.tried[|a.tried| - 1], true, messages)), parse)
      && EarlierFailedWith(a.tried, JsonRun(Call(complete, true, messages), parse), IsRateLimited)
  {
    if IsBlank(transcript) then Attempt([], Failure(InvalidInput("summarizeTranscript requires transcript text")))
    else if !Present(cfg.apiKey) then Attempt([], Failure(MissingConfig("OPENAI_API_KEY")))
    else
      var user := BuildPrompt(transcript, Some(NormalizeTemplate(template)));
      var messages := [WireMessage(SystemRole, SummarizeSystem), WireMessage(UserWire, user)];
      JsonFallback(ModelCandidates(model, ModelList(cfg.models)), Call(complete, true, messages), parse, IsRateLimited)
  }

  /** `applyAssistantEditOpenAI`. */
  function Edit(prompt: string, summary: Option<JsonValue>, model: Option<string>, cfg: Config,
                complete: Request -> Result<Option<string>, Error>,
                parse: string -> Option<JsonValue>, render: JsonValue -> string): (a: Attempt<Summary>)
    ensures IsBlank(prompt) ==> a == Attempt([], Failure(InvalidInput("applyAssistantEdit requires a prompt")))
    ensures !IsBlank(prompt) && !Present(cfg.apiKey) ==> a == Attempt([], Failure(MissingConfig("OPENAI_API_KEY")))
    ensures a.tried != [] ==> !IsBlank(prompt) && Present(cfg.apiKey)
    ensures !IsBlank(prompt) && Present(cfg.apiKey) ==>
      a.tried != [] && a.tried <= ModelCandidates(model, ModelList(cfg.models))
    ensures !IsBlank(prompt) && Present(cfg.apiKey) ==>
      var messages := [WireMessage(SystemRole, EditSystem), WireMessage(UserWire, BuildEditPrompt(summary, prompt, render))];
      && a.tried != []
      && a.result == JsonReply(complete(Request(a.tried[|a.tried| - 1], true, messages)), parse)
      && EarlierFailedWith(a.tried, JsonRun(Call(complete, true, messages), parse), IsRateLimited)
  {
    if IsBlank(prompt) then Attempt([], Failure(InvalidInput("applyAssistantEdit requires a prompt")))
    else if !Present(cfg.apiKey) then Attempt([], Failure(MissingConfig("OPENAI_API_KEY")))
    else
      var user := BuildEditPrompt(summary, prompt, render);
      var messages := [WireMessage(SystemRole, EditSystem), WireMessage(UserWire, user)];
      JsonFallback(ModelCandidates(model, ModelList(cfg.models)), Call(complete, true, messages), parse, IsRateLimited)
  }

  /**
   * `applyAssistantChatOpenAI`. Its emptiness check looks at the message
   * list after the two system messages are prepended.
   */
  function Chat(messages: Option<JsonValue>, summary: Option<JsonValue>, model: Option<string>, cfg: Config,
                complete: Request -> Result<Option<string>, Error>,
                render: JsonValue -> string): (a: Attempt<string>)
    ensures !Present(cfg.apiKey) ==> a == Attempt([], Failure(MissingConfig("OPENAI_API_KEY")))
    ensures Present(cfg.apiKey) ==>
      a.tried != [] && a.tried <= ModelCandidates(model, ModelList(cfg.models))
    ensures Present(cfg.apiKey) ==>
      var chatMessages := BuildChatMessages(messages, summary, render);
      && a.tried != []
      && a.result == TextReply(complete(Request(a.tried[|a.tried| - 1], false, chatMessages)))
      && EarlierFailedWith(a.tried, TextRun(Call(complete, false, chatMessages)), IsRateLimited)
    ensures a.result.Success? ==> IsTrimmed(a.result.value)
  {
    var chatMessages := BuildChatMessages(messages, summary, render);
    if |chatMessages| == 0 then Attempt([], Failure(InvalidInput("applyAssistantChat requires at least one message")))
    else if !Present(cfg.apiKey) then Attempt([], Failure(MissingConfig("OPENAI_API_KEY")))
    else
      TextFallback(ModelCandidates(model, ModelList(cfg.models)), Call(complete, false, chatMessages), IsRateLimited)
  }

  /**
   * An explicit model turns fallback off: once past the guards, each
   * operation calls that one model and no other.
   */
  lemma SummarizeExplicitModel(name: string, transcript: string, template: Option<string>, cfg: Config,
                               complete: Request -> Result<Option<string>, Error>, parse: string -> Option<JsonValue>)
    requires name != "" && Present(cfg.apiKey) && !IsBlank(transcript)
    ensures Summarize(transcript, Some(name), template, cfg, complete, parse).tried == [name]
  {
    var a := Summarize(transcript, Some(name), template, cfg, complete, parse);
    assert ModelCandidates(Some(name), ModelList(cfg.models)) == [name];
    PrefixOfSingleton(a.tried, name);
  }

  lemma EditExplicitModel(name: string, prompt: string, summary: Option<JsonValue>, cfg: Config,
                          complete: Request -> Result<Option<string>, Error>, parse: string -> Option<JsonValue>,
                          render: JsonValue -> string)
    requires name != "" && Present(cfg.apiKey) && !IsBlank(prompt)
    ensures Edit(prompt, summary, Some(name), cfg, complete, parse, render).tried == [name]
  {
    var a := Edit(prompt, summary, Some(name), cfg, complete, parse, render);
    assert ModelCandidates(Some(name), ModelList(cfg.models)) == [name];
    PrefixOfSingleton(a.tried, name);
  }

  lemma ChatExplicitModel(name: string, messages: Option<JsonValue>, summary: Option<JsonValue>, cfg: Config,
                          complete: Request -> Result<Option<string>, Error>, render: JsonValue -> string)
    requires name != "" && Present(cfg.apiKey)
    ensures Chat(messages, summary, Some(name), cfg, complete, render).tried == [name]
  {
    var a := Chat(messages, summary, Some(name), cfg, complete, render);
    assert ModelCandidates(Some(name), ModelList(cfg.models)) == [name];
    PrefixOfSingleton(a.tried, name);
  }

  /** The chat guard never fires: even an empty history reaches the backend when a key is set. */
  lemma ChatGuardNeverFires(summary: Option<JsonValue>, model: Option<string>, cfg: Config,
                            complete: Request -> Result<Option<string>, Error>, render: JsonValue -> string)
    requires Present(cfg.apiKey)
    ensures Chat(Some(JArr([])), summary, model, cfg, complete, render).tried != []
  {
    assert |BuildChatMessages(Some(JArr([])), summary, render)| == 2;
  }
}

=== FILE: parity.dfy ===
/**
 * Where the two adapters agree and where they differ. They share the
 * prompt builder and the summary and chat normalisers; their model lists
 * coincide, while their explicit-model handling, rate-limit classifiers
 * and chat guards do not.
 */
module Parity {
  import opened Wrappers
  import opened Strings
  import opened Json
  import opened Errors
  import opened Fallback
  import opened Normalizer
  import OpenAi
  import Gemini
  import Seqs

  /** Normalising a name and then dropping it when empty is trimming it and dropping it when empty. */
  lemma NormalizeAllIsTrimAll(parts: seq<string>)
    ensures Gemini.NormalizeAllDropEmpty(parts) == OpenAi.TrimAllDropEmpty(parts)
  {
    forall k | 0 <= k < |parts|
      ensures Gemini.NormalizedName(parts[k]) == OpenAi.TrimmedName(parts[k])
    {
      Gemini.NormalizeModelIsTrim(Some(parts[k]));
    }
    Seqs.FilterMapAgree(Gemini.NormalizedName, OpenAi.TrimmedName, parts);
  }

  /** `GEMINI_MODELS` and `OPENAI_MODELS` are parsed alike: normalising a name is trimming it. */
  lemma ModelListsAgree(env: Option<string>)
    ensures Gemini.ModelList(env) == OpenAi.ModelList(env)
  {
    NormalizeAllIsTrimAll(Split(env.GetOr(""), ','));
  }

  /**
   * An explicit model is trimmed by the Gemini adapter and passed through
   * untouched by the OpenAI adapter, so a name with a leading space reaches
   * the two backends differently.
   */
  lemma ExplicitModelHandlingDiffers(name: string, configured: seq<string>)
    requires name != [] && IsSpace(name[0])
    ensures OpenAi.ModelCandidates(Some(name), configured) == [name]
    ensures Gemini.ModelCandidates(Some(name), configured) == [Trim(name)]
    ensures Trim(name) != name
  {
    TrimShape(name);
  }

  /**
   * The classifiers differ: a 429 carried only in `statusCode` is a rate
   * limit for OpenAI but not for Gemini, and "RESOURCE_EXHAUSTED" only for
   * Gemini; a 429 `status` is a rate limit for both.
   */
  lemma ClassifiersDiffer()
    ensures OpenAi.IsRateLimited(ApiError(None, Some(429), None, None, None))
    ensures !Gemini.IsRateLimited(ApiError(None, Some(429), None, None, None))
    ensures Gemini.IsRateLimited(ApiError(None, None, None, Some("RESOURCE_EXHAUSTED"), None))
    ensures !OpenAi.IsRateLimited(ApiError(None, None, None, Some("RESOURCE_EXHAUSTED"), None))
    ensures forall e: Error :: e.ApiError? && e.status == Some(429) ==> OpenAi.IsRateLimited(e) && Gemini.IsRateLimited(e)
  {
  }

  /**
   * With no usable message the Gemini chat rejects the call before any
   * backend request, while the OpenAI chat still calls its backend.
   */
  lemma ChatGuardsDiffer(summary: Option<JsonValue>, model: Option<string>,
                         ocfg: OpenAi.Config, gcfg: Gemini.Config,
                         complete: OpenAi.Request -> Result<Option<string>, Error>,
                         generate: Gemini.Request -> Result<Option<string>, Error>,
                         render: JsonValue -> string)
    requires Present(ocfg.apiKey)
    ensures Gemini.Chat(Some(JArr([])), summary, model, gcfg, generate, render)
         == Attempt([], Failure(InvalidInput("applyAssistantChat requires at least one message")))
    ensures OpenAi.Chat(Some(JArr([])), summary, model, ocfg, complete, render).tried != []
  {
    OpenAi.ChatGuardNeverFires(summary, model, ocfg, complete, render);
  }
}

=== FILE: pipeline.dfy ===
/**
 * `processMeetingAudio`, the queued job run on an "audio uploaded" event:
 * load the job, mark it processing, sign the file URL, transcribe,
 * summarise, write the result. Every failure inside the `try` runs the
 * mark-error step and is rethrown.
 */
module Pipeline {
  import opened Wrappers
  import opened Strings
  import opened Json
  import opened Errors
  import opened Normalizer
  import opened Jobs

  /** The event payload; `template` may be null and `bucket` absent. */
  datatype Event = Event(transcriptionId: Option<string>, fileKey: Option<string>,
                         template: Option<string>, bucket: Option<string>)

  /** The `step.run` steps, each with what it was given. */
  datatype Step =
    | LoadTranscription(id: string)
    | MarkProcessing(id: string)
    | SignFileUrl(key: string, bucket: Option<string>, expiresIn: int)
    | TranscribeAudio(url: string)
    | GenerateSummary(text: string, template: string)
    | UpdateDb(id: string)
    | MarkError(id: string)

  /** Position of each step in the fixed order; mark-error comes only after a failure. */
  function Rank(s: Step): nat {
    match s
    case LoadTranscription(_) => 0
    case MarkProcessing(_) => 1
    case SignFileUrl(_, _, _) => 2
    case TranscribeAudio(_) => 3
    case GenerateSummary(_, _) => 4
    case UpdateDb(_) => 5
    case MarkError(_) => 6
  }

  /** The store after a run, the steps run in order, and the returned id or the thrown error. */
  datatype Run = Run(store: Store, steps: seq<Step>, result: Result<string, Error>)

  /** Lifetime in seconds of the signed audio URL. */
  const SignedUrlLifetime: int := 3600

  /**
   * The `catch` block: `markTranscriptionError` sets status "error" and
   * swallows its own failure (an absent record stays absent), then the
   * original error is rethrown.
   */
  function Fail(store: Store, id: string, steps: seq<Step>, e: Error): (r: Run)
    ensures r.store == SetStatus(store, id, Errored)
    ensures r.steps == steps + [MarkError(id)] && r.result == Failure(e)
  {
    Run(SetStatus(store, id, Errored), steps + [MarkError(id)], Failure(e))
  }

  /** Steps 0..k-1 of the fixed order, in order. */
  ghost predicate InOrder(steps: seq<Step>, k: nat) {
    k <= |steps| && forall i :: 0 <= i < k ==> Rank(steps[i]) == i
  }

  /** The last two steps: generate-summary, then update-db or, on failure, mark-error. */
  function Summarizing(processing: Store, id: string, text: string, template: string,
                       prior: seq<Step>, svc: Services): (r: Run)
    ensures |r.steps| == |prior| + 2 && r.steps[..|prior|] == prior
    ensures r.steps[|prior|] == GenerateSummary(text, template)
    ensures r.result.Success? ==>
      && r.result == Success(id) && r.steps[|prior| + 1] == UpdateDb(id)
      && svc.summarize(text, template).Success?
      && r.store == WriteResult(processing, id, text, svc.summarize(text, template).value)
    ensures r.result.Failure? ==>
      && svc.summarize(text, template).Failure?
      && r.result == Failure(svc.summarize(text, template).error) && r.steps[|prior| + 1] == MarkError(id)
      && r.store == SetStatus(processing, id, Errored)
  {
    var summarizing := prior + [GenerateSummary(text, template)];
    match svc.summarize(text, template)
    case Failure(e) => Fail(processing, id, summarizing, e)
    case Success(summary) =>
      Run(WriteResult(processing, id, text, summary), summarizing + [UpdateDb(id)], Success(id))
  }

  /** Why a run stops after transcription: the service's error, or an empty transcript. */
  function TranscribeError(svc: Services, url: string): Error {
    if svc.transcribe(url).Failure? then svc.transcribe(url).error else EmptyTranscript
  }

  /**
   * From transcribe-audio on: the summary stage runs, with the transcript,
   * exactly when the transcript is non-empty; otherwise the job is marked
   * "error" and the service's error, or the empty-transcript error, is thrown.
   */
  function Transcribing(processing: Store, id: string, url: string, template: string,
                        prior: seq<Step>, svc: Services): (r: Run)
    ensures TranscriptText(svc, url) != "" ==>
      r == Summarizing(processing, id, TranscriptText(svc, url), template, prior + [TranscribeAudio(url)], svc)
    ensures TranscriptText(svc, url) == "" ==>
      r == Fail(processing, id, prior + [TranscribeAudio(url)], TranscribeError(svc, url))
  {
    var transcribing := prior + [TranscribeAudio(url)];
    match svc.transcribe(url)
    case Failure(e) => Fail(processing, id, transcribing, e)
    case Success(reply) =>
      var text := ExtractTranscript(reply);
      if text == "" then Fail(processing, id, transcribing, EmptyTranscript)
      else Summarizing(processing, id, text, template, transcribing, svc)
  }

  /** The first three steps of every run that found its job: load, mark-processing, sign. */
  function Signing(id: string, key: string, bucket: Option<string>): seq<Step> {
    [LoadTranscription(id), MarkProcessing(id), SignFileUrl(key, bucket, SignedUrlLifetime)]
  }

  /** From mark-processing on, once the job was found. */
  function AfterLoad(store: Store, id: string, key: string, bucket: Option<string>,
                      template: string, svc: Services): (r: Run)
    requires id in store
    ensures 4 <= |r.steps| <= 7 && r.steps[..3] == Signing(id, key, bucket)
    ensures |r.steps| == 4 <==> svc.sign(key, bucket, SignedUrlLifetime).Failure?
    ensures |r.steps| == 4 ==> r == Fail(SetStatus(store, id, Processing), id, Signing(id, key, bucket), svc.sign(key, bucket, SignedUrlLifetime).error)
    ensures |r.steps| > 4 ==> r == Transcribing(SetStatus(store, id, Processing), id, svc.sign(key, bucket, SignedUrlLifetime).value,
                                                template, Signing(id, key, bucket), svc)
  {
    var processing := SetStatus(store, id, Processing);
    var signing := Signing(id, key, bucket);
    match svc.sign(key, bucket, SignedUrlLifetime)
    case Failure(e) => Fail(processing, id, signing, e)
    case Success(url) => Transcribing(processing, id, url, template, signing, svc)
  }

  /** `processMeetingAudio`. */
  function ProcessMeetingAudio(store: Store, ev: Event, svc: Services): (r: Run)
    // The guard sits outside the `try`: nothing runs and nothing is written.
    ensures !Present(ev.transcriptionId) || !Present(ev.fileKey) ==>
      r == Run(store, [], Failure(InvalidInput("Missing transcriptionId or fileKey")))
    // A job that is not found is marked (a swallowed no-op) and the error rethrown.
    ensures Present(ev.transcriptionId) && Present(ev.fileKey) && ev.transcriptionId.value !in store ==>
      var id := ev.transcriptionId.value;
      r == Run(store, [LoadTranscription(id), MarkError(id)], Failure(NotFound(id)))
    ensures Present(ev.transcriptionId) && Present(ev.fileKey) && ev.transcriptionId.value in store ==>
      var id := ev.transcriptionId.value;
      r == AfterLoad(store, id, ev.fileKey.value, ev.bucket, EffectiveTemplate(ev.template, store[id].template), svc)
  {
    if !Present(ev.transcriptionId) || !Present(ev.fileKey) then
      Run(store, [], Failure(InvalidInput("Missing transcriptionId or fileKey")))
    else
      var id := ev.transcriptionId.value;
      if id !in store then Fail(store, id, [LoadTranscription(id)], NotFound(id))
      else AfterLoad(store, id, ev.fileKey.value, ev.bucket, EffectiveTemplate(ev.template, store[id].template), svc)
  }

  /**
   * Steps run in the fixed order load, mark-processing, sign, transcribe,
   * summarise, update-db; a failing step stops the run, which then ends
   * with mark-error.
   */
  lemma StepOrder(store: Store, ev: Event, svc: Services)
    requires Present(ev.transcriptionId) && Present(ev.fileKey)
    ensures var r := ProcessMeetingAudio(store, ev, svc);
      && 2 <= |r.steps| <= 7 && r.steps[0] == LoadTranscription(ev.transcriptionId.value)
      && (r.result.Success? ==> |r.steps| == 6 && InOrder(r.steps, 6))
      && (r.result.Failure? ==> r.steps[|r.steps| - 1] == MarkError(ev.transcriptionId.value) && InOrder(r.steps, |r.steps| - 1))
  {
    var id := ev.transcriptionId.value;
    if id in store {
      AfterLoadOrder(store, id, ev.fileKey.value, ev.bucket, EffectiveTemplate(ev.template, store[id].template), svc);
    }
  }

  lemma AfterLoadOrder(store: Store, id: string, key: string, bucket: Option<string>, template: string, svc: Services)
    requires id in store
    ensures var r := AfterLoad(store, id, key, bucket, template, svc);
      && (r.result.Success? ==> |r.steps| == 6 && InOrder(r.steps, 6))
      && (r.result.Failure? ==> r.steps[|r.steps| - 1] == MarkError(id) && InOrder(r.steps, |r.steps| - 1))
  {
    var r := AfterLoad(store, id, key, bucket, template, svc);
    var signing := [LoadTranscription(id), MarkProcessing(id), SignFileUrl(key, bucket, SignedUrlLifetime)];
    if svc.sign(key, bucket, SignedUrlLifetime).Success? {
      var url := svc.sign(key, bucket, SignedUrlLifetime).value;
      TranscribingOrder(SetStatus(store, id, Processing), id, key, bucket, url, template, svc);
    } else {
      assert r.steps == FullTrace(id, key, bucket, "", "", template)[..3] + [MarkError(id)];
      StagesInOrder(id, key, bucket, "", "", template, 3);
    }
  }

  lemma TranscribingOrder(processing: Store, id: string, key: string, bucket: Option<string>, url: string,
                          template: string, svc: Services)
    ensures var r := Transcribing(processing, id, url, template, Signing(id, key, bucket), svc);
      && (r.result.Success? ==> |r.steps| == 6 && InOrder(r.steps, 6))
      && (r.result.Failure? ==> r.steps[|r.steps| - 1] == MarkError(id) && InOrder(r.steps, |r.steps| - 1))
  {
    var text := TranscriptText(svc, url);
    var full := FullTrace(id, key, bucket, url, text, template);
    var r := Transcribing(processing, id, url, template, Signing(id, key, bucket), svc);
    assert Signing(id, key, bucket) + [TranscribeAudio(url)] == full[..4];
    if text != "" {
      assert r == Summarizing(processing, id, text, template, full[..4], svc);
      SummaryStageOrder(processing, id, key, bucket, url, text, template, svc);
    } else {
      assert r == Fail(processing, id, full[..4], TranscribeError(svc, url));
      StoppedAfterTranscription(processing, id, key, bucket, url, template, TranscribeError(svc, url));
    }
  }

  /** The summary stage completes the six steps in order, or ends its first five with mark-error. */
  lemma SummaryStageOrder(processing: Store, id: string, key: string, bucket: Option<string>, url: string,
                          text: string, template: string, svc: Services)
    ensures var r := Summarizing(processing, id, text, template, FullTrace(id, key, bucket, url, text, template)[..4], svc);
      && (r.result.Success? ==> |r.steps| == 6 && InOrder(r.steps, 6))
      && (r.result.Failure? ==> r.steps[|r.steps| - 1] == MarkError(id) && InOrder(r.steps, |r.steps| - 1))
  {
    var full := FullTrace(id, key, bucket, url, text, template);
    var r := Summarizing(processing, id, text, template, full[..4], svc);
    assert full[..4] + [GenerateSummary(text, template)] == full[..5];
    assert r.steps == full[..5] + [r.steps[5]];
    StagesInOrder(id, key, bucket, url, text, template, 5);
    if r.result.Success? {
      assert r.steps == full;
    }
  }

  /** A run stopped after transcription has run four steps in order, then mark-error. */
  lemma StoppedAfterTranscription(processing: Store, id: string, key: string, bucket: Option<string>, url: string,
                                  template: string, e: Error)
    ensures var r := Fail(processing, id, FullTrace(id, key, bucket, url, "", template)[..4], e);
      r.steps[|r.steps| - 1] == MarkError(id) && InOrder(r.steps, |r.steps| - 1)
  {
    StagesInOrder(id, key, bucket, url, "", template, 4);
  }

  /** The six steps of a successful run, in order. */
  function FullTrace(id: string, key: string, bucket: Option<string>, url: string, text: string, template: string): seq<Step> {
    [LoadTranscription(id), MarkProcessing(id), SignFileUrl(key, bucket, SignedUrlLifetime),
     TranscribeAudio(url), GenerateSummary(text, template), UpdateDb(id)]
  }

  /** The ranks of the six steps are 0 to 5, in that order, and mark-error may follow any prefix. */
  lemma StagesInOrder(id: string, key: string, bucket: Option<string>, url: string, text: string,
                      template: string, k: nat)
    requires k <= 6
    ensures InOrder(FullTrace(id, key, bucket, url, text, template), 6)
    ensures InOrder(FullTrace(id, key, bucket, url, text, template)[..k] + [MarkError(id)], k)
  {
  }

  /** The URL is signed for the event's key and bucket, for an hour; the summariser gets a non-empty trimmed transcript and the effective template. */
  lemma ServiceArguments(store: Store, ev: Event, svc: Services)
    requires Present(ev.transcriptionId) && Present(ev.fileKey)
    ensures var r := ProcessMeetingAudio(store, ev, svc);
      && (|r.steps| > 2 ==> r.steps[2] == SignFileUrl(ev.fileKey.value, ev.bucket, SignedUrlLifetime))
      && (|r.steps| > 4 && r.steps[4].GenerateSummary? ==>
            var id := ev.transcriptionId.value;
            && id in store && r.steps[4].text != "" && IsTrimmed(r.steps[4].text)
            && r.steps[4].template == EffectiveTemplate(ev.template, store[id].template))
  {
    var r := ProcessMeetingAudio(store, ev, svc);
    var id := ev.transcriptionId.value;
    var key := ev.fileKey.value;
    if id in store {
      var template := EffectiveTemplate(ev.template, store[id].template);
      assert r == AfterLoad(store, id, key, ev.bucket, template, svc);
      assert r.steps[..3][2] == r.steps[2];
      if svc.sign(key, ev.bucket, SignedUrlLifetime).Success? {
        var url := svc.sign(key, ev.bucket, SignedUrlLifetime).value;
        var transcribing := r.steps[..3] + [TranscribeAudio(url)];
        if TranscriptText(svc, url) != "" {
          assert r.steps[4] == GenerateSummary(TranscriptText(svc, url), template);
        } else {
          assert r.steps == transcribing + [MarkError(id)];
        }
      }
    }
  }

  /**
   * A failure after the guard leaves the job at "error", nothing else
   * changed; a success returns the id and writes transcript, summary and
   * "done".
   */
  lemma Outcome(store: Store, ev: Event, svc: Services)
    requires Present(ev.transcriptionId) && Present(ev.fileKey)
    ensures var r := ProcessMeetingAudio(store, ev, svc);
      var id := ev.transcriptionId.value;
      && (r.result.Failure? ==> r.store == SetStatus(store, id, Errored))
      && (r.result.Success? ==>
            && r.result.value == id && id in store && |r.steps| == 6 && r.steps[4].GenerateSummary?
            && svc.summarize(r.steps[4].text, r.steps[4].template).Success?
            && r.store == WriteResult(store, id, r.steps[4].text, svc.summarize(r.steps[4].text, r.steps[4].template).value))
  {
    var id := ev.transcriptionId.value;
    if id in store {
      AfterLoadOutcome(store, id, ev.fileKey.value, ev.bucket, EffectiveTemplate(ev.template, store[id].template), svc);
    }
  }

  /** `Outcome` from mark-processing on. */
  lemma AfterLoadOutcome(store: Store, id: string, key: string, bucket: Option<string>, template: string, svc: Services)
    requires id in store
    ensures var r := AfterLoad(store, id, key, bucket, template, svc);
      && (r.result.Failure? ==> r.store == SetStatus(store, id, Errored))
      && (r.result.Success? ==>
            && r.result.value == id && |r.steps| == 6 && r.steps[4].GenerateSummary?
            && svc.summarize(r.steps[4].text, r.steps[4].template).Success?
            && r.store == WriteResult(store, id, r.steps[4].text, svc.summarize(r.steps[4].text, r.steps[4].template).value))
  {
    var r := AfterLoad(store, id, key, bucket, template, svc);
    SetStatusLastWins(store, id, Processing, Errored);
    if r.result.Success? {
      var url := svc.sign(key, bucket, SignedUrlLifetime).value;
      var text := TranscriptText(svc, url);
      WriteResultAfterStatus(store, id, Processing, text, svc.summarize(text, template).value);
    }
  }

  /** The error thrown by a failing service is the error the run rethrows. */
  lemma SigningFailureRethrown(store: Store, ev: Event, svc: Services)
    requires Present(ev.transcriptionId) && Present(ev.fileKey) && ev.transcriptionId.value in store
    requires svc.sign(ev.fileKey.value, ev.bucket, SignedUrlLifetime).Failure?
    ensures ProcessMeetingAudio(store, ev, svc).result == svc.sign(ev.fileKey.value, ev.bucket, SignedUrlLifetime)
    ensures |ProcessMeetingAudio(store, ev, svc).steps| == 4
  {
  }

  /** An empty transcript throws before the summariser is called, and the job is marked "error". */
  lemma EmptyTranscriptStopsBeforeSummary(store: Store, ev: Event, svc: Services)
    requires Present(ev.transcriptionId) && Present(ev.fileKey) && ev.transcriptionId.value in store
    requires svc.sign(ev.fileKey.value, ev.bucket, SignedUrlLifetime).Success?
    requires svc.transcribe(svc.sign(ev.fileKey.value, ev.bucket, SignedUrlLifetime).value).Success?
    requires ExtractTranscript(svc.transcribe(svc.sign(ev.fileKey.value, ev.bucket, SignedUrlLifetime).value).value) == ""
    ensures var r := ProcessMeetingAudio(store, ev, svc);
      && r.result == Failure(EmptyTranscript)
      && (forall i :: 0 <= i < |r.steps| ==> !r.steps[i].GenerateSummary?)
      && r.store[ev.transcriptionId.value].status == Errored
  {
    var id, key := ev.transcriptionId.value, ev.fileKey.value;
    var url := svc.sign(key, ev.bucket, SignedUrlLifetime).value;
    var template := EffectiveTemplate(ev.template, store[id].template);
    var r := ProcessMeetingAudio(store, ev, svc);
    assert r == Transcribing(SetStatus(store, id, Processing), id, url, template, Signing(id, key, ev.bucket), svc);
    EmptyTranscriptSteps(SetStatus(store, id, Processing), id, key, ev.bucket, url, template, svc);
  }

  /** From transcription on: an empty transcript marks "error" and runs no summary step. */
  lemma EmptyTranscriptSteps(processing: Store, id: string, key: string, bucket: Option<string>, url: string,
                             template: string, svc: Services)
    requires svc.transcribe(url).Success? && ExtractTranscript(svc.transcribe(url).value) == ""
    ensures var r := Transcribing(processing, id, url, template, Signing(id, key, bucket), svc);
      && r.result == Failure(EmptyTranscript)
      && r.steps == [LoadTranscription(id), MarkProcessing(id), SignFileUrl(key, bucket, SignedUrlLifetime),
                     TranscribeAudio(url), MarkError(id)]
      && r.store == SetStatus(processing, id, Errored)
  {
    assert TranscriptText(svc, url) == "" && TranscribeError(svc, url) == EmptyTranscript;
  }

  /** No run ends with a job left at "processing": after a run it is "done", "error" or untouched. */
  lemma NeverLeftProcessing(store: Store, ev: Event, svc: Services)
    requires Present(ev.transcriptionId) && Present(ev.fileKey) && ev.transcriptionId.value in store
    ensures var r := ProcessMeetingAudio(store, ev, svc);
      r.store[ev.transcriptionId.value].status == (if r.result.Success? then Done else Errored)
  {
  }

  /**
   * Re-running a successful job with the same event and the same service
   * answers writes the same values again: the store does not change. The
   * stored template is never written, so the effective template is the same.
   */
  lemma RerunAfterSuccess(store: Store, ev: Event, svc: Services)
    requires ProcessMeetingAudio(store, ev, svc).result.Success?
    ensures var r := ProcessMeetingAudio(store, ev, svc);
      ProcessMeetingAudio(r.store, ev, svc) == r
  {
    var r := ProcessMeetingAudio(store, ev, svc);
    var id := ev.transcriptionId.value;
    var key := ev.fileKey.value;
    var template := EffectiveTemplate(ev.template, store[id].template);
    AfterLoadOutcome(store, id, key, ev.bucket, template, svc);
    var text := r.steps[4].text;
    var summary := svc.summarize(text, template).value;
    assert r.store[id].template == store[id].template;
    AfterLoadTrace(store, r.store, id, key, ev.bucket, template, svc);
    AfterLoadOutcome(r.store, id, key, ev.bucket, template, svc);
    WriteResultTwice(store, id, text, summary);
  }

  /** The steps and the result of a run do not depend on the rest of the store. */
  lemma AfterLoadTrace(s1: Store, s2: Store, id: string, key: string, bucket: Option<string>, template: string, svc: Services)
    requires id in s1 && id in s2
    ensures AfterLoad(s1, id, key, bucket, template, svc).steps == AfterLoad(s2, id, key, bucket, template, svc).steps
    ensures AfterLoad(s1, id, key, bucket, template, svc).result == AfterLoad(s2, id, key, bucket, template, svc).result
  {
  }
}

=== FILE: process_route.dfy ===
/**
 * `POST /api/transcriptions/process`, the synchronous variant of the job
 * pipeline. Unlike the pipeline it catches nothing: a failure of signing,
 * transcription or summarisation propagates and leaves the job at
 * "processing".
 */
module ProcessRoute {
  import opened Wrappers
  import opened Strings
  import opened Json
  import opened Errors
  import opened Normalizer
  import opened Jobs

  /** The authenticated session's user, as the email lookup sees it. */
  datatype Request = Request(email: Option<string>, body: Option<JsonValue>)

  /** What the route can see of the world: users by lower-cased email, the job store, and the two bucket variables. */
  datatype World = World(users: map<string, string>, store: Store,
                         bucketName: Option<string>, bucket: Option<string>)

  /** The service calls the route made, in order. */
  datatype Call =
    | Sign(key: string, bucket: Option<string>, expiresIn: int)
    | Transcribe(url: string)
    | Summarize(text: string, template: string)

  datatype Reply =
    | ErrorReply(status: int, message: string)
    | Processed(transcriptionId: string, transcript: string, summary: Summary)

  /** The store afterwards, the calls made, and the reply sent or the error thrown. */
  datatype Outcome = Outcome(store: Store, calls: seq<Call>, result: Result<Reply, Error>)

  /** `getSignedFileUrl`'s default lifetime in seconds, which this route does not override. */
  const DefaultUrlLifetime: int := 900

  /** The bucket name variable when truthy, otherwise the bucket variable. */
  function BucketFromEnv(w: World): Option<string> {
    if Present(w.bucketName) then w.bucketName else w.bucket
  }

  /** The session's e-mail, lower-cased, looked up among the users: the user id, if any. */
  function SessionUser(email: Option<string>, users: map<string, string>): (u: Option<string>)
    ensures u.Some? ==> Present(email) && Lower(email.value) in users && u.value == users[Lower(email.value)]
    ensures u.None? ==> !Present(email) || Lower(email.value) !in users
  {
    if !Present(email) || Lower(email.value) !in users then None else Some(users[Lower(email.value)])
  }

  /** A string field of the body, else the empty string. */
  function StringField(body: Option<JsonValue>, key: string): string {
    if body.Some? && Get(body.value, key).Some? && Get(body.value, key).value.JStr? then Get(body.value, key).value.s else ""
  }

  /** The body's template field when it is a string. */
  function TemplateOverride(body: Option<JsonValue>): Option<string> {
    if body.Some? && Get(body.value, "template").Some? && Get(body.value, "template").value.JStr?
    then Some(Get(body.value, "template").value.s) else None
  }

  /** Summarising a non-empty transcript, then the final write. */
  function Summarizing(store: Store, id: string, text: string, template: string,
                       prior: seq<Call>, svc: Services): (o: Outcome)
    ensures o.calls == prior + [Summarize(text, template)]
    ensures o.result.Failure? <==> svc.summarize(text, template).Failure?
    ensures o.result.Failure? ==> o.store == SetStatus(store, id, Processing)
    ensures o.result.Success? ==>
      && o.result == Success(Processed(id, text, svc.summarize(text, template).value))
      && o.store == WriteResult(store, id, text, svc.summarize(text, template).value)
  {
    match svc.summarize(text, template)
    case Failure(e) => Outcome(SetStatus(store, id, Processing), prior + [Summarize(text, template)], Failure(e))
    case Success(summary) =>
      Outcome(WriteResult(SetStatus(store, id, Processing), id, text, summary), prior + [Summarize(text, template)],
              Success(Processed(id, text, summary)))
  }

  /** The answer to a transcription that came back empty. */
  const EmptyTranscriptReply: Reply := ErrorReply(502, "Transcription returned empty text")

  /**
   * Transcribing the signed URL. A failing call leaves the job at
   * "processing" and propagates; an empty transcript is answered with 502,
   * marks the job "error" and calls no summariser; otherwise the
   * transcript is summarised.
   */
  function Transcribing(store: Store, id: string, url: string, template: string,
                        prior: seq<Call>, svc: Services): (o: Outcome)
    ensures svc.transcribe(url).Failure? ==>
      o == Outcome(SetStatus(store, id, Processing), prior + [Transcribe(url)], Failure(svc.transcribe(url).error))
    ensures svc.transcribe(url).Success? && TranscriptText(svc, url) == "" ==>
      o == Outcome(SetStatus(store, id, Errored), prior + [Transcribe(url)], Success(EmptyTranscriptReply))
    ensures TranscriptText(svc, url) != "" ==>
      o == Summarizing(store, id, TranscriptText(svc, url), template, prior + [Transcribe(url)], svc)
  {
    var transcribing := prior + [Transcribe(url)];
    match svc.transcribe(url)
    case Failure(e) => Outcome(SetStatus(store, id, Processing), transcribing, Failure(e))
    case Success(reply) =>
      var text := ExtractTranscript(reply);
      if text == "" then
        SetStatusLastWins(store, id, Processing, Errored);
        Outcome(SetStatus(SetStatus(store, id, Processing), id, Errored), transcribing, Success(EmptyTranscriptReply))
      else Summarizing(store, id, text, template, transcribing, svc)
  }

  /** The part after the status is set to "processing": sign, transcribe, summarise, write. */
  function AfterChecks(w: World, id: string, key: string, template: string, svc: Services): (o: Outcome)
    ensures o.calls != [] && o.calls[0] == Sign(key, BucketFromEnv(w), DefaultUrlLifetime)
    ensures o.result.Failure? ==> o.store == SetStatus(w.store, id, Processing)
    ensures o.result.Success? ==> o.result.value.Processed? || o.result.value == EmptyTranscriptReply
    ensures svc.sign(key, BucketFromEnv(w), DefaultUrlLifetime).Failure? ==>
      o == Outcome(SetStatus(w.store, id, Processing), [Sign(key, BucketFromEnv(w), DefaultUrlLifetime)],
                   Failure(svc.sign(key, BucketFromEnv(w), DefaultUrlLifetime).error))
    ensures svc.sign(key, BucketFromEnv(w), DefaultUrlLifetime).Success? ==>
      o == Transcribing(w.store, id, svc.sign(key, BucketFromEnv(w), DefaultUrlLifetime).value, template,
                        [Sign(key, BucketFromEnv(w), DefaultUrlLifetime)], svc)
  {
    var bucket := BucketFromEnv(w);
    var signing := [Sign(key, bucket, DefaultUrlLifetime)];
    match svc.sign(key, bucket, DefaultUrlLifetime)
    case Failure(e) => Outcome(SetStatus(w.store, id, Processing), signing, Failure(e))
    case Success(url) => Transcribing(w.store, id, url, template, signing, svc)
  }

  /**
   * After the checks pass: an empty transcript gives 502 with status
   * "error" and no summariser call; a success writes the transcript, the
   * summary and "done", having summarised with the given template.
   */
  lemma ProcessingOutcomes(w: World, id: string, key: string, template: string, svc: Services)
    ensures var o := AfterChecks(w, id, key, template, svc);
      && (o.result == Success(EmptyTranscriptReply) ==>
            o.store == SetStatus(w.store, id, Errored) && (forall i :: 0 <= i < |o.calls| ==> !o.calls[i].Summarize?))
      && (o.result.Success? && o.result.value.Processed? ==>
            && |o.calls| == 3 && o.calls[2] == Summarize(o.result.value.transcript, template)
            && o.result.value.transcript != "" && IsTrimmed(o.result.value.transcript)
            && svc.summarize(o.result.value.transcript, template) == Success(o.result.value.summary)
            && o.result.value.transcriptionId == id
            && o.store == WriteResult(w.store, id, o.result.value.transcript, o.result.value.summary))
  {
    if svc.sign(key, BucketFromEnv(w), DefaultUrlLifetime).Success? {
      var url := svc.sign(key, BucketFromEnv(w), DefaultUrlLifetime).value;
      TranscriptionOutcomes(w.store, id, [Sign(key, BucketFromEnv(w), DefaultUrlLifetime)], url, template, svc);
    }
  }

  /** `ProcessingOutcomes` from the transcription call on, after one earlier call. */
  lemma TranscriptionOutcomes(store: Store, id: string, prior: seq<Call>, url: string, template: string, svc: Services)
    requires |prior| == 1 && !prior[0].Summarize?
    ensures var o := Transcribing(store, id, url, template, prior, svc);
      && (o.result == Success(EmptyTranscriptReply) ==>
            o.store == SetStatus(store, id, Errored) && (forall i :: 0 <= i < |o.calls| ==> !o.calls[i].Summarize?))
      && (o.result.Success? && o.result.value.Processed? ==>
            && |o.calls| == 3 && o.calls[2] == Summarize(o.result.value.transcript, template)
            && o.result.value.transcript != "" && IsTrimmed(o.result.value.transcript)
            && svc.summarize(o.result.value.transcript, template) == Success(o.result.value.summary)
            && o.result.value.transcriptionId == id
            && o.store == WriteResult(store, id, o.result.value.transcript, o.result.value.summary))
  {
    var o := Transcribing(store, id, url, template, prior, svc);
    var text := TranscriptText(svc, url);
    if text != "" {
      assert o.calls == prior + [Transcribe(url), Summarize(text, template)];
      assert o.result.Failure? || o.result.value.Processed?;
    } else if svc.transcribe(url).Success? {
      assert o.calls == prior + [Transcribe(url)] && !o.calls[1].Summarize?;
    }
  }

  /** `POST`. */
  function Post(req: Request, w: World, svc: Services): (o: Outcome)
    // 401, 400 and 404 answers write nothing and call no service.
    ensures o.result.Success? && o.result.value.ErrorReply? && o.result.value.status != 502 ==>
      o.store == w.store && o.calls == []
    ensures SessionUser(req.email, w.users).None? ==> o == Outcome(w.store, [], Success(ErrorReply(401, "Unauthorized")))
    ensures SessionUser(req.email, w.users).Some? && StringField(req.body, "transcriptionId") == "" ==>
      o == Outcome(w.store, [], Success(ErrorReply(400, "transcriptionId is required")))
    ensures o.result == Success(ErrorReply(404, "Not found")) <==>
      && SessionUser(req.email, w.users).Some? && StringField(req.body, "transcriptionId") != ""
      && (StringField(req.body, "transcriptionId") !in w.store
          || w.store[StringField(req.body, "transcriptionId")].userId != SessionUser(req.email, w.users).value)
    // The caller's own job: a missing file key is 400, otherwise the processing runs.
    ensures SessionUser(req.email, w.users).Some? && StringField(req.body, "transcriptionId") != ""
            && StringField(req.body, "transcriptionId") in w.store
            && w.store[StringField(req.body, "transcriptionId")].userId == SessionUser(req.email, w.users).value ==>
      var job := w.store[StringField(req.body, "transcriptionId")];
      && (!Present(job.fileUrl) ==> o == Outcome(w.store, [], Success(ErrorReply(400, "Missing file key"))))
      && (Present(job.fileUrl) ==>
            o == AfterChecks(w, StringField(req.body, "transcriptionId"), job.fileUrl.value,
                             EffectiveTemplate(TemplateOverride(req.body), job.template), svc))
    // Anything past the checks is about the caller's own job with a file key.
    ensures o.calls != [] ==>
      var id := StringField(req.body, "transcriptionId");
      && SessionUser(req.email, w.users).Some? && id in w.store
      && w.store[id].userId == SessionUser(req.email, w.users).value && Present(w.store[id].fileUrl)
      && o == AfterChecks(w, id, w.store[id].fileUrl.value,
                         EffectiveTemplate(TemplateOverride(req.body), w.store[id].template), svc)
  {
    var user := SessionUser(req.email, w.users);
    if user.None? then Outcome(w.store, [], Success(ErrorReply(401, "Unauthorized")))
    else
      var id := StringField(req.body, "transcriptionId");
      if id == "" then Outcome(w.store, [], Success(ErrorReply(400, "transcriptionId is required")))
      else if id !in w.store || w.store[id].userId != user.value then
        Outcome(w.store, [], Success(ErrorReply(404, "Not found")))
      else if !Present(w.store[id].fileUrl) then
        Outcome(w.store, [], Success(ErrorReply(400, "Missing file key")))
      else
        var job := w.store[id];
        AfterChecks(w, id, job.fileUrl.value, EffectiveTemplate(TemplateOverride(req.body), job.template), svc)
  }

  /**
   * A service failure propagates as a thrown error, and the job is left at
   * "processing" with nothing else changed; this is where the route and
   * the queued pipeline differ.
   */
  lemma FailureLeavesProcessing(req: Request, w: World, svc: Services)
    requires Post(req, w, svc).result.Failure?
    ensures var id := StringField(req.body, "transcriptionId");
      id in w.store && Post(req, w, svc).store == SetStatus(w.store, id, Processing)
      && Post(req, w, svc).store[id].status == Processing
  {
  }
}

=== FILE: prompt_builder.dfy ===
/**
 * The summarisation prompt: a fixed sequence of sections around the selected
 * template's context, followed by the transcript. Section bodies are
 * abbreviated to their heading lines.
 */
module PromptBuilder {
  import opened Wrappers
  import opened Strings

  /** The keys of `templates`, in declaration order. */
  const TemplateKeys: seq<string> := ["default", "brainstorm", "interview", "lecture", "voice-memo"]

  const DefaultContext: string := "\nTEMPLATE CONTEXT — MEETING (DEFAULT)\n"
  const BrainstormContext: string := "\nTEMPLATE CONTEXT — BRAINSTORM SESSION\n"
  const InterviewContext: string := "\nTEMPLATE CONTEXT — INTERVIEW NOTES\n"
  const LectureContext: string := "\nTEMPLATE CONTEXT — LECTURE NOTES\n"
  const VoiceMemoContext: string := "\nTEMPLATE CONTEXT — VOICE MEMO\n"

  /** `templates`: template name to its context section. */
  const Templates: map<string, string> := map[
    "default" := DefaultContext,
    "brainstorm" := BrainstormContext,
    "interview" := InterviewContext,
    "lecture" := LectureContext,
    "voice-memo" := VoiceMemoContext
  ]

  const RoleText: string := "You are an expert Meeting Secretary."
  const CoreRules: string := "\nOBJECTIVE\n"
  const JsonSchema: string := "\nREQUIRED JSON OUTPUT\n"
  const ValidationRules: string := "\nPOST-VALIDATION CHECKLIST (MANDATORY)\n"
  const TwoPassRules: string := "\nTWO-PASS GENERATION PROCESS (MANDATORY)\n"

  /** `normalizeTemplate`: a known template name is kept, anything else (including a non-string, `None`) becomes "default". */
  function NormalizeTemplate(template: Option<string>): (r: string)
    ensures r in Templates && r in TemplateKeys
    ensures template.Some? && template.value in Templates ==> r == template.value
    ensures !(template.Some? && template.value in Templates) ==> r == "default"
  {
    if template.Some? && template.value in TemplateKeys then template.value else "default"
  }

  /** `normalizeTemplate` is idempotent. */
  lemma NormalizeTemplateIdempotent(template: Option<string>)
    ensures NormalizeTemplate(Some(NormalizeTemplate(template))) == NormalizeTemplate(template)
  {
  }

  /** `getTemplateContext`: the template's text, or the default's when the name is unknown or its text is empty. */
  function TemplateContext(template: string): string {
    if template in Templates && Templates[template] != "" then Templates[template] else Templates["default"]
  }

  /** After normalisation the template's own text is used; the fallback to the default text is never taken for another name. */
  lemma TemplateContextOfNormalized(template: Option<string>)
    ensures TemplateContext(NormalizeTemplate(template)) == Templates[NormalizeTemplate(template)]
  {
  }

  /**
   * The prompt template literal between its two leading newlines (the
   * literal's own and the role section's) and the transcript: the role, the
   * template context, the core rules, the JSON schema, the validation
   * checklist, the two-pass rules and the "Transcript:" heading.
   */
  function Body(context: string): string {
    RoleText + "\n" + "\n\n" + context + "\n\n" + CoreRules + "\n\n" + JsonSchema + "\n\n"
    + ValidationRules + "\n\n" + TwoPassRules + "\n\nTranscript:\n"
  }

  /** The summarisation prompt; `None` is an omitted template argument, which defaults to "default". */
  function BuildPrompt(transcript: string, template: Option<string>): string {
    var safeTemplate := NormalizeTemplate(Some(template.GetOr("default")));
    Trim("\n" + "\n" + Body(TemplateContext(safeTemplate)) + transcript + "\n")
  }

  /** The prompt depends on the template only through its normalised name. */
  lemma BuildPromptNormalizes(transcript: string, template: Option<string>)
    ensures BuildPrompt(transcript, template) == BuildPrompt(transcript, Some(NormalizeTemplate(template)))
  {
  }

  /** Any unknown template name gives the same prompt as "default". */
  lemma UnknownTemplateIsDefault(transcript: string, template: string)
    requires template !in Templates
    ensures BuildPrompt(transcript, Some(template)) == BuildPrompt(transcript, Some("default"))
  {
  }

  /** Omitting the template argument gives the same prompt as passing "default". */
  lemma OmittedTemplateIsDefault(transcript: string)
    ensures BuildPrompt(transcript, None) == BuildPrompt(transcript, Some("default"))
  {
  }

  /** Trimming "\n\n" + body + transcript + "\n" removes only the two leading newlines and the transcript's trailing white space. */
  lemma TrimAround(body: string, transcript: string)
    requires body != [] && !IsSpace(body[0])
    requires !IsBlank(transcript)
    ensures Trim("\n" + "\n" + body + transcript + "\n") == body + TrimEnd(transcript)
  {
    var x := body + transcript;
    assert "\n" + "\n" + body + transcript + "\n" == "\n" + "\n" + body + (transcript + "\n");
    assert body + (transcript + "\n") == x + "\n";
    TrimLeadingNewlines(body, transcript + "\n");
    TrimEndNewline(x);
    TrimEndPrepend(body, transcript);
  }

  /** Two leading newlines before a non-space character are all `trimStart` removes. */
  lemma TrimLeadingNewlines(body: string, rest: string)
    requires body != [] && !IsSpace(body[0])
    ensures TrimStart("\n" + "\n" + body + rest) == body + rest
  {
    var t := body + rest;
    var s1 := "\n" + t;
    var s2 := "\n" + s1;
    assert s2 == "\n" + "\n" + body + rest;
    assert s1[1..] == t && s2[1..] == s1;
    assert t[0] == body[0];
    TrimStartIdem(t);
    assert TrimStart(s1) == t;
  }

  /** With a blank transcript the trim also removes the newline after the "Transcript:" heading. */
  lemma TrimAroundBlank(body: string, transcript: string)
    requires |body| >= 2 && !IsSpace(body[0]) && body[|body| - 1] == '\n' && !IsSpace(body[|body| - 2])
    requires IsBlank(transcript)
    ensures Trim("\n" + "\n" + body + transcript + "\n") == body[..|body| - 1]
  {
    var pre := body[..|body| - 1];
    var tail := "\n" + transcript + "\n";
    assert IsBlank(tail);
    assert "\n" + "\n" + body + transcript + "\n" == "\n" + "\n" + body + (transcript + "\n");
    assert body + (transcript + "\n") == pre + tail;
    TrimLeadingNewlines(body, transcript + "\n");
    TrimEndOfBlankSuffix(pre, tail);
  }

  lemma {:induction false} TrimEndOfBlankSuffix(a: string, b: string)
    requires IsBlank(b)
    requires a != [] && !IsSpace(a[|a| - 1])
    ensures TrimEnd(a + b) == a
    decreases |b|
  {
    if b == [] {
      assert a + b == a;
    } else {
      assert (a + b)[..|a + b| - 1] == a + b[..|b| - 1];
      TrimEndOfBlankSuffix(a, b[..|b| - 1]);
    }
  }

  /** The body opens with the role and closes with the "Transcript:" heading and a newline, whatever the context. */
  lemma BodyEnds(context: string)
    ensures |Body(context)| >= 2
    ensures Body(context)[0] == 'Y'
    ensures Body(context)[|Body(context)| - 2] == ':' && Body(context)[|Body(context)| - 1] == '\n'
  {
    var tail := "\n\nTranscript:\n";
    var head := RoleText + "\n" + "\n\n" + context + "\n\n" + CoreRules + "\n\n" + JsonSchema + "\n\n"
      + ValidationRules + "\n\n" + TwoPassRules;
    assert Body(context) == RoleText + (Body(context)[|RoleText|..]);
    assert Body(context) == head + tail;
  }

  /** The prompt is the trimmed template literal around the selected template's own context. */
  lemma BuildPromptUnfold(transcript: string, template: Option<string>)
    ensures BuildPrompt(transcript, template)
      == Trim("\n" + "\n" + Body(Templates[NormalizeTemplate(Some(template.GetOr("default")))]) + transcript + "\n")
  {
    TemplateContextOfNormalized(Some(template.GetOr("default")));
  }

  /**
   * Layout of the prompt for a transcript with some non-blank text: the role
   * opens the prompt, the selected template's context and the fixed sections
   * follow in order, and the transcript, stripped only of trailing white
   * space, closes it.
   */
  lemma PromptLayout(transcript: string, template: Option<string>)
    requires !IsBlank(transcript)
    ensures BuildPrompt(transcript, template)
      == Body(Templates[NormalizeTemplate(Some(template.GetOr("default")))]) + TrimEnd(transcript)
  {
    BuildPromptUnfold(transcript, template);
    LayoutAround(Templates[NormalizeTemplate(Some(template.GetOr("default")))], transcript);
  }

  /** `PromptLayout` for any context. */
  lemma LayoutAround(context: string, transcript: string)
    requires !IsBlank(transcript)
    ensures Trim("\n" + "\n" + Body(context) + transcript + "\n") == Body(context) + TrimEnd(transcript)
  {
    BodyEnds(context);
    TrimAround(Body(context), transcript);
  }

  /** A blank transcript leaves the prompt ending with the "Transcript:" heading. */
  lemma PromptLayoutBlank(transcript: string, template: Option<string>)
    requires IsBlank(transcript)
    ensures BuildPrompt(transcript, template)
      == (var body := Body(Templates[NormalizeTemplate(Some(template.GetOr("default")))]); body[..|body| - 1])
  {
    BuildPromptUnfold(transcript, template);
    LayoutAroundBlank(Templates[NormalizeTemplate(Some(template.GetOr("default")))], transcript);
  }

  /** `PromptLayoutBlank` for any context. */
  lemma LayoutAroundBlank(context: string, transcript: string)
    requires IsBlank(transcript)
    ensures var body := Body(context); Trim("\n" + "\n" + body + transcript + "\n") == body[..|body| - 1]
  {
    BodyEnds(context);
    TrimAroundBlank(Body(context), transcript);
  }
}

=== FILE: replies.dfy ===
/**
 * What both adapters do with a backend's answer: the JSON reply of
 * summarisation and editing, the free-text reply of chat, and model
 * fallback over each. A backend call is given as a function of the model
 * name, so each adapter supplies its own request shape and its own
 * rate-limit classifier.
 */
module Replies {
  import opened Wrappers
  import opened Strings
  import opened Json
  import opened Errors
  import opened Fallback
  import opened Normalizer

  /** The text a JSON reply is parsed from: the reply's text, or "{}" when it is missing or empty. */
  function ReplyText(text: Option<string>): string {
    if Present(text) then text.value else "{}"
  }

  /**
   * The JSON reply: a failed call is passed on; otherwise the reply text is
   * loosely parsed and normalised, and only a failed parse fails.
   */
  function JsonReply(reply: Result<Option<string>, Error>, parse: string -> Option<JsonValue>): (r: Result<Summary, Error>)
    ensures reply.Failure? ==> r == Failure(reply.error)
    ensures r.Failure? && reply.Success? ==> r.error == JsonSyntax
    ensures reply.Success? && ParseJsonLoose(ReplyText(reply.value), parse).Success? ==>
      r == Success(Normalize(ParseJsonLoose(ReplyText(reply.value), parse).value))
    ensures reply.Success? && ParseJsonLoose(ReplyText(reply.value), parse).Failure? ==> r == Failure(JsonSyntax)
  {
    match reply
    case Failure(e) => Failure(e)
    case Success(text) =>
      var raw := ReplyText(text);
      match ParseJsonLoose(raw, parse)
      case Failure(e) => Failure(e)
      case Success(v) => Success(Normalize(v))
  }

  /**
   * A reply whose text parses as the JSON form of a summary gives back that
   * summary; a missing or empty reply gives the empty summary when "{}"
   * parses as the empty object.
   */
  lemma JsonReplyOfSummary(text: string, s: Summary, parse: string -> Option<JsonValue>)
    ensures text != "" && parse(text) == Some(SummaryToJson(s)) ==> JsonReply(Success(Some(text)), parse) == Success(s)
    ensures parse("{}") == Some(EmptyObject) ==>
      JsonReply(Success(None), parse) == Success(EmptySummary) && JsonReply(Success(Some("")), parse) == Success(EmptySummary)
  {
    NormalizeSummaryToJson(s);
  }

  /** The chat reply: the reply text trimmed, "" when there is none. */
  function TextReply(reply: Result<Option<string>, Error>): (r: Result<string, Error>)
    ensures reply.Failure? <==> r.Failure?
    ensures reply.Failure? ==> r == Failure(reply.error)
    ensures reply.Success? ==> r == Success(Trim(reply.value.GetOr("")))
    ensures r.Success? ==> IsTrimmed(r.value)
  {
    match reply
    case Failure(e) => Failure(e)
    case Success(text) =>
      var t := if Present(text) then text.value else "";
      TrimShape(t);
      Success(Trim(t))
  }

  /** Trimming the reply text first changes nothing, and a missing or empty reply is the empty answer. */
  lemma TextReplyOfTrimmed(t: string)
    ensures TextReply(Success(Some(Trim(t)))) == TextReply(Success(Some(t)))
    ensures TextReply(Success(None)) == Success("") && TextReply(Success(Some(""))) == Success("")
  {
    TrimIdempotent(t);
  }

  /** Model fallback over JSON requests; `call(m)` is the backend's answer for model `m`. */
  function JsonFallback(models: seq<string>, call: string -> Result<Option<string>, Error>,
                        parse: string -> Option<JsonValue>, rateLimited: Error -> bool): (a: Attempt<Summary>)
    ensures models != [] ==> a.tried != [] && a.tried <= models
    ensures models == [] ==> a == Attempt([], Failure(Undefined))
    ensures a.tried != [] ==> a.result == JsonReply(call(a.tried[|a.tried| - 1]), parse)
    ensures EarlierFailedWith(a.tried, JsonRun(call, parse), rateLimited)
    ensures a.result.Failure? && models != [] ==> !rateLimited(a.result.error) || a.tried == models
  {
    WithModelFallback(models, JsonRun(call, parse), rateLimited)
  }

  /** One JSON attempt on model `m`. */
  function JsonRun(call: string -> Result<Option<string>, Error>, parse: string -> Option<JsonValue>): string -> Result<Summary, Error> {
    m => JsonReply(call(m), parse)
  }

  /** Model fallback over free-text requests; whichever model answers, the answer is trimmed. */
  function TextFallback(models: seq<string>, call: string -> Result<Option<string>, Error>,
                        rateLimited: Error -> bool): (a: Attempt<string>)
    ensures models != [] ==> a.tried != [] && a.tried <= models
    ensures models == [] ==> a == Attempt([], Failure(Undefined))
    ensures a.tried != [] ==> a.result == TextReply(call(a.tried[|a.tried| - 1]))
    ensures EarlierFailedWith(a.tried, TextRun(call), rateLimited)
    ensures a.result.Failure? && models != [] ==> !rateLimited(a.result.error) || a.tried == models
    ensures a.result.Success? ==> IsTrimmed(a.result.value)
  {
    TextRunTrimmed(models, call, rateLimited);
    WithModelFallback(models, TextRun(call), rateLimited)
  }

  /** One free-text attempt on model `m`. */
  function TextRun(call: string -> Result<Option<string>, Error>): string -> Result<string, Error> {
    m => TextReply(call(m))
  }

  /** The fallback's result is some tried model's reply, and every reply is trimmed. */
  lemma TextRunTrimmed(models: seq<string>, call: string -> Result<Option<string>, Error>, rateLimited: Error -> bool)
    ensures var a := WithModelFallback(models, TextRun(call), rateLimited);
      a.result.Success? ==> IsTrimmed(a.result.value)
  {
    var a := WithModelFallback(models, TextRun(call), rateLimited);
    if a.result.Success? {
      var last := a.tried[|a.tried| - 1];
      assert a.result == TextReply(call(last));
    }
  }
}

=== FILE: seqs.dfy ===
/** Map-then-filter over sequences, the shape of `map(...).filter(Boolean)` chains. */
module Seqs {
  import opened Wrappers

  /** Applies `f` to each element in order and keeps the present results. */
  function FilterMap<A, B>(f: A -> Option<B>, xs: seq<A>): (r: seq<B>)
    ensures |r| <= |xs|
  {
    if xs == [] then []
    else (if f(xs[0]).Some? then [f(xs[0]).value] else []) + FilterMap(f, xs[1..])
  }

  /** Filtering distributes over concatenation, so the output keeps the input's order. */
  lemma {:induction false} FilterMapAppend<A, B>(f: A -> Option<B>, xs: seq<A>, ys: seq<A>)
    ensures FilterMap(f, xs + ys) == FilterMap(f, xs) + FilterMap(f, ys)
  {
    if xs == [] {
      assert xs + ys == ys;
    } else {
      var h := if f(xs[0]).Some? then [f(xs[0]).value] else [];
      assert (xs + ys)[0] == xs[0];
      assert (xs + ys)[1..] == xs[1..] + ys;
      FilterMapAppend(f, xs[1..], ys);
      calc {
        FilterMap(f, xs + ys);
        h + FilterMap(f, xs[1..] + ys);
        h + (FilterMap(f, xs[1..]) + FilterMap(f, ys));
        { AppendAssoc(h, FilterMap(f, xs[1..]), FilterMap(f, ys)); }
        (h + FilterMap(f, xs[1..])) + FilterMap(f, ys);
      }
    }
  }

  /** The positions `from`, `from` + 1, … of `xs` at which `f` is present, in increasing order. */
  function KeptFrom<A, B>(f: A -> Option<B>, xs: seq<A>, from: nat): seq<nat>
    requires from <= |xs|
    decreases |xs| - from
  {
    if from == |xs| then []
    else (if f(xs[from]).Some? then [from] else []) + KeptFrom(f, xs, from + 1)
  }

  /** The positions of `xs` at which `f` is present, in increasing order. */
  function KeptIndexes<A, B>(f: A -> Option<B>, xs: seq<A>): seq<nat> {
    KeptFrom(f, xs, 0)
  }

  /** The output from position `from` on is `f` at exactly the kept positions, in order. */
  lemma {:induction false} KeptFromSpec<A, B>(f: A -> Option<B>, xs: seq<A>, from: nat)
    requires from <= |xs|
    ensures var idx := KeptFrom(f, xs, from);
      var r := FilterMap(f, xs[from..]);
      && |idx| == |r|
      && (forall k :: 0 <= k < |idx| ==> from <= idx[k] < |xs| && f(xs[idx[k]]) == Some(r[k]))
      && (forall k, l :: 0 <= k < l < |idx| ==> idx[k] < idx[l])
      && (forall i :: from <= i < |xs| && f(xs[i]).Some? ==> i in idx)
    decreases |xs| - from
  {
    if from < |xs| {
      KeptFromSpec(f, xs, from + 1);
      assert xs[from..][0] == xs[from];
      assert xs[from..][1..] == xs[from + 1..];
    }
  }

  /**
   * `FilterMap` keeps a subsequence: its output is `f` at the kept
   * positions, which increase, and every position where `f` is present is
   * kept.
   */
  lemma FilterMapSubsequence<A, B>(f: A -> Option<B>, xs: seq<A>)
    ensures var idx := KeptIndexes(f, xs);
      && |idx| == |FilterMap(f, xs)|
      && (forall k :: 0 <= k < |idx| ==> idx[k] < |xs| && f(xs[idx[k]]) == Some(FilterMap(f, xs)[k]))
      && (forall k, l :: 0 <= k < l < |idx| ==> idx[k] < idx[l])
      && (forall i :: 0 <= i < |xs| && f(xs[i]).Some? ==> i in idx)
  {
    KeptFromSpec(f, xs, 0);
    assert xs[0..] == xs;
  }

  /** A non-empty prefix of a one-element sequence is that sequence. */
  lemma PrefixOfSingleton<T>(xs: seq<T>, x: T)
    requires xs != [] && xs <= [x]
    ensures xs == [x]
  {
  }

  lemma AppendAssoc<T>(a: seq<T>, b: seq<T>, c: seq<T>)
    ensures a + (b + c) == (a + b) + c
  {
  }

  /** A property every present result of `f` has, every output element has. */
  lemma {:induction false} FilterMapKeeps<A, B>(f: A -> Option<B>, xs: seq<A>, p: B -> bool)
    requires forall i :: 0 <= i < |xs| && f(xs[i]).Some? ==> p(f(xs[i]).value)
    ensures forall i :: 0 <= i < |FilterMap(f, xs)| ==> p(FilterMap(f, xs)[i])
  {
    if xs != [] {
      assert forall i :: 0 <= i < |xs[1..]| ==> xs[1..][i] == xs[i + 1];
      FilterMapKeeps(f, xs[1..], p);
      var h := if f(xs[0]).Some? then [f(xs[0]).value] else [];
      assert FilterMap(f, xs) == h + FilterMap(f, xs[1..]);
    }
  }

  /** When `f` keeps every element, nothing is dropped and positions are kept. */
  lemma {:induction false} FilterMapAllPresent<A, B>(f: A -> Option<B>, xs: seq<A>)
    requires forall i :: 0 <= i < |xs| ==> f(xs[i]).Some?
    ensures |FilterMap(f, xs)| == |xs|
    ensures forall i :: 0 <= i < |xs| ==> FilterMap(f, xs)[i] == f(xs[i]).value
  {
    if xs != [] {
      assert forall i :: 0 <= i < |xs[1..]| ==> xs[1..][i] == xs[i + 1];
      FilterMapAllPresent(f, xs[1..]);
    }
  }

  /** Two callbacks that agree on every element give the same output. */
  lemma {:induction false} FilterMapAgree<A, B>(f: A -> Option<B>, g: A -> Option<B>, xs: seq<A>)
    requires forall i :: 0 <= i < |xs| ==> f(xs[i]) == g(xs[i])
    ensures FilterMap(f, xs) == FilterMap(g, xs)
  {
    if xs != [] {
      assert forall i :: 0 <= i < |xs[1..]| ==> xs[1..][i] == xs[i + 1];
      FilterMapAgree(f, g, xs[1..]);
    }
  }

  /** A one-element input gives its result when present and nothing otherwise. */
  lemma FilterMapOne<A, B>(f: A -> Option<B>, x: A)
    ensures FilterMap(f, [x]) == if f(x).Some? then [f(x).value] else []
  {
    assert [x][1..] == [];
  }

  /** Three inputs of which the middle one is dropped give the other two results, in order. */
  lemma FilterMapDropMiddle<A, B>(f: A -> Option<B>, a: A, b: A, c: A, ra: B, rc: B)
    requires f(a) == Some(ra) && f(b) == None && f(c) == Some(rc)
    ensures FilterMap(f, [a, b, c]) == [ra, rc]
  {
    assert [a, b, c] == [a] + ([b] + [c]);
    FilterMapAppend(f, [a], [b] + [c]);
    FilterMapAppend(f, [b], [c]);
    FilterMapOne(f, a);
    FilterMapOne(f, b);
    FilterMapOne(f, c);
  }
}

=== FILE: strings.dfy ===
/**
 * The JavaScript string operations the core relies on: `trim`, ASCII case
 * mapping, `split` on one character, `join`, and decimal rendering of
 * non-negative integers. A string is a `seq<char>` in which each `char`
 * stands for one UTF-16 code unit.
 */
module Strings {

  /** The characters `String.prototype.trim` removes (white space and line terminators). */
  predicate IsSpace(c: char) {
    || c == ' ' || c == '\t' || c == '\n' || c == '\r' || c == '\U{000B}' || c == '\U{000C}'
    || c == '\U{00A0}' || c == '\U{FEFF}' || c == '\U{1680}' || ('\U{2000}' <= c <= '\U{200A}')
    || c == '\U{2028}' || c == '\U{2029}' || c == '\U{202F}' || c == '\U{205F}' || c == '\U{3000}'
  }

  /** Every character of `s` is white space; such a string trims to "". */
  predicate IsBlank(s: string) {
    forall i :: 0 <= i < |s| ==> IsSpace(s[i])
  }

  /** Index of the first non-space character at or after `i`, or `|s|` when there is none. */
  function SpaceRun(s: string, i: nat): (j: nat)
    requires i <= |s|
    ensures i <= j <= |s|
    ensures forall k :: i <= k < j ==> IsSpace(s[k])
    ensures j == |s| || !IsSpace(s[j])
    decreases |s| - i
  {
    if i < |s| && IsSpace(s[i]) then SpaceRun(s, i + 1) else i
  }

  /** One past the last non-space character before `i`, or 0 when there is none. */
  function SpaceRunBack(s: string, i: nat): (j: nat)
    requires i <= |s|
    ensures j <= i
    ensures forall k :: j <= k < i ==> IsSpace(s[k])
    ensures j == 0 || !IsSpace(s[j - 1])
  {
    if i > 0 && IsSpace(s[i - 1]) then SpaceRunBack(s, i - 1) else i
  }

  /** Drops leading white space: the result is the longest suffix of `s` that does not start with white space. */
  function TrimStart(s: string): (r: string)
    ensures |r| <= |s| && r == s[|s| - |r|..]
    ensures IsBlank(s[..|s| - |r|])
    ensures r == [] || !IsSpace(r[0])
  {
    s[SpaceRun(s, 0)..]
  }

  /** Drops trailing white space: the result is the longest prefix of `s` that does not end with white space. */
  function TrimEnd(s: string): (r: string)
    ensures |r| <= |s| && r == s[..|r|]
    ensures IsBlank(s[|r|..])
    ensures r == [] || !IsSpace(r[|r| - 1])
  {
    s[..SpaceRunBack(s, |s|)]
  }

  /** Leading white space is determined by where the first non-space character sits. */
  lemma TrimStartAt(s: string, j: nat)
    requires j <= |s| && IsBlank(s[..j]) && (j == |s| || !IsSpace(s[j]))
    ensures TrimStart(s) == s[j..]
  {
  }

  /** Trailing white space is determined by where the last non-space character sits. */
  lemma TrimEndAt(s: string, j: nat)
    requires j <= |s| && IsBlank(s[j..]) && (j == 0 || !IsSpace(s[j - 1]))
    ensures TrimEnd(s) == s[..j]
  {
  }

  /** `s.trim()`. */
  function Trim(s: string): (r: string)
  {
    TrimEnd(TrimStart(s))
  }

  /** A trimmed string starts and ends with a non-space character (or is empty). */
  predicate IsTrimmed(s: string) {
    s == [] || (!IsSpace(s[0]) && !IsSpace(s[|s| - 1]))
  }

  /**
   * `names` is the pieces that do not trim to "", trimmed, in their order:
   * `idx` lists their positions among `pieces`, increasing, and misses none.
   */
  ghost predicate TrimmedPieces(pieces: seq<string>, names: seq<string>, idx: seq<nat>) {
    && |names| == |idx|
    && (forall k, l :: 0 <= k < l < |idx| ==> idx[k] < idx[l])
    && (forall k :: 0 <= k < |idx| ==> idx[k] < |pieces| && names[k] == Trim(pieces[idx[k]]))
    && (forall i :: 0 <= i < |pieces| && Trim(pieces[i]) != "" ==> i in idx)
  }

  lemma TrimStartOfBlank(s: string)
    requires IsBlank(s)
    ensures TrimStart(s) == []
  {
  }

  lemma TrimStartKeepsNonBlank(s: string)
    requires !IsBlank(s)
    ensures !IsBlank(TrimStart(s))
  {
    var r := TrimStart(s);
    var k :| 0 <= k < |s| && !IsSpace(s[k]);
    assert k >= |s| - |r|;
    assert r[k - (|s| - |r|)] == s[k];
  }

  /** The trimmed string is the input stripped of white space at both ends, and is itself trimmed. */
  lemma {:induction false} TrimShape(s: string)
    ensures IsTrimmed(Trim(s))
    ensures |Trim(s)| <= |s|
    ensures Trim(s) == [] <==> IsBlank(s)
  {
    var a := TrimStart(s);
    var r := TrimEnd(a);
    if r != [] {
      assert r[0] == a[0];
    }
    if IsBlank(s) {
      TrimStartOfBlank(s);
    } else {
      TrimStartKeepsNonBlank(s);
    }
  }

  /** The result of `trim` is trimmed. */
  lemma TrimIsTrimmed(s: string)
    ensures IsTrimmed(Trim(s))
  {
    TrimShape(s);
  }

  lemma TrimStartIdem(s: string)
    requires s == [] || !IsSpace(s[0])
    ensures TrimStart(s) == s
  {
  }

  lemma TrimEndIdem(s: string)
    requires s == [] || !IsSpace(s[|s| - 1])
    ensures TrimEnd(s) == s
  {
  }

  /** A trimmed string is a fixed point of `trim`. */
  lemma TrimOfTrimmed(s: string)
    requires IsTrimmed(s)
    ensures Trim(s) == s
  {
    TrimStartIdem(s);
    TrimEndIdem(s);
  }

  /** Trimming only removes characters: a character absent from `s` is absent from `Trim(s)`. */
  lemma TrimKeepsAbsent(s: string, c: char)
    requires c !in s
    ensures c !in Trim(s)
  {
    var a := TrimStart(s);
    AbsentFromSlice(s, c, |s| - |a|, |s|);
    var r := TrimEnd(a);
    AbsentFromSlice(a, c, 0, |r|);
  }

  /** A character absent from a string is absent from each of its slices. */
  lemma AbsentFromSlice(s: string, c: char, i: nat, j: nat)
    requires c !in s && i <= j <= |s|
    ensures c !in s[i..j]
  {
  }

  /** `trim` is idempotent. */
  lemma TrimIdempotent(s: string)
    ensures Trim(Trim(s)) == Trim(s)
  {
    TrimShape(s);
    TrimOfTrimmed(Trim(s));
  }

  /** Leading white space of a concatenation comes only from the first part when that part is not blank. */
  lemma TrimStartAppend(a: string, b: string)
    requires !IsBlank(a)
    ensures TrimStart(a + b) == TrimStart(a) + b
  {
    var r := TrimStart(a);
    var j := |a| - |r|;
    TrimStartKeepsNonBlank(a);
    assert (a + b)[..j] == a[..j];
    assert (a + b)[j] == r[0];
    TrimStartAt(a + b, j);
    assert (a + b)[j..] == a[j..] + b;
  }

  /** A final newline is white space, so `trimEnd` removes it with the rest. */
  lemma TrimEndNewline(s: string)
    ensures TrimEnd(s + "\n") == TrimEnd(s)
  {
    var r := TrimEnd(s);
    var t := s + "\n";
    assert t[..|r|] == r;
    assert forall k :: 0 <= k < |t| - |r| ==> t[|r|..][k] == (s[|r|..] + "\n")[k];
    TrimEndAt(t, |r|);
  }

  /** Trailing white space of a concatenation comes only from the second part when that part is not blank. */
  lemma TrimEndPrepend(a: string, b: string)
    requires !IsBlank(b)
    ensures TrimEnd(a + b) == a + TrimEnd(b)
  {
    var r := TrimEnd(b);
    TrimEndKeepsNonBlank(b);
    var t := a + b;
    var j := |a| + |r|;
    assert t[j..] == b[|r|..];
    assert t[j - 1] == r[|r| - 1];
    TrimEndAt(t, j);
    assert t[..j] == a + r;
  }

  lemma TrimEndKeepsNonBlank(s: string)
    requires !IsBlank(s)
    ensures TrimEnd(s) != []
  {
  }

  /** The number of UTF-16 code units JavaScript spends on `c`: two outside the Basic Multilingual Plane. */
  function Utf16Units(c: char): nat {
    if c as int > 0xFFFF then 2 else 1
  }

  /** `s.length` in JavaScript, which counts UTF-16 code units. */
  function Utf16Length(s: string): nat {
    if s == [] then 0 else Utf16Length(s[..|s| - 1]) + Utf16Units(s[|s| - 1])
  }

  /** Inside the Basic Multilingual Plane a character is one code unit, so offsets are indexes. */
  lemma {:induction false} Utf16LengthOfBmp(s: string)
    requires forall i :: 0 <= i < |s| ==> Utf16Units(s[i]) == 1
    ensures Utf16Length(s) == |s|
  {
    if s != [] {
      var init := s[..|s| - 1];
      assert forall i :: 0 <= i < |init| ==> init[i] == s[i];
      Utf16LengthOfBmp(init);
    }
  }

  function LowerChar(c: char): char {
    if 'A' <= c <= 'Z' then (c as int + 32) as char else c
  }

  function UpperChar(c: char): char {
    if 'a' <= c <= 'z' then (c as int - 32) as char else c
  }

  /** `s.toLowerCase()` on ASCII letters: same length, each character mapped on its own. */
  function Lower(s: string): (r: string)
    ensures |r| == |s|
    ensures forall i :: 0 <= i < |s| ==> r[i] == LowerChar(s[i])
  {
    if s == [] then [] else [LowerChar(s[0])] + Lower(s[1..])
  }

  /** `s.toUpperCase()` on ASCII letters. */
  function Upper(s: string): (r: string)
    ensures |r| == |s|
    ensures forall i :: 0 <= i < |s| ==> r[i] == UpperChar(s[i])
  {
    if s == [] then [] else [UpperChar(s[0])] + Upper(s[1..])
  }

  /** Upper-casing gives `t` when it maps each character of `s` to the one at the same place in `t`. */
  lemma UpperIs(s: string, t: string)
    requires |s| == |t| && forall i :: 0 <= i < |s| ==> UpperChar(s[i]) == t[i]
    ensures Upper(s) == t
  {
  }

  /** No upper-case ASCII letter occurs in `s`. */
  predicate IsLower(s: string) {
    forall i :: 0 <= i < |s| ==> !('A' <= s[i] <= 'Z')
  }

  /** Lower-casing leaves no upper-case letter and is idempotent. */
  lemma LowerIsLower(s: string)
    ensures IsLower(Lower(s))
    ensures Lower(Lower(s)) == Lower(s)
  {
  }

  /** A string with no upper-case letter is unchanged by lower-casing. */
  lemma LowerOfLower(s: string)
    requires IsLower(s)
    ensures Lower(s) == s
  {
  }

  /** Position of the first `c` in `s`. */
  function IndexOf(s: string, c: char): (i: nat)
    requires c in s
    ensures i < |s| && s[i] == c && c !in s[..i]
  {
    if s[0] == c then 0 else 1 + IndexOf(s[1..], c)
  }

  /** Position of the last `c` in `s`. */
  function LastIndexOf(s: string, c: char): (i: nat)
    requires c in s
    ensures i < |s| && s[i] == c && c !in s[i + 1..]
  {
    if s[|s| - 1] == c then |s| - 1 else LastIndexOf(s[..|s| - 1], c)
  }

  /** `s.split(sep)` for a one-character separator: the pieces between separators, at least one. */
  function Split(s: string, sep: char): (parts: seq<string>)
    ensures |parts| >= 1
    ensures forall k :: 0 <= k < |parts| ==> sep !in parts[k]
    decreases |s|
  {
    if sep !in s then [s]
    else
      var i := IndexOf(s, sep);
      [s[..i]] + Split(s[i + 1..], sep)
  }

  /** `parts.join(sep)`. */
  function Join(parts: seq<string>, sep: string): string {
    if parts == [] then ""
    else if |parts| == 1 then parts[0]
    else parts[0] + sep + Join(parts[1..], sep)
  }

  /** Splitting and re-joining with the same separator gives back the input. */
  lemma {:induction false} JoinSplit(s: string, sep: char)
    ensures Join(Split(s, sep), [sep]) == s
    decreases |s|
  {
    if sep in s {
      var i := IndexOf(s, sep);
      var rest := Split(s[i + 1..], sep);
      JoinSplit(s[i + 1..], sep);
      assert Split(s, sep) == [s[..i]] + rest;
      assert s == s[..i] + [sep] + s[i + 1..];
    }
  }

  function DigitChar(d: nat): char
    requires d < 10
  {
    "0123456789"[d]
  }

  /** Decimal rendering of a non-negative integer, as `${n}` gives it. */
  function NatToString(n: nat): (r: string)
    ensures |r| >= 1
    ensures forall i :: 0 <= i < |r| ==> '0' <= r[i] <= '9'
  {
    if n < 10 then [DigitChar(n)] else NatToString(n / 10) + [DigitChar(n % 10)]
  }
}

=== FILE: training_data.dfy ===
/**
 * `GET /api/transcriptions/training-data`: pick a bundled sample
 * transcript for a template, summarise it, and store the result as a
 * finished job.
 */
module TrainingData {
  import opened Wrappers
  import opened Strings
  import opened Json
  import opened Errors
  import opened Normalizer
  import opened PromptBuilder
  import opened Jobs

  /** `templateAliases`: legacy names of three templates. */
  const TemplateAliases: map<string, string> := map[
    "interview_notes" := "interview",
    "lecture_notes" := "lecture",
    "voice_memo" := "voice-memo"
  ]

  /** `trainingFiles`: the sample transcript of each template. */
  const TrainingFiles: map<string, string> := map[
    "default" := "trainning-meeting.txt",
    "brainstorm" := "trainning-brainstorm.txt",
    "interview" := "trainning-interview.txt",
    "lecture" := "trainning-lecture.txt",
    "voice-memo" := "trainning-voice-memo.txt"
  ]

  /**
   * `normalizeTemplateParam`: trim, lower-case, resolve an alias, then
   * `normalizeTemplate`. Looking an unknown name up in the alias object can
   * reach an inherited property, but no such value is a template name, so
   * the result is the same as treating the name as unknown.
   */
  function NormalizeTemplateParam(value: Option<string>): (t: string)
    ensures t in TemplateKeys && t in TrainingFiles
    ensures value.None? ==> t == "default"
    ensures value.Some? && Lower(Trim(value.value)) in TemplateAliases ==> t == TemplateAliases[Lower(Trim(value.value))]
    ensures value.Some? && Lower(Trim(value.value)) !in TemplateAliases ==> t == NormalizeTemplate(Some(Lower(Trim(value.value))))
  {
    AliasTargetsAreTemplates();
    TrainingFilesCoverTemplates();
    var trimmed := if value.Some? then Trim(value.value) else "";
    var lowered := Lower(trimmed);
    var mapped := if lowered in TemplateAliases && TemplateAliases[lowered] != "" then TemplateAliases[lowered] else lowered;
    NormalizeTemplate(Some(mapped))
  }

  /** Each alias names a template. */
  lemma AliasTargetsAreTemplates()
    ensures forall a :: a in TemplateAliases ==> TemplateAliases[a] != "" && TemplateAliases[a] in Templates
  {
  }

  /** The five template names are trimmed and lower-case. */
  lemma TemplateNamesPlain(t: string)
    requires t in TemplateKeys
    ensures IsTrimmed(t) && IsLower(t)
  {
    if t == "default" {
    } else if t == "brainstorm" {
    } else if t == "interview" {
    } else if t == "lecture" {
    } else {
      assert t == "voice-memo";
    }
  }

  /** A trimmed, lower-case name that is no alias is only passed through `normalizeTemplate`. */
  lemma {:induction false} PlainName(t: string)
    requires IsTrimmed(t) && IsLower(t) && t !in TemplateAliases
    ensures NormalizeTemplateParam(Some(t)) == NormalizeTemplate(Some(t))
  {
    TrimOfTrimmed(t);
    LowerOfLower(t);
  }

  /** A template name is left as it is: the five names are trimmed, lower-case and no alias. */
  lemma NormalizeTemplateParamOfName(t: string)
    requires t in TemplateKeys
    ensures NormalizeTemplateParam(Some(t)) == t
  {
    TemplateNamesPlain(t);
    PlainName(t);
  }

  /** A trimmed, lower-case alias resolves to its template. */
  lemma {:induction false} AliasName(a: string)
    requires IsTrimmed(a) && IsLower(a) && a in TemplateAliases
    ensures NormalizeTemplateParam(Some(a)) == TemplateAliases[a]
  {
    TrimOfTrimmed(a);
    LowerOfLower(a);
  }

  /** The three legacy names resolve to "interview", "lecture" and "voice-memo". */
  lemma AliasesResolve(a: string)
    requires a in TemplateAliases
    ensures NormalizeTemplateParam(Some(a)) == TemplateAliases[a]
  {
    assert IsTrimmed(a) && IsLower(a) by {
      if a == "interview_notes" {
      } else if a == "lecture_notes" {
      } else {
        assert a == "voice_memo";
      }
    }
    AliasName(a);
  }

  /** `normalizeTemplateParam` is idempotent. */
  lemma NormalizeTemplateParamIdempotent(value: Option<string>)
    ensures NormalizeTemplateParam(Some(NormalizeTemplateParam(value))) == NormalizeTemplateParam(value)
  {
    NormalizeTemplateParamOfName(NormalizeTemplateParam(value));
  }

  /** Every template has its own sample file, so the fallback to the default file is never needed. */
  lemma TrainingFilesCoverTemplates()
    ensures forall t :: t in TemplateKeys ==> t in TrainingFiles
    ensures forall a, b :: a in TrainingFiles && b in TrainingFiles && a != b ==> TrainingFiles[a] != TrainingFiles[b]
  {
  }

  /** The world the route reads and writes, and what it asks of the outside. */
  datatype World = World(users: map<string, string>, store: Store)

  datatype Reply =
    | ErrorReply(status: int, message: string)
    | Created(transcriptionId: string, summary: Summary)

  /** The sample file read, the job store afterwards, and the reply or the thrown error. */
  datatype Outcome = Outcome(file: Option<string>, store: Store, result: Result<Reply, Error>)

  /** The job written for a sample run. */
  function SampleJob(userId: string, param: Option<string>, template: string, fileName: string, now: nat,
                     transcript: string, summary: Summary): Job {
    var shown := if Present(param) then param.value else template;
    Job(userId, "Test Data (" + shown + ")", Some("test-data/" + NatToString(now) + "-" + fileName), Done,
        Some(shown), Some(transcript), Some(summary), now)
  }

  /**
   * `GET`. `readFile` reads a sample by file name, `summarize` is the agent
   * with a template, `now` is `Date.now()` and `newId` the id the database
   * generates (a taken id is a unique-constraint failure).
   */
  function Get(email: Option<string>, param: Option<string>, w: World, now: nat, newId: string,
               readFile: string -> Result<string, Error>,
               summarize: (string, string) -> Result<Summary, Error>): (o: Outcome)
    ensures !Present(email) || Lower(email.value) !in w.users ==>
      o == Outcome(None, w.store, Success(ErrorReply(401, "Unauthorized")))
    ensures o.file.Some? ==> o.file.value == TrainingFiles[NormalizeTemplateParam(param)]
    ensures o.store != w.store ==> o.result.Success? && o.result.value.Created?
    // A signed-in caller: a failed read or summary is rethrown with nothing written,
    // and when both succeed only an id clash keeps the sample run from being created.
    ensures Present(email) && Lower(email.value) in w.users ==>
      var fileName := TrainingFiles[NormalizeTemplateParam(param)];
      && (readFile(fileName).Failure? ==> o == Outcome(Some(fileName), w.store, Failure(readFile(fileName).error)))
      && (readFile(fileName).Success? && summarize(readFile(fileName).value, NormalizeTemplateParam(param)).Failure? ==>
            o == Outcome(Some(fileName), w.store, Failure(summarize(readFile(fileName).value, NormalizeTemplateParam(param)).error)))
      && (readFile(fileName).Success? && summarize(readFile(fileName).value, NormalizeTemplateParam(param)).Success? ==>
            (o.result.Success? && o.result.value.Created? <==> newId !in w.store))
    ensures o.result.Success? && o.result.value.Created? ==>
      && o.result.value.transcriptionId == newId && newId !in w.store
      && o.file.Some? && readFile(o.file.value).Success?
      && summarize(readFile(o.file.value).value, NormalizeTemplateParam(param)) == Success(o.result.value.summary)
      && o.store == w.store[newId := SampleJob(w.users[Lower(email.value)], param, NormalizeTemplateParam(param),
                                               o.file.value, now, readFile(o.file.value).value, o.result.value.summary)]
  {
    if !Present(email) || Lower(email.value) !in w.users then Outcome(None, w.store, Success(ErrorReply(401, "Unauthorized")))
    else
      var userId := w.users[Lower(email.value)];
      var template := NormalizeTemplateParam(param);
      // The source falls back to the default file; that branch is dead, every template has a file.
      var fileName := TrainingFiles[template];
      match readFile(fileName)
      case Failure(e) => Outcome(Some(fileName), w.store, Failure(e))
      case Success(transcript) =>
        match summarize(transcript, template)
        case Failure(e) => Outcome(Some(fileName), w.store, Failure(e))
        case Success(summary) =>
          if newId in w.store then Outcome(Some(fileName), w.store, Failure(ServiceError("Unique constraint failed on id")))
          else
            Outcome(Some(fileName), w.store[newId := SampleJob(userId, param, template, fileName, now, transcript, summary)],
                    Success(Created(newId, summary)))
  }

  /**
   * The stored template is the raw query value when it is non-empty, not
   * its normalised form; otherwise the normalised name, which is then
   * "default".
   */
  lemma StoredTemplateIsRawParam(userId: string, param: Option<string>, fileName: string, now: nat,
                                 transcript: string, summary: Summary)
    ensures var job := SampleJob(userId, param, NormalizeTemplateParam(param), fileName, now, transcript, summary);
      && (Present(param) ==> job.template == param)
      && (!Present(param) ==> job.template == Some("default"))
      && job.status == Done
  {
    if param.Some? && !Present(param) {
      assert Trim(param.value) == "" by { TrimShape(param.value); }
      assert Lower("") == "";
    }
  }
}

=== FILE: uploads.dfy ===
/**
 * `POST /api/uploads`: store an uploaded audio file under the user's
 * prefix and create its job record with status "uploaded".
 */
module Uploads {
  import opened Wrappers
  import opened Strings
  import opened Json
  import opened Errors
  import opened Jobs

  /** The characters `sanitizeFilename` keeps: `[a-zA-Z0-9._-]`. */
  predicate Allowed(c: char) {
    ('a' <= c <= 'z') || ('A' <= c <= 'Z') || ('0' <= c <= '9') || c == '.' || c == '_' || c == '-'
  }

  predicate AllAllowed(s: string) {
    forall i :: 0 <= i < |s| ==> Allowed(s[i])
  }

  /**
   * What the regex puts in place of one character: the character itself when
   * allowed, otherwise one "_" per UTF-16 code unit (the pattern has no `u`
   * flag, so it matches each half of a surrogate pair on its own).
   */
  function Replacement(c: char): (r: string)
    ensures |r| == Utf16Units(c) && AllAllowed(r)
    ensures Allowed(c) <==> r == [c]
    ensures !Allowed(c) ==> forall k :: 0 <= k < |r| ==> r[k] == '_'
  {
    if Allowed(c) then [c] else if Utf16Units(c) == 2 then "__" else "_"
  }

  /** The image of `name[i]` sits in `r` at that character's UTF-16 offset in `name`. */
  predicate PlacedAt(name: string, r: string, i: nat)
    requires i < |name|
  {
    var at := Utf16Length(name[..i]);
    at + Utf16Units(name[i]) <= |r| && r[at..at + Utf16Units(name[i])] == Replacement(name[i])
  }

  /**
   * `sanitizeFilename`: every UTF-16 code unit outside the allowed set becomes
   * "_". The output has the input's JavaScript length, and the image of each
   * character sits at that character's code-unit offset.
   */
  function SanitizeFilename(name: string): (r: string)
    ensures |r| == Utf16Length(name) && AllAllowed(r)
    ensures forall i :: 0 <= i < |name| ==> PlacedAt(name, r, i)
  {
    if name == [] then []
    else
      var init := name[..|name| - 1];
      assert name == init + [name[|name| - 1]];
      PlacedAtSnoc(init, name[|name| - 1], SanitizeFilename(init));
      SanitizeFilename(init) + Replacement(name[|name| - 1])
  }

  /** Appending a character appends its image, and the earlier images keep their offsets. */
  lemma PlacedAtSnoc(init: string, c: char, r0: string)
    requires |r0| == Utf16Length(init)
    requires forall i :: 0 <= i < |init| ==> PlacedAt(init, r0, i)
    ensures forall i :: 0 <= i < |init| + 1 ==> PlacedAt(init + [c], r0 + Replacement(c), i)
  {
    forall i | 0 <= i < |init| + 1
      ensures PlacedAt(init + [c], r0 + Replacement(c), i)
    {
      if i < |init| {
        PlacedAtSnocEarlier(init, c, r0, i);
      } else {
        PlacedAtSnocLast(init, c, r0);
      }
    }
  }

  lemma PlacedAtSnocEarlier(init: string, c: char, r0: string, i: nat)
    requires i < |init| && PlacedAt(init, r0, i)
    ensures PlacedAt(init + [c], r0 + Replacement(c), i)
  {
    var name := init + [c];
    var r := r0 + Replacement(c);
    assert name[..i] == init[..i] && name[i] == init[i];
    var at := Utf16Length(init[..i]);
    var end := at + Utf16Units(init[i]);
    assert r[at..end] == r0[at..end];
  }

  lemma PlacedAtSnocLast(init: string, c: char, r0: string)
    requires |r0| == Utf16Length(init)
    ensures PlacedAt(init + [c], r0 + Replacement(c), |init|)
  {
    var name := init + [c];
    var rep := Replacement(c);
    assert |rep| == Utf16Units(c);
    assert (r0 + rep)[|r0|..|r0| + |rep|] == rep;
    assert name[..|init|] == init && name[|init|] == c;
  }

  /** A name inside the Basic Multilingual Plane is sanitised character by character. */
  lemma SanitizeBmp(name: string)
    requires forall i :: 0 <= i < |name| ==> Utf16Units(name[i]) == 1
    ensures var r := SanitizeFilename(name);
      |r| == |name| && forall i :: 0 <= i < |name| ==> r[i] == if Allowed(name[i]) then name[i] else '_'
  {
    Utf16LengthOfBmp(name);
    var r := SanitizeFilename(name);
    forall i | 0 <= i < |name|
      ensures r[i] == if Allowed(name[i]) then name[i] else '_'
    {
      assert PlacedAt(name, r, i);
      Utf16LengthOfBmp(name[..i]);
      assert r[i..i + 1] == Replacement(name[i]);
    }
  }

  /** Sanitising works on a name one character at a time, from the left. */
  lemma SanitizeSnoc(init: string, c: char)
    ensures SanitizeFilename(init + [c]) == SanitizeFilename(init) + Replacement(c)
  {
    assert (init + [c])[..|init|] == init;
  }

  /** Sanitising a concatenation sanitises the parts: the regex replaces each code unit on its own. */
  lemma {:induction false} SanitizeAppend(a: string, b: string)
    ensures SanitizeFilename(a + b) == SanitizeFilename(a) + SanitizeFilename(b)
  {
    if b != [] {
      var init := b[..|b| - 1];
      var c := b[|b| - 1];
      assert b == init + [c];
      assert a + b == (a + init) + [c];
      SanitizeSnoc(a + init, c);
      SanitizeSnoc(init, c);
      SanitizeAppend(a, init);
    } else {
      assert a + b == a;
    }
  }

  /** A character outside the Basic Multilingual Plane becomes two "_", as JavaScript's length counts it. */
  lemma SanitizeAstral(c: char, rest: string)
    requires Utf16Units(c) == 2
    ensures SanitizeFilename([c] + rest) == "__" + SanitizeFilename(rest)
  {
    SanitizeSnoc([], c);
    assert [] + [c] == [c];
    SanitizeAppend([c], rest);
  }

  /** An emoji in a file name costs two "_" in the storage key. */
  lemma SanitizeEmojiName()
    ensures SanitizeFilename("\U{1F600}.mp3") == "__.mp3"
  {
    var name := ['\U{1F600}'] + ".mp3";
    SanitizeAstral('\U{1F600}', ".mp3");
    SanitizeAllowed(".mp3");
    assert SanitizeFilename(name) == "__" + ".mp3";
    assert name == "\U{1F600}.mp3";
  }

  /** A name of allowed characters only is its own sanitised form. */
  lemma SanitizeAllowed(name: string)
    requires AllAllowed(name)
    ensures SanitizeFilename(name) == name
  {
    assert forall i :: 0 <= i < |name| ==> Allowed(name[i]) && Utf16Units(name[i]) == 1;
    SanitizeBmp(name);
  }

  /** A name is left unchanged exactly when every character is allowed; in particular sanitising is idempotent. */
  lemma SanitizeFixpoint(name: string)
    ensures SanitizeFilename(name) == name <==> AllAllowed(name)
    ensures SanitizeFilename(SanitizeFilename(name)) == SanitizeFilename(name)
  {
    if AllAllowed(name) {
      SanitizeAllowed(name);
    }
    SanitizeAllowed(SanitizeFilename(name));
  }

  /** The template form field: trimmed when a non-blank string, else "default"; any name is accepted. */
  function UploadTemplate(field: Option<string>): (t: string)
    ensures t != "" && IsTrimmed(t)
    ensures field.None? || IsBlank(field.value) ==> t == "default"
    ensures field.Some? && !IsBlank(field.value) ==> t == Trim(field.value)
  {
    if field.Some? && !IsBlank(field.value) then
      TrimShape(field.value);
      Trim(field.value)
    else "default"
  }

  /** The field is not checked against the known templates: any trimmed name is stored as given. */
  lemma UploadTemplateKeepsUnknownNames(name: string)
    requires name != "" && IsTrimmed(name)
    ensures UploadTemplate(Some(name)) == name
  {
    TrimShape(name);
    TrimOfTrimmed(name);
  }

  /** The uploaded file part: its name and content type. */
  datatype FilePart = FilePart(name: string, contentType: string)

  /** The form: the `file` part when it is a file, and the `template` field when it is a string. */
  datatype Form = Form(file: Option<FilePart>, template: Option<string>)

  datatype Reply =
    | ErrorReply(status: int, message: string)
    | Stored(transcriptionId: string, key: string)

  /** The storage keys written, the job store afterwards, and the reply or the thrown error. */
  datatype Outcome = Outcome(uploads: seq<string>, store: Store, result: Result<Reply, Error>)

  /** The stored file's key under the user's prefix; `now` is `Date.now()`. */
  function StorageKey(userId: string, now: nat, fileName: string): string {
    "users/" + userId + "/" + NatToString(now) + "-" + SanitizeFilename(if fileName != "" then fileName else "upload")
  }

  /** The key is the user's prefix followed by one path segment: the file name cannot add a "/" of its own. */
  lemma StorageKeyShape(userId: string, now: nat, fileName: string)
    ensures var prefix := "users/" + userId + "/";
      var key := StorageKey(userId, now, fileName);
      |prefix| < |key| && key[..|prefix|] == prefix
      && forall i :: |prefix| <= i < |key| ==> key[i] != '/'
  {
    var prefix := "users/" + userId + "/";
    var stamp := NatToString(now);
    var safe := SanitizeFilename(if fileName != "" then fileName else "upload");
    var key := StorageKey(userId, now, fileName);
    assert key == prefix + (stamp + "-" + safe);
    assert forall i :: 0 <= i < |stamp| ==> stamp[i] != '/';
    assert forall i :: 0 <= i < |safe| ==> safe[i] != '/';
  }

  /**
   * `POST`. `form` is what `request.formData()` gives: a body that is not
   * form data makes it throw, and the route does not catch that. `upload`
   * stores a key (its reply is irrelevant: the route keeps the key it
   * built), `newId` is the id the database generates.
   */
  function Post(email: Option<string>, users: map<string, string>, form: Result<Form, Error>, store: Store, now: nat,
                newId: string, upload: string -> Result<string, Error>): (o: Outcome)
    ensures !Present(email) || Lower(email.value) !in users ==>
      o == Outcome([], store, Success(ErrorReply(401, "Unauthorized")))
    // The form is parsed only for a known user; a parse failure is rethrown before the file check.
    ensures Present(email) && Lower(email.value) in users && form.Failure? ==>
      o == Outcome([], store, Failure(form.error))
    ensures Present(email) && Lower(email.value) in users && form.Success? && form.value.file.None? ==>
      o == Outcome([], store, Success(ErrorReply(400, "Missing file")))
    ensures !(o.result.Success? && o.result.value.Stored?) ==> o.store == store
    ensures Present(email) && Lower(email.value) in users && form.Success? && form.value.file.Some? ==>
      var key := StorageKey(users[Lower(email.value)], now, form.value.file.value.name);
      && (upload(key).Failure? ==> o == Outcome([key], store, Failure(upload(key).error)))
      && (upload(key).Success? ==> (o.result.Success? && o.result.value.Stored? <==> newId !in store))
    ensures o.result.Success? && o.result.value.Stored? ==>
      var userId := users[Lower(email.value)];
      var file := form.value.file.value;
      var key := StorageKey(userId, now, file.name);
      && o.uploads == [key] && upload(key).Success?
      && o.result.value == Stored(newId, key) && newId !in store
      && o.store == store[newId := Job(userId, if file.name != "" then file.name else SanitizeFilename("upload"),
                                      Some(key), Uploaded, Some(UploadTemplate(form.value.template)), None, None, now)]
  {
    if !Present(email) || Lower(email.value) !in users then Outcome([], store, Success(ErrorReply(401, "Unauthorized")))
    else if form.Failure? then Outcome([], store, Failure(form.error))
    else if form.value.file.None? then Outcome([], store, Success(ErrorReply(400, "Missing file")))
    else Save(users[Lower(email.value)], form.value.file.value, UploadTemplate(form.value.template), store, now, newId, upload)
  }

  /** The authorised part of `POST`: upload under the built key, then create the job row. */
  function Save(userId: string, file: FilePart, template: string, store: Store, now: nat,
                newId: string, upload: string -> Result<string, Error>): (o: Outcome)
    ensures !(o.result.Success? && o.result.value.Stored?) ==> o.store == store
    // A failed upload is rethrown; after a successful one only an id clash fails.
    ensures upload(StorageKey(userId, now, file.name)).Failure? ==>
      o == Outcome([StorageKey(userId, now, file.name)], store, Failure(upload(StorageKey(userId, now, file.name)).error))
    ensures upload(StorageKey(userId, now, file.name)).Success? ==> (o.result.Success? <==> newId !in store)
    ensures o.result.Success? ==>
      var key := StorageKey(userId, now, file.name);
      && o.uploads == [key] && upload(key).Success?
      && o.result.value == Stored(newId, key) && newId !in store
      && o.store == store[newId := Job(userId, if file.name != "" then file.name else SanitizeFilename("upload"),
                                      Some(key), Uploaded, Some(template), None, None, now)]
  {
    var safeName := SanitizeFilename(if file.name != "" then file.name else "upload");
    var key := StorageKey(userId, now, file.name);
    match upload(key)
    case Failure(e) => Outcome([key], store, Failure(e))
    case Success(_) =>
      if newId in store then Outcome([key], store, Failure(ServiceError("Unique constraint failed on id")))
      else
        var job := Job(userId, if file.name != "" then file.name else safeName, Some(key), Uploaded,
                       Some(template), None, None, now);
        Outcome([key], store[newId := job], Success(Stored(newId, key)))
  }
}

=== FILE: wrappers.dfy ===
/** Option and Result, the failure-carrying types every other module uses. */
module Wrappers {

  /** `None` stands for JavaScript's `undefined` or `null`, `Some` for a present value. */
  datatype Option<+T> = None | Some(value: T) {
    function GetOr(default: T): T {
      match this
      case Some(v) => v
      case None => default
    }
  }

  /** `Failure` stands for a thrown exception, `Success` for a returned value. */
  datatype Result<+R, +E> = Success(value: R) | Failure(error: E)
}
